=== FILE: README.md ===
# douyin-openapi generator core, in Dafny

The generator reads the Douyin open-platform API documentation and produces an OpenAPI
description. The documentation describes request and response fields in tables, written
either as HTML tables or as Markdown pipe tables. This project models the core of that
process and proves properties of the model:

- **DocFields** models `DocField`. It covers the field record and its lazily inferred
  type token, and the ordered column-name → setter table. It also covers the `setDesc`
  rewriting, the type tests (object, array, map, primitive), the primitive schema
  classification and `flatChildren`/`getParent`. Fields live in an arena of records
  addressed by index. Children lists are separate arena objects, because the parsers
  share one list between several fields and an append through one owner is seen by all.
- **HtmlTable** models the table layer of `HtmlParser`:
  - the header's column range map (`toRangeMetadata`) with its colspan arithmetic;
  - the decoding of one row into a field;
  - the nesting of rows into a forest by level (`tableToDocFields`);
  - two-column tables read as a map (`tableToMap`);
  - `key: value` lines read as fields (`parseHead`).
- **HtmlStitch** models `HtmlParser.parseTable` and `getPreHeadingText`. A section's first
  table gives the top-level fields. Each later table in the section is a class table, named
  by the nearest preceding text that the registry of object-like fields accepts. It is
  attached to every registered field whose type mentions that class or whose name is that
  class.
- **Markdown** models the Markdown variant (`MarkdownParser`). Pipe-table lines become
  string rows, and rows nest by their depth marker. A table under a sub-heading replaces
  the children of the first field the heading names.
- **FieldSchema** models `DocField.toSchema` and `toObjectSchema`: a field tree becomes a
  schema. This includes the array, object, map and primitive branches, the
  single-child collapse, later-wins property maps and the per-field memo.
- **Generator** models `GeneratorContent`. It covers the schema-name prefix of an operation
  and `addSchema`, which moves nested object schemas into the components registry and
  leaves `$ref`s behind. It also covers the response and request-body schemas and the
  cached operation id.
- **Schemas**, **OrderedMap** and **Text** hold what the core takes from its libraries:
  - the subset of the OpenAPI Schema Object it builds;
  - `LinkedHashMap` put/get;
  - the Java, commons-lang and Guava string operations it calls (`String.split`, `trim`,
    `replace`, `indexOf`, `containsIgnoreCase`, `CaseFormat`, `NumberUtils`).

Everything is a pure function over immutable values. A Java object that several owners
share and mutate is modelled explicitly, either as an arena entry or as a registry heap
slot. Two places where the code does something a reader might not expect:

- The name-column test `containsAny(it, "名称")` is the single-argument overload. It tests
  for either character 名 or 称, not for the two-character word.
- A field is not immutable once its schema is computed. `toObjectSchema` hands out a child's
  cached schema object, and the owner's `_default`/`name` calls then change that object.
  This aliasing is listed under Left out.

Where a finding below shows the code doing something other than what it evidently
intends, the model states both. The rest of the model uses the corrected behaviour.

## Model

| member | source | states |
|---|---|---|
| DocFields.GetType | generator/src/main/java/com/github/eahau/openapi/douyin/generator/DocField.java:75-101 | An explicit type is answered unchanged. Otherwise content-type and access-token read as "string". Otherwise the default value, or failing that the example, decides between number, bool and string, and that token is stored. With neither, the answer is "struct" and nothing is stored. No other attribute of the field changes. |
| DocFields.GetTypeIdempotent | generator/src/main/java/com/github/eahau/openapi/douyin/generator/DocField.java:75-101 | Asking for the type twice gives the same token, and the second call leaves the field as the first call left it. |
| DocFields.PrimitiveKindAsWritten | generator/src/main/java/com/github/eahau/openapi/douyin/generator/DocField.java:320-356 | The test order as written produces only primitive schema classes. |
| DocFields.Int64ReadAsInt32 | generator/src/main/java/com/github/eahau/openapi/douyin/generator/DocField.java:328-334 | As written, a field typed "int64" gets a 32-bit integer schema, because "int64" contains "int". |
| DocFields.PrimitiveKindOf | generator/src/main/java/com/github/eahau/openapi/douyin/generator/DocField.java:320-356 | The corrected test order produces only primitive schema classes. |
| DocFields.PrimitiveKindOrder | generator/src/main/java/com/github/eahau/openapi/douyin/generator/DocField.java:320-356 | A token containing "bool" always gives a boolean schema. A 64-bit marker in a token that is not a string type gives an int64 schema. A file schema arises only for binary or form-data fields. Every token without a 64-bit marker is classified exactly as the code as written classifies it. |
| DocFields.Int64ReadAsLong | generator/src/main/java/com/github/eahau/openapi/douyin/generator/DocField.java:335-342 | With the 64-bit test first, an "int64" field gets the int64 integer schema. |
| DocFields.PrimitiveDefault | generator/src/main/java/com/github/eahau/openapi/douyin/generator/DocField.java:329-349 | Integer, long and number schemas carry no default unless the default text is creatable. A boolean schema always carries the parsed flag. |
| DocFields.PrimitiveSchemaOrNull | generator/src/main/java/com/github/eahau/openapi/douyin/generator/DocField.java:320-356 | A primitive schema exists exactly when the token is classified. It is a fresh schema of the classified class, carrying only its default. |
| DocFields.NonObjectIsPrimitive | generator/src/main/java/com/github/eahau/openapi/douyin/generator/DocField.java:307-318 | A field that is not object-typed always has a primitive schema. So the exception of `toPrimitiveSchema` cannot fire from the last branch of `toSchema`. |
| DocFields.TypeTests | generator/src/main/java/com/github/eahau/openapi/douyin/generator/DocField.java:243-262 | Object-typed exactly when the type is an object alias or has no primitive schema. Map-typed exactly when the type starts with "map" ignoring case. An array of objects is an array whose last non-container token is an object alias, or that has no such token at all. |
| DocFields.Tokens | generator/src/main/java/com/github/eahau/openapi/douyin/generator/DocField.java:360 | The tokens of a type are the maximal runs of characters other than `[]<>(),`, in order: each is non-empty and free of delimiters, and together they spell exactly the non-delimiter characters of the type. |
| DocFields.TokensOfJoin | generator/src/main/java/com/github/eahau/openapi/douyin/generator/DocField.java:360 | Non-empty, delimiter-free words joined by any one delimiter tokenize back to exactly those words. |
| DocFields.LastNonContainer | generator/src/main/java/com/github/eahau/openapi/douyin/generator/DocField.java:363-368 | Returns the position of the last token that is not "list" or "array". It returns nothing exactly when every token is a container word. |
| DocFields.LastParamTypeLoop | generator/src/main/java/com/github/eahau/openapi/douyin/generator/DocField.java:358-371 | The token loop ends with the last non-container token, or "object" when there is none. The answer is always "object" or one of the tokens. |
| DocFields.FirstMatch | generator/src/main/java/com/github/eahau/openapi/douyin/generator/DocField.java:282-290 | The setter of the first rule whose predicate accepts the column. None exactly when no rule accepts it. |
| DocFields.GetByColumnName | generator/src/main/java/com/github/eahau/openapi/douyin/generator/DocField.java:268-290 | Over the fixed setter table, the first accepting rule decides the setter. A column no rule accepts has no setter. |
| DocFields.BlankColumnSetsName | generator/src/main/java/com/github/eahau/openapi/douyin/generator/DocField.java:270-272 | The empty column name, the blank-header fallback's last resort, selects the name setter. |
| DocFields.RequiredColumn | generator/src/main/java/com/github/eahau/openapi/douyin/generator/DocField.java:273-275 | A column that mentions 必 and is neither a name column nor a type column selects the required flag. |
| DocFields.Apply | generator/src/main/java/com/github/eahau/openapi/douyin/generator/DocField.java:268-280 | The required flag is set exactly when the value is 是 or "true" ignoring case. The name setter replaces the name and every other setter keeps it. No setter touches the children, the alternates or the parent. |
| DocFields.SplitPiece | generator/src/main/java/com/github/eahau/openapi/douyin/generator/DocField.java:217-228 | The piece cut out of a description is strictly shorter than the description, so the recursive `setDesc` ends. There is no piece when the key does not occur. |
| DocFields.ApplyFixedValue | generator/src/main/java/com/github/eahau/openapi/douyin/generator/DocField.java:214-228 | Only the default can change, and only when the description mentions 固定值. |
| DocFields.MsgCoercion | generator/src/main/java/com/github/eahau/openapi/douyin/generator/DocField.java:232-239 | Only the type can change, and only for a field named "msg". |
| DocFields.SetDescription | generator/src/main/java/com/github/eahau/openapi/douyin/generator/DocField.java:204-241 | Only the description, the default and the type can change. A content-type field described with application/json becomes a string with that default. |
| DocFields.PlainDescriptionKept | generator/src/main/java/com/github/eahau/openapi/douyin/generator/DocField.java:204-229 | A description without an example marker is kept whole as the description. |
| DocFields.MsgCoercionType | generator/src/main/java/com/github/eahau/openapi/douyin/generator/DocField.java:232-239 | The "msg" coercion only ever replaces a known type by "Json Object". It does so for a "msg" string whose description mentions JSON in any case. |
| DocFields.MsgStaysStringOrJson | generator/src/main/java/com/github/eahau/openapi/douyin/generator/DocField.java:204-241 | Through all recursive rewriting, a "msg" string field only ever ends as "string" or "Json Object". |
| DocFields.MsgJsonIsObject | generator/src/main/java/com/github/eahau/openapi/douyin/generator/DocField.java:204-241 | A "msg" string field whose description mentions JSON ends as "Json Object". |
| DocFields.AlternateKeysDistinct | generator/src/main/java/com/github/eahau/openapi/douyin/generator/DocField.java:133-136 | The alternate child sets get pairwise different keys (name + count), so none overwrites another. |
| DocFields.AddAlternate | generator/src/main/java/com/github/eahau/openapi/douyin/generator/DocField.java:133-136 | `addSchema` appends one more child set to the field's alternates. No other field and no list changes. |
| DocFields.AppendToList | generator/src/main/java/com/github/eahau/openapi/douyin/generator/parser/HtmlParser.java:782-785 | Adding a child appends it at the end of that children list. Every other list and every field stays as it was. |
| DocFields.SetChildren | generator/src/main/java/com/github/eahau/openapi/douyin/generator/parser/HtmlParser.java:521-523 | `setChildren` makes the field share the given list object. Nothing else changes. |
| DocFields.FlatChildren | generator/src/main/java/com/github/eahau/openapi/douyin/generator/DocField.java:138-156 | A field id is among the flattened children exactly when it is a leaf lying somewhere below the field, at any depth. |
| DocFields.FlatOf | generator/src/main/java/com/github/eahau/openapi/douyin/generator/DocField.java:147-153 | The loop over a children list yields exactly the leaves that are entries of the list or lie below one of its entries. |
| DocFields.GetParent | generator/src/main/java/com/github/eahau/openapi/douyin/generator/DocField.java:160-171 | The parent answered is an earlier field and is object-typed. |
| DocFields.GetParentNearest | generator/src/main/java/com/github/eahau/openapi/douyin/generator/DocField.java:160-171 | `getParent` answers the first object-typed entry of the ancestor chain, and nothing exactly when no ancestor is object-typed. |
| FieldSchema.ToSchema | generator/src/main/java/com/github/eahau/openapi/douyin/generator/DocField.java:396-424 | Every field's schema carries the field's name and description, and its example cast by the schema's class: a boolean schema holds the parsed flag, an integer schema the number or nothing, any other class the text. Apart from these three tags it is the field's untagged schema. |
| FieldSchema.ToSchemaKind | generator/src/main/java/com/github/eahau/openapi/douyin/generator/DocField.java:403-419 | An array-typed field always gives an array schema with items. A field that is neither an array nor an object never gives an array. |
| FieldSchema.ShapeOf | generator/src/main/java/com/github/eahau/openapi/douyin/generator/DocField.java:403-419 | The branches are tried in source order. Array exactly when array-typed. Object exactly when object-typed and not an array. Map exactly when map-typed and neither of those. The last branch is reached only with a primitive schema available. |
| FieldSchema.SchemaBody | generator/src/main/java/com/github/eahau/openapi/douyin/generator/DocField.java:403-419 | An array of objects gets the object schema of its children as items, any other array the element schema. A map gets the element schema as additional properties. Arrays and maps carry the default text. An object is its object schema with the default cast by that schema's class, which is the single child's class when the child stands for the object. A "{}" default becomes no default. A primitive field gets exactly its primitive schema. |
| FieldSchema.ElementSchema | generator/src/main/java/com/github/eahau/openapi/douyin/generator/DocField.java:406-408 | Items (or map values) are the primitive schema of the last type parameter when it has one, and the object schema of the field's children otherwise. |
| FieldSchema.ToObjectSchema | generator/src/main/java/com/github/eahau/openapi/douyin/generator/DocField.java:377-394 | A single child that is neither object-typed nor an array of primitives stands for its owner. Otherwise the result is an object, without items or additional properties, whose property map is built from the children in order. |
| FieldSchema.PropsOf | generator/src/main/java/com/github/eahau/openapi/douyin/generator/DocField.java:384-389 | The property map of an object never holds a key twice. |
| FieldSchema.PropsLaterWins | generator/src/main/java/com/github/eahau/openapi/douyin/generator/DocField.java:384-389 | Each property holds the schema of the last child with that name. There is a property for exactly the names the children carry. |
| FieldSchema.ObjectFieldProperty | generator/src/main/java/com/github/eahau/openapi/douyin/generator/DocField.java:377-419 | The schema of an object-typed field that does not collapse has, under each name, the schema of its last child with that name, and no property for a name no child carries. |
| FieldSchema.ToSchemaMemo | generator/src/main/java/com/github/eahau/openapi/douyin/generator/DocField.java:396-424 | The cached computation answers exactly the schema of the field. The cache stays sound, keeps every earlier entry and gains this field. |
| FieldSchema.BodyMemo | generator/src/main/java/com/github/eahau/openapi/douyin/generator/DocField.java:400-419 | The branches over the cache give exactly the uncached body, and the cache stays sound. |
| FieldSchema.ElementSchemaMemo | generator/src/main/java/com/github/eahau/openapi/douyin/generator/DocField.java:406-408 | The element schema over the cache is the uncached one. |
| FieldSchema.ObjectSchemaMemo | generator/src/main/java/com/github/eahau/openapi/douyin/generator/DocField.java:377-394 | `toObjectSchema` over the cache is the uncached one. |
| FieldSchema.PropsMemo | generator/src/main/java/com/github/eahau/openapi/douyin/generator/DocField.java:384-389 | The property map built child by child through the cache is the uncached map. |
| FieldSchema.PropMemo | generator/src/main/java/com/github/eahau/openapi/douyin/generator/DocField.java:386-389 | One child added through the cache extends the property map exactly as the uncached map grows. |
| HtmlTable.ColspanOf | generator/src/main/java/com/github/eahau/openapi/douyin/generator/parser/HtmlParser.java:653-656 | A colspan is read exactly when the attribute is present and parses as a 32-bit integer. |
| HtmlTable.ColspanSum | generator/src/main/java/com/github/eahau/openapi/douyin/generator/parser/HtmlParser.java:653-658 | `calculateColspan` succeeds exactly when every cell's colspan parses. |
| HtmlTable.UnitColspans | generator/src/main/java/com/github/eahau/openapi/douyin/generator/parser/HtmlParser.java:653-658 | Cells of colspan "1" sum to their number. |
| HtmlTable.Lookup | generator/src/main/java/com/github/eahau/openapi/douyin/generator/parser/HtmlParser.java:743 | `RangeMap.get` finds nothing exactly when no range contains the index. Otherwise it answers the column of a range that contains it. |
| HtmlTable.LookupDisjoint | generator/src/main/java/com/github/eahau/openapi/douyin/generator/parser/HtmlParser.java:743 | In a range map without overlaps, the range containing the index gives the answer. |
| HtmlTable.SpanOf | generator/src/main/java/com/github/eahau/openapi/douyin/generator/parser/HtmlParser.java:685-689 | A range exists exactly when lower <= upper. Equal bounds give the singleton, otherwise the closed-open range. |
| HtmlTable.ToRangeMetadata | generator/src/main/java/com/github/eahau/openapi/douyin/generator/parser/HtmlParser.java:660-701 | An empty header row fails. A built range map never has overlapping ranges. |
| HtmlTable.PlainHeaderColumns | generator/src/main/java/com/github/eahau/openapi/douyin/generator/parser/HtmlParser.java:660-701 | With a header of plain, non-empty cells, every index maps to the column above it, and every index past the end maps to the last column. |
| HtmlTable.Columns | generator/src/main/java/com/github/eahau/openapi/douyin/generator/parser/HtmlParser.java:716 | `eachText` of the header cells: every non-empty header text is a column, every column is a header text, and for a header of non-empty cells the columns are exactly its texts in order. |
| HtmlTable.ColumnsAppend | generator/src/main/java/com/github/eahau/openapi/douyin/generator/parser/HtmlParser.java:716 | The columns of two header stretches are the columns of the first followed by those of the second. |
| HtmlTable.LastNonBlank | generator/src/main/java/com/github/eahau/openapi/douyin/generator/parser/HtmlParser.java:745-749 | Returns the last non-blank earlier header, or "" exactly when every earlier header is blank. |
| HtmlTable.ColumnFor | generator/src/main/java/com/github/eahau/openapi/douyin/generator/parser/HtmlParser.java:743-750 | A non-blank range-map column is used as is. Otherwise cell 1 takes the first column (failing when there is none), a cell within the columns takes the last non-blank column before it, and a cell past the columns fails. |
| HtmlTable.NextColspanSum | generator/src/main/java/com/github/eahau/openapi/douyin/generator/parser/HtmlParser.java:732-735 | A cell without colspan leaves the running total unchanged. A cell with one succeeds exactly when it parses as a 32-bit integer, and adds that number to the total. |
| HtmlTable.DecodeCells | generator/src/main/java/com/github/eahau/openapi/douyin/generator/parser/HtmlParser.java:728-761 | Decoding only sets attributes and never touches the children, the alternates or the parent. The name index is the cell that first named the field, and it never moves once the field is named. |
| HtmlTable.Leveled | generator/src/main/java/com/github/eahau/openapi/douyin/generator/parser/HtmlParser.java:769-774 | Only the name can change. A name not led by '.' or '-' keeps the field and its name index. |
| HtmlTable.LeadingDotsGiveLevel | generator/src/main/java/com/github/eahau/openapi/douyin/generator/parser/HtmlParser.java:769-774 | A name written as n dots and a dot-free word sits at level n and is renamed to the trimmed word. |
| HtmlTable.NearestBelow | generator/src/main/java/com/github/eahau/openapi/douyin/generator/parser/HtmlParser.java:777-781 | Returns the greatest open level below the row's level, or none when no lower level is open. |
| HtmlTable.AddRow | generator/src/main/java/com/github/eahau/openapi/douyin/generator/parser/HtmlParser.java:776-791 | A row adds exactly one field, under the nearest open parent of a lower level. It is returned as a top-level field exactly when its level is 0. |
| HtmlTable.NestedOrphanDropped | generator/src/main/java/com/github/eahau/openapi/douyin/generator/parser/HtmlParser.java:776-791 | A nested row with no open parent below its level is neither returned nor anybody's child. |
| HtmlTable.AddRowOpens | generator/src/main/java/com/github/eahau/openapi/douyin/generator/parser/HtmlParser.java:787-789 | A row becomes an open parent exactly when it is object-typed or an array of objects, and then at its own level. Every other level keeps its parent. |
| HtmlTable.AddRowShaped | generator/src/main/java/com/github/eahau/openapi/douyin/generator/parser/HtmlParser.java:776-791 | Adding a row keeps the table a forest. Parents precede and list their children, open parents and top-level fields are new fields, and top-level fields have no parent. |
| HtmlTable.RowStep | generator/src/main/java/com/github/eahau/openapi/douyin/generator/parser/HtmlParser.java:723-792 | A row fails exactly when its cells cannot be decoded. A row whose name is blank, "." or "-" changes nothing. Any other row adds one new field, named by its leveled name, under the nearest open parent below its level, and is returned exactly when its level is 0. Earlier fields stay as they were. |
| HtmlTable.RowStepGrown | generator/src/main/java/com/github/eahau/openapi/douyin/generator/parser/HtmlParser.java:723-792 | A row keeps every earlier field and top-level field, and adds the name it contributes to the top-level names: its own for a kept level-0 row, none otherwise. |
| HtmlTable.GrownTrans | generator/src/main/java/com/github/eahau/openapi/douyin/generator/parser/HtmlParser.java:720-794 | Growth composes: two steps of growth are one growth by both lists of names. |
| HtmlTable.RowsLoop | generator/src/main/java/com/github/eahau/openapi/douyin/generator/parser/HtmlParser.java:720-794 | The rows keep the forest shape and fail exactly when some row cannot be decoded. The top-level fields gained are named, in row order, by the kept level-0 rows and no others. |
| HtmlTable.TableToDocFields | generator/src/main/java/com/github/eahau/openapi/douyin/generator/parser/HtmlParser.java:703-795 | A table without rows gives nothing. Otherwise the table fails exactly when its header or some data row cannot be read. The answer is a forest of new fields whose top-level fields are, in row order, exactly the kept rows at level 0. |
| HtmlTable.TableToMap | generator/src/main/java/com/github/eahau/openapi/douyin/generator/parser/HtmlParser.java:191-205 | The map read from a table never holds a key twice. |
| HtmlTable.TableToMapLaterWins | generator/src/main/java/com/github/eahau/openapi/douyin/generator/parser/HtmlParser.java:196-202 | A key maps to the second text of the last two-text row whose first text is that key. Keys no such row carries are absent. |
| HtmlTable.SplitOnce | generator/src/main/java/com/github/eahau/openapi/douyin/generator/parser/HtmlParser.java:616 | `split(sep, 2)`: the two pieces rejoined by the separator give the text back, and the first piece holds no separator. |
| HtmlTable.ParseHead | generator/src/main/java/com/github/eahau/openapi/douyin/generator/parser/HtmlParser.java:608-634 | One field per text. Every field is a fresh top-level leaf, and a text with neither colon gives a field with nothing set. |
| HtmlTable.ParseHeadUnknownKey | generator/src/main/java/com/github/eahau/openapi/douyin/generator/parser/HtmlParser.java:618-627 | A `key:value` line whose key no setter knows becomes a string field named by the key. |
| HtmlStitch.FirstPiece | generator/src/main/java/com/github/eahau/openapi/douyin/generator/parser/HtmlParser.java:399-400 | The first piece of `split(" ")`: a prefix of the text without spaces that runs up to the first space, or is the whole text when there is none. |
| HtmlStitch.KeepClassChars | generator/src/main/java/com/github/eahau/openapi/douyin/generator/parser/HtmlParser.java:401-405 | The class word is made of ASCII letters and '_', holds every such character of its piece, and equals the piece exactly when the piece has no other character. |
| HtmlStitch.KeepClassCharsAppend | generator/src/main/java/com/github/eahau/openapi/douyin/generator/parser/HtmlParser.java:401-405 | The filter works character by character: filtering two joined texts is filtering each in turn, so the kept characters stay in order. |
| HtmlStitch.KeepClassCharsOne | generator/src/main/java/com/github/eahau/openapi/douyin/generator/parser/HtmlParser.java:401-405 | One character is kept exactly when it is an ASCII letter or '_'. |
| HtmlStitch.ClassCharsAreNotBlank | generator/src/main/java/com/github/eahau/openapi/douyin/generator/parser/HtmlParser.java:401-408 | A non-empty class word always passes the not-blank filter. |
| HtmlStitch.Register | generator/src/main/java/com/github/eahau/openapi/douyin/generator/parser/HtmlParser.java:420-452 | After registering, the key "name:type" answers that field, every other key answers as before, and the fields themselves are untouched. |
| HtmlStitch.RegisterAll | generator/src/main/java/com/github/eahau/openapi/douyin/generator/parser/HtmlParser.java:448-452 | Registering any number of fields never touches the fields. |
| HtmlStitch.FirstAccepting | generator/src/main/java/com/github/eahau/openapi/douyin/generator/parser/HtmlParser.java:485-510 | Returns the first registered field, in registry order, that accepts the class name. None exactly when no registered field accepts it. |
| HtmlStitch.Matcher | generator/src/main/java/com/github/eahau/openapi/douyin/generator/parser/HtmlParser.java:485-510 | A class name is accepted exactly when some registered field's name starts with it, its type contains it, or its description contains it. A rejected name changes nothing, and existing fields are never altered. |
| HtmlStitch.MatcherCreatesChild | generator/src/main/java/com/github/eahau/openapi/douyin/generator/parser/HtmlParser.java:497-507 | A description match leaves a new child of type "object", named after the class, in the accepting field's children. It is registered under "clz:object". |
| HtmlStitch.PreHeading | generator/src/main/java/com/github/eahau/openapi/douyin/generator/parser/HtmlParser.java:384-411 | A class name found is non-blank, made of letters and '_', and is the class word of the nearest node at or before the start that offers a word the registry accepts. When none is found, nothing changes. |
| HtmlStitch.PreHeadingFindsNone | generator/src/main/java/com/github/eahau/openapi/douyin/generator/parser/HtmlParser.java:384-411 | No class name is found exactly when no node at or before the start offers a non-blank class word that the registry accepts. |
| HtmlStitch.EmptyRegistryFindsNothing | generator/src/main/java/com/github/eahau/openapi/douyin/generator/parser/HtmlParser.java:384-411 | With nothing registered, no class name is ever found. |
| HtmlStitch.AttachOne | generator/src/main/java/com/github/eahau/openapi/douyin/generator/parser/HtmlParser.java:520-526 | A field without children takes the table as its children. A field with different children gets the table as an alternate set. A field already holding an equal list is left as it was. No other field changes. |
| HtmlStitch.AttachAll | generator/src/main/java/com/github/eahau/openapi/douyin/generator/parser/HtmlParser.java:517-527 | Fields outside the registry are left as they were. |
| HtmlStitch.AttachAllSkips | generator/src/main/java/com/github/eahau/openapi/douyin/generator/parser/HtmlParser.java:517-519 | A field whose type does not mention the class and whose name is not the class is left exactly as it was. |
| HtmlStitch.AttachOneGivesTable | generator/src/main/java/com/github/eahau/openapi/douyin/generator/parser/HtmlParser.java:521-523 | A field without children, or already sharing this table, ends with the table as its children. Nothing else about it changes. |
| HtmlStitch.AttachAllGivesTable | generator/src/main/java/com/github/eahau/openapi/douyin/generator/parser/HtmlParser.java:517-527 | Every registered field that takes the class and had no children (or had this table already) ends with the table as its children. |
| HtmlStitch.Reshare | generator/src/main/java/com/github/eahau/openapi/douyin/generator/parser/HtmlParser.java:529-532 | Sharing registered children keeps the arena well formed, with the same fields and lists. |
| HtmlStitch.ProcessBlock | generator/src/main/java/com/github/eahau/openapi/douyin/generator/parser/HtmlParser.java:471-532 | A node without a table changes nothing. A processed table keeps the registry well formed. |
| HtmlStitch.UnnamedTableFails | generator/src/main/java/com/github/eahau/openapi/douyin/generator/parser/HtmlParser.java:483-515 | A class table that no preceding text names is rejected, which models the `IllegalArgumentException`. |
| HtmlStitch.NextHeading | generator/src/main/java/com/github/eahau/openapi/douyin/generator/parser/HtmlParser.java:454 | `getNextAny(Heading)`: the first heading at or after the position, with no heading before it. |
| HtmlStitch.PrevHeading | generator/src/main/java/com/github/eahau/openapi/douyin/generator/parser/HtmlParser.java:415 | `getPreviousAny(Heading)`: the last heading before the position, and none exactly when there is no earlier heading. |
| HtmlStitch.ScanNodes | generator/src/main/java/com/github/eahau/openapi/douyin/generator/parser/HtmlParser.java:462-533 | Scanning the nodes of a section keeps the registry well formed. |
| HtmlStitch.ScanWithoutTables | generator/src/main/java/com/github/eahau/openapi/douyin/generator/parser/HtmlParser.java:471-476 | Nodes without tables change nothing. |
| HtmlStitch.TrailingSubHeadingLoops | generator/src/main/java/com/github/eahau/openapi/douyin/generator/parser/HtmlParser.java:454-534 | As written, a section whose only sub-heading is the last node brings the outer loop back to the same node forever. |
| HtmlStitch.SubHeadingBeforeNextSectionLoops | generator/src/main/java/com/github/eahau/openapi/douyin/generator/parser/HtmlParser.java:454-534 | As written, a sub-heading directly followed by the next section's heading brings the outer loop back to the same node forever. |
| HtmlStitch.OuterStep | generator/src/main/java/com/github/eahau/openapi/douyin/generator/parser/HtmlParser.java:454-534 | The corrected round moves from a sub-heading to the next heading that ends the section. It moves to none exactly when no such heading follows. |
| HtmlStitch.OuterStepAgrees | generator/src/main/java/com/github/eahau/openapi/douyin/generator/parser/HtmlParser.java:454-534 | Wherever the loop as written does advance, it advances exactly as the corrected round. |
| HtmlStitch.OuterStepAsWritten | generator/src/main/java/com/github/eahau/openapi/douyin/generator/parser/HtmlParser.java:454-534 | The round as written stays on the sub-heading exactly when no node follows it or the node right after it is a heading ending the section. Otherwise it moves to the first section-ending heading past that node, or to none when there is none. |
| HtmlStitch.ParseTable | generator/src/main/java/com/github/eahau/openapi/douyin/generator/parser/HtmlParser.java:413-537 | A table with no heading before it fails. Otherwise the answer is the top-level fields of the section's first table, and the arena stays well formed. |
| Markdown.TableLines | generator/src/main/java/com/github/eahau/openapi/douyin/generator/parser/MarkdownParser.java:218 | A line is kept exactly when it holds a pipe character and no '-'. |
| Markdown.TableLinesAppend | generator/src/main/java/com/github/eahau/openapi/douyin/generator/parser/MarkdownParser.java:218 | The filter keeps the lines in order: the table lines of two stretches of a block are those of the first followed by those of the second. |
| Markdown.CleanCell | generator/src/main/java/com/github/eahau/openapi/douyin/generator/parser/MarkdownParser.java:225-226 | A cleaned cell holds no '*', is no longer than the raw cell, and neither starts nor ends with a space or control character. |
| Markdown.CleanAll | generator/src/main/java/com/github/eahau/openapi/douyin/generator/parser/MarkdownParser.java:225-226 | Each cell is cleaned in place: no cleaned cell holds a '*' or is longer than the raw cell. |
| Markdown.LineCells | generator/src/main/java/com/github/eahau/openapi/douyin/generator/parser/MarkdownParser.java:221-227 | A line that splits into fewer than two pieces fails, because the stream limit would be negative. Otherwise the line has two cells fewer than pieces. |
| Markdown.ContentToList | generator/src/main/java/com/github/eahau/openapi/douyin/generator/parser/MarkdownParser.java:213-230 | One row per table line, in order: row k is the cleaned cells of the k-th table line. The conversion fails exactly when some table line splits into fewer than two pieces. |
| Markdown.SplitJoinedLine | generator/src/main/java/com/github/eahau/openapi/douyin/generator/parser/MarkdownParser.java:221 | Splitting a line of pipe-separated words that starts with a pipe gives back its words, less the trailing empty ones. |
| Markdown.LineRoundTrip | generator/src/main/java/com/github/eahau/openapi/douyin/generator/parser/MarkdownParser.java:220-227 | A line of cells framed by pipe characters, followed by its terminator, gives back exactly the cleaned cells. |
| Markdown.LineWithoutTerminator | generator/src/main/java/com/github/eahau/openapi/douyin/generator/parser/MarkdownParser.java:220-227 | The same line ending at its closing pipe character loses its last cell. |
| Markdown.ColumnOf | generator/src/main/java/com/github/eahau/openapi/douyin/generator/parser/MarkdownParser.java:254-261 | A cell past the header fails. A non-blank header is the column. A blank header means the first header for cell 1, otherwise the nearest earlier non-blank header, or "". |
| Markdown.DecodeRow | generator/src/main/java/com/github/eahau/openapi/douyin/generator/parser/MarkdownParser.java:248-266 | Decoding never touches the children, the alternates or the parent. The name it ends with is the old name or one of the cells. |
| Markdown.Depth | generator/src/main/java/com/github/eahau/openapi/douyin/generator/parser/MarkdownParser.java:268-276 | A name with a dot sits at its number of dots, and loses that many leading characters. Any other name sits at the index of the first equal cell, or -1. A name among the cells never gets a negative depth. |
| Markdown.AddRow | generator/src/main/java/com/github/eahau/openapi/douyin/generator/parser/MarkdownParser.java:278-289 | Every row adds exactly one field, and every row's field is returned in row order. |
| Markdown.AddRowPlaces | generator/src/main/java/com/github/eahau/openapi/douyin/generator/parser/MarkdownParser.java:278-287 | The parent is the field registered at exactly depth - 1, which lists the row among its children. With no such field the row is a root. Only an object or array-of-object field is registered, at its own depth. |
| Markdown.RowStep | generator/src/main/java/com/github/eahau/openapi/douyin/generator/parser/MarkdownParser.java:245-290 | A row fails exactly when its cells cannot be read. Every readable row adds one returned field, a row that set no name included. The field bears the name left after its depth marker, and its parent is the field registered at exactly depth - 1, or none. |
| Markdown.RowsLoop | generator/src/main/java/com/github/eahau/openapi/douyin/generator/parser/MarkdownParser.java:244-291 | The rows add one returned field each, in order, and the loop fails exactly when some row cannot be read. |
| Markdown.TableToDocFields | generator/src/main/java/com/github/eahau/openapi/douyin/generator/parser/MarkdownParser.java:232-292 | A missing block gives nothing. A block without rows fails, since there is no header. Otherwise it fails exactly when some data row cannot be read, and every row after the header gives one new field, in row order. |
| Markdown.UnnamedRowKept | generator/src/main/java/com/github/eahau/openapi/douyin/generator/parser/MarkdownParser.java:245-276 | A row whose only cell is blank still gives a field, named "". |
| Markdown.DepthGapHasNoParent | generator/src/main/java/com/github/eahau/openapi/douyin/generator/parser/MarkdownParser.java:278-283 | A depth-2 row under a depth-0 object gets no parent here, while the HTML nesting rule would find depth 0. |
| Markdown.FirstNamedIn | generator/src/main/java/com/github/eahau/openapi/douyin/generator/parser/MarkdownParser.java:74-76 | Returns the first accumulated field whose name occurs in the heading text, or none exactly when no name occurs there. |
| Markdown.Stitch | generator/src/main/java/com/github/eahau/openapi/douyin/generator/parser/MarkdownParser.java:68-77 | The table's fields join the accumulated ones. The first field named in the heading gets the table as its children, and every other field stays as it was. |
| Markdown.StitchStep | generator/src/main/java/com/github/eahau/openapi/douyin/generator/parser/MarkdownParser.java:65-77 | One sub-heading step succeeds exactly when the block's rows can be read into fields. Those fields are then stitched to the accumulated ones under the heading's text. |
| Markdown.HeadingAsContentFails | generator/src/main/java/com/github/eahau/openapi/douyin/generator/parser/MarkdownParser.java:98-103 | A heading right after a sub-heading is passed over by the table overload. The content overload reads it and, without a table line in it, fails for want of a header row. |
| Markdown.Scan | generator/src/main/java/com/github/eahau/openapi/douyin/generator/parser/MarkdownParser.java:59-80 | Scanning the section keeps the arena well formed and never removes fields. |
| Markdown.ScanWithoutHeadings | generator/src/main/java/com/github/eahau/openapi/douyin/generator/parser/MarkdownParser.java:59-80 | A stretch without headings that ends at the end or at a heading of the table's own level stitches nothing. |
| Markdown.ScanStopsAtLevel | generator/src/main/java/com/github/eahau/openapi/douyin/generator/parser/MarkdownParser.java:59-63 | The scan stops at the first heading of the table's own level: cutting the document right after that heading never changes the result. |
| Markdown.SingleSubTable | generator/src/main/java/com/github/eahau/openapi/douyin/generator/parser/MarkdownParser.java:59-80 | A section whose only sub-heading is followed by a block gives exactly what stitching that one block gives, or its failure. |
| Markdown.ParseTable | generator/src/main/java/com/github/eahau/openapi/douyin/generator/parser/MarkdownParser.java:51-83 | A block that does not directly follow a heading fails. Otherwise the answer is the fields of the block's own table, for table blocks and for content blocks alike (lines 85-117). |
| Generator.SchemaPrefix | generator/src/main/java/com/github/eahau/douyin/openapi/generator/GeneratorContent.java:85-92 | A schema prefix never holds an underscore. |
| Generator.SchemaPrefixOfSegments | generator/src/main/java/com/github/eahau/douyin/openapi/generator/GeneratorContent.java:85-92 | For a path whose last two segments hold no underscore, the prefix is those two segments capitalized and run together. |
| Generator.SchemaPrefixOfSplit | generator/src/main/java/com/github/eahau/douyin/openapi/generator/GeneratorContent.java:87-89 | The prefix is the last two split pieces, joined by '_' and read as UpperCamel. |
| Generator.Register | generator/src/main/java/com/github/eahau/douyin/openapi/generator/GeneratorContent.java:241 | A new schema object is registered under the key, replacing any earlier one. Every other key keeps its handle, and no key is forgotten. |
| Generator.AddPropertyAt | generator/src/main/java/com/github/eahau/douyin/openapi/generator/GeneratorContent.java:250 | The parent object gains the property. No other registered object and no name changes. |
| Generator.FullName | generator/src/main/java/com/github/eahau/douyin/openapi/generator/GeneratorContent.java:268-274 | "extra" is always registered as "extra". Every other key starts with the prefix, and a key built from a prefix without '_' has no '_'. |
| Generator.ReuseRefAsWritten | generator/src/main/java/com/github/eahau/douyin/openapi/generator/GeneratorContent.java:280 | As written, the reuse property is a plain schema without properties whose `$ref` is the registered schema's own `$ref`, so it is null when that one is. |
| Generator.ReuseAsWritten | generator/src/main/java/com/github/eahau/douyin/openapi/generator/GeneratorContent.java:278-282 | As written, the parent's property is that reference. |
| Generator.ReusedSchemaLosesRef | generator/src/main/java/com/github/eahau/douyin/openapi/generator/GeneratorContent.java:278-282 | A registered schema has no `$ref` of its own, so the reference written as the code does points nowhere. The corrected one names the registered key. |
| Generator.Reuse | generator/src/main/java/com/github/eahau/douyin/openapi/generator/GeneratorContent.java:278-282 | When an equal schema is registered, the parent only gains a reference to its key, and the registry's names stay as they were. |
| Generator.ExtraRef | generator/src/main/java/com/github/eahau/douyin/openapi/generator/GeneratorContent.java:270-274 | Only "extra" gives the parent a plain reference to "extra". Every other name leaves everything unchanged. |
| Generator.AddSchema | generator/src/main/java/com/github/eahau/douyin/openapi/generator/GeneratorContent.java:257-309 | A schema with nothing to move changes nothing. A blank name with no parent name fails. Otherwise, when it succeeds, the parent gains the property, its key is registered, and no earlier object except the parent changes. |
| Generator.Relocate | generator/src/main/java/com/github/eahau/douyin/openapi/generator/GeneratorContent.java:284-307 | A new object is registered under the next handle: for an array, the item object named after the key, otherwise the schema itself. Only its properties can change afterwards. When the moved properties are its own, every moved key remains a property of it. The parent references it through an array property or an object reference. |
| Generator.MoveAll | generator/src/main/java/com/github/eahau/douyin/openapi/generator/GeneratorContent.java:305-307 | Moving the properties out of an object leaves every other earlier object untouched. A move that puts a new key into the object while properties remain fails, as the iterator over that map does. |
| Generator.BlankNestedNameThrows | generator/src/main/java/com/github/eahau/douyin/openapi/generator/GeneratorContent.java:266-307 | A nested object with a blank name takes its parent's name; when that is not yet one of the parent's properties and another property follows, the loop fails, with a concurrent modification once that nested move itself succeeds. |
| Generator.MoveLeaves | generator/src/main/java/com/github/eahau/douyin/openapi/generator/GeneratorContent.java:305-307 | Properties with nothing of their own to move change nothing. |
| Generator.LeafObjectRegistered | generator/src/main/java/com/github/eahau/douyin/openapi/generator/GeneratorContent.java:300-303 | An object whose properties are all leaves is registered unchanged under its key. |
| Generator.LeafRelocate | generator/src/main/java/com/github/eahau/douyin/openapi/generator/GeneratorContent.java:299-307 | Relocating such an object registers it unchanged and moves nothing. |
| Generator.SecondAddReuses | generator/src/main/java/com/github/eahau/douyin/openapi/generator/GeneratorContent.java:278-282 | Adding the same leaf object a second time, under any parent, takes the reuse branch. |
| Generator.RespStepAsWritten | generator/src/main/java/com/github/eahau/douyin/openapi/generator/GeneratorContent.java:245-252 | As written, one response field never loses anything already registered. |
| Generator.RespStep | generator/src/main/java/com/github/eahau/douyin/openapi/generator/GeneratorContent.java:245-252 | With the corrected routing, every response field leaves its key in the response object. A field with nothing to move is added as it is. |
| Generator.RespStepAgrees | generator/src/main/java/com/github/eahau/douyin/openapi/generator/GeneratorContent.java:245-252 | The two routings agree on every schema except an array whose items have no properties. |
| Generator.RoutesDiffer | generator/src/main/java/com/github/eahau/douyin/openapi/generator/GeneratorContent.java:245-264 | Every schema the corrected routing sends to `addSchema` is sent there as written too. The two routings differ exactly on a schema with items whose items have no properties. |
| Generator.PrimitiveArrayDropped | generator/src/main/java/com/github/eahau/douyin/openapi/generator/GeneratorContent.java:245-264 | As written, an array of integers named "ids" vanishes from the response. With the corrected routing, it is kept under its name. |
| Generator.RespLoop | generator/src/main/java/com/github/eahau/douyin/openapi/generator/GeneratorContent.java:245-252 | After all response fields, each field's key is a property of the response object. |
| Generator.RespKeysAreNames | generator/src/main/java/com/github/eahau/douyin/openapi/generator/GeneratorContent.java:245-250 | A field with a non-blank name is keyed by that name. |
| Generator.BuildRespSchema | generator/src/main/java/com/github/eahau/douyin/openapi/generator/GeneratorContent.java:239-255 | An object named prefix + "Response" is registered, and the answer references it. Every response field with a non-blank name is one of its properties. |
| Generator.RootKeys | generator/src/main/java/com/github/eahau/douyin/openapi/generator/GeneratorContent.java:151-154 | A selected key is exactly the name of a root field. |
| Generator.RootValues | generator/src/main/java/com/github/eahau/douyin/openapi/generator/GeneratorContent.java:151-154 | A selected entry is a root field's name and schema. |
| Generator.ReqProps | generator/src/main/java/com/github/eahau/douyin/openapi/generator/GeneratorContent.java:151-154 | The request body has a property for exactly the names of the root body fields, and each holds the schema of the last root field of that name. |
| Generator.SelectedRootsLaterWins | generator/src/main/java/com/github/eahau/douyin/openapi/generator/GeneratorContent.java:151-154 | Putting the root body fields in order leaves, under each name, the schema of the last root field of that name, and nothing under other names. |
| Generator.ReqBodySchema | generator/src/main/java/com/github/eahau/douyin/openapi/generator/GeneratorContent.java:148-157 | The request body schema is a plain object whose property names are exactly the root body fields' names, each holding the schema of the last root field of that name. |
| Generator.GetRequestBody | generator/src/main/java/com/github/eahau/douyin/openapi/generator/GeneratorContent.java:125-146 | The body is multipart exactly when some body field is binary, and JSON otherwise. It is required exactly when there are body fields, and carries the operation's description. |
| Generator.MethodName | generator/src/main/java/com/github/eahau/douyin/openapi/generator/GeneratorContent.java:341 | HTTP method names hold no underscore. |
| Generator.FirstKeyword | generator/src/main/java/com/github/eahau/douyin/openapi/generator/GeneratorContent.java:344-347 | Returns the first of GET, POST, DELETE occurring in the candidate ignoring case, or none exactly when none occurs. |
| Generator.Candidate | generator/src/main/java/com/github/eahau/douyin/openapi/generator/GeneratorContent.java:344-350 | A candidate without GET, POST or DELETE stays as it is. Otherwise it is lower-cased and every occurrence of the first keyword in that list order is cut out, keeping the pieces between them. Such a candidate always gets strictly shorter, so it changes exactly when it holds a keyword. |
| Generator.FirstKeywordOnly | generator/src/main/java/com/github/eahau/douyin/openapi/generator/GeneratorContent.java:344-350 | Keywords are tried in list order, not by position, and only the first found is removed: "post_get" loses "get" and keeps "post". |
| Generator.CandidateId | generator/src/main/java/com/github/eahau/douyin/openapi/generator/GeneratorContent.java:340-353 | An operation id is the lowerCamel reading of the lower-case method name, '_' and the cleaned candidate. It holds no underscore and starts with the lower-case method name. |
| Generator.LastPiece | generator/src/main/java/com/github/eahau/douyin/openapi/generator/GeneratorContent.java:334-336 | A documentation path has a cache key exactly when its split has pieces, which fails only for a path of separators alone. |
| Generator.OperationId | generator/src/main/java/com/github/eahau/douyin/openapi/generator/GeneratorContent.java:333-361 | Fails exactly when the path has no last piece. The first operation under a key is named after the key, later ones after their full path, and the cache keeps the latest id. |
| Generator.OperationIdSettles | generator/src/main/java/com/github/eahau/douyin/openapi/generator/GeneratorContent.java:338-360 | Asking again gives the path-based id, and from then on neither the id nor the cache changes. |
| Generator.SharedLastPiece | generator/src/main/java/com/github/eahau/douyin/openapi/generator/GeneratorContent.java:338-359 | Two documentation paths with the same last piece share a cache entry. The second operation is named after its path even if it never asked before. |
| Schemas.Cast | generator/src/main/java/com/github/eahau/openapi/douyin/generator/DocField.java:411-420 | A text set as example or default is stored by the schema's class. Null stays null. A boolean schema stores true exactly for "true" in any case, and false for any other text. An integer schema stores nothing for text that is not an optional '-' and decimal digits, and otherwise a number within 64 bits. Every other class stores the text unchanged. |
| Schemas.CastNumberRoundTrip | generator/src/main/java/com/github/eahau/openapi/douyin/generator/DocField.java:411-420 | An integer schema reads a rendered number, with or without a minus sign, back as that number. |
| Schemas.RefTo | generator/src/main/java/com/github/eahau/douyin/openapi/generator/GeneratorContent.java:290 | Setting `$ref` expands a bare name to a components reference and keeps a name with '.' or '/' as written. The name is always the end of the reference, and the reference always holds '/' or '.'. |
| Schemas.RefToIdempotent | generator/src/main/java/com/github/eahau/douyin/openapi/generator/GeneratorContent.java:290 | Setting `$ref` to an expanded reference keeps it: a reference is never expanded twice. |
| Schemas.AddProperty | generator/src/main/java/com/github/eahau/douyin/openapi/generator/GeneratorContent.java:250 | The property is then found under its key, every other property keeps its value, and nothing else of the schema changes. |
| OrderedMap.Put | generator/src/main/java/com/github/eahau/openapi/douyin/generator/parser/HtmlParser.java:442-444 | The key then maps to the value. An existing key keeps its position, and a new key is appended last. |
| OrderedMap.PutOther | generator/src/main/java/com/github/eahau/openapi/douyin/generator/parser/HtmlParser.java:442-444 | A put leaves every other key's value as it was. |
| OrderedMap.PutNoDup | generator/src/main/java/com/github/eahau/openapi/douyin/generator/parser/HtmlParser.java:442-444 | Putting keeps keys unique. |
| OrderedMap.PutOthers | generator/src/main/java/com/github/eahau/openapi/douyin/generator/parser/HtmlParser.java:442-444 | A put leaves the value of every other key as it was. |
| OrderedMap.SelectedLaterWins | generator/src/main/java/com/github/eahau/douyin/openapi/generator/GeneratorContent.java:151-154 | Putting the selected entries in order into an empty map: each key holds the value of its last selected entry, and unselected keys are absent. |
| Text.IndexOf | generator/src/main/java/com/github/eahau/openapi/douyin/generator/parser/MarkdownParser.java:275 | `List.indexOf`: the first equal cell, or -1 exactly when there is none. |
| Text.ToInt | generator/src/main/java/com/github/eahau/openapi/douyin/generator/DocField.java:331 | `NumberUtils.toInt` answers the signed decimal value of the text when it is an optional '+' or '-' followed by ASCII digits, within the 32-bit range. It answers 0 for any other text. |
| Text.ToLong | generator/src/main/java/com/github/eahau/openapi/douyin/generator/DocField.java:339 | `NumberUtils.toLong` answers the signed decimal value of the text when it is an optional '+' or '-' followed by ASCII digits, within the 64-bit range. It answers 0 for any other text. |
| Text.ToIntRoundTrip | generator/src/main/java/com/github/eahau/openapi/douyin/generator/DocField.java:331 | Any number within the 32-bit range, written in decimal with or without a minus sign, reads back as itself. |
| Text.ReplaceAll | generator/src/main/java/com/github/eahau/openapi/douyin/generator/parser/MarkdownParser.java:225 | `String.replace` with an empty replacement never lengthens the text. It changes the text exactly when the target occurs, and then shortens it. |
| Text.SplitAllJoin | generator/src/main/java/com/github/eahau/openapi/douyin/generator/parser/MarkdownParser.java:225 | The pieces between the leftmost non-overlapping occurrences, joined by the target, give the text back. |
| Text.ReplaceIsSplitJoin | generator/src/main/java/com/github/eahau/openapi/douyin/generator/parser/MarkdownParser.java:225 | `replace` puts the replacement between exactly those pieces. |
| Text.RemoveCharShortens | generator/src/main/java/com/github/eahau/openapi/douyin/generator/parser/MarkdownParser.java:225 | Removing "*" from a cell leaves no '*' behind and never lengthens it. |
| Text.UpperCamelHasNoUnderscore | generator/src/main/java/com/github/eahau/douyin/openapi/generator/GeneratorContent.java:268 | A component name's UpperCamel part never keeps an underscore. |
| Text.LowerCamelHasNoUnderscore | generator/src/main/java/com/github/eahau/douyin/openapi/generator/GeneratorContent.java:352 | An operation id read as lowerCamel never keeps an underscore. |
| Text.LowerCamelHead | generator/src/main/java/com/github/eahau/douyin/openapi/generator/GeneratorContent.java:349-352 | An id built from a method name, '_' and a candidate starts with the method name in lower case. |

## Left out

- Document I/O and the HTML and Markdown libraries are not modelled: the fetching, Jsoup
  and flexmark parsing, and `getChars`. A document is given as its sequence of top-level
  nodes. An HTML block is given as its table's rows of cells (text and colspan), and a
  Markdown table block as its string rows. The `tableToList` conversion
  (generator/src/main/java/com/github/eahau/openapi/douyin/generator/parser/MarkdownParser.java:192-211) is not part of this model.
- `tableToMap` reads a `HashMap`, whose iteration order Java leaves unspecified. The model
  keeps insertion order. The `tr`/`td`/`th` selection is folded into the given rows of texts.
- `toObjectSchema`'s property map comes from `Collectors.toMap` (a `HashMap`). Its order is
  modelled as document order.
- Schema object identity is not modelled. The `toSchema` memo is a map from field to
  schema. In the single-child collapse, Java returns the child's own cached schema object,
  and the owner's `_default` and `name` calls then also rename the child's schema. The
  model builds value copies and does not reproduce that aliasing.
- `Schema.equals` in the reuse test of `addSchema` is value equality of the modelled
  schema.
- `Schemas.Cast`: the swagger-models classes are not part of this model. The cast follows their `cast` methods: `IntegerSchema` parses with `NumberFormat` and then with `Integer.parseInt` or `Long.parseLong`. The model takes that to accept exactly an optional '-' and ASCII digits within 64 bits, so a leading '+', grouping separators and a fraction give no value. Locale-specific digits and separators are not modelled.
- `FieldSchema.ToSchema`: requires acyclic children (a rank that decreases from a field to
  its children). The Java recursion does not terminate on cyclic children.
- The static, concurrent `operationCache` is passed in and returned. Concurrency is left
  out.
- `NumberUtils.isCreatable` is modelled for decimal text: sign, digits, fraction and
  exponent. Hexadecimal, octal and type suffixes are not modelled. `toDouble` defaults are
  kept as their text, because floating point is left out.
- Java `int` overflow in the colspan sums is not modelled; the model adds unbounded
  integers.
- Case folding and `Character.isWhitespace` cover ASCII letters and the usual separators,
  not all of Unicode.
- `Text.ParseSigned`, and with it `Text.ToInt`, `Text.ToLong` and the colspan parse, reads
  ASCII digits only; `Integer.parseInt` and `Long.parseLong` also accept the other Unicode
  decimal digits.
- A Markdown heading's content lines are taken to be its one source line, so the content
  overload reads a heading after a sub-heading as that single line.
- Java `null` appears only where the source tests for it (optional attributes, a missing
  table). A field's name is never null, because `DocField` initialises it to "".
- `FirstText`: the first `Text` node inside a heading or paragraph is taken to be its whole
  text.
- These operations are not part of this model: `HtmlParser.parseBaseInfo`,
  `parseResponse`, `extractUrls` and the `data`-attribute branch of `parseTableOrData`
  (generator/src/main/java/com/github/eahau/openapi/douyin/generator/parser/HtmlParser.java:636-648). Also `GeneratorContent`'s rebuild branch of `buildRespSchema`
  (generator/src/main/java/com/github/eahau/douyin/openapi/generator/GeneratorContent.java:159-237), `getApiResponses`, the parameter conversion (`toParameter`) and
  `getParentName`/`getFullName`. Also `Main`, `GeneratorContents`, `JsonDocParser`, the
  HTTP client interfaces and `Misc` beyond its default-value key.
- `DocFields.PrimitiveKindAsWritten`: its contract only says the result is a primitive
  class; the classification itself is stated by `Int64ReadAsInt32` and
  `PrimitiveKindOrder`.
- `DocFields.PrimitiveKindOf`: likewise, the classification is stated by
  `PrimitiveKindOrder` and `Int64ReadAsLong`.
- `DocFields.FlatChildren`: states exactly which fields appear, not their order or how
  often a leaf reached through a shared children list appears.
- `HtmlTable.ToRangeMetadata`: states the empty-header error and disjointness. The exact
  ranges are stated only for plain headers (`PlainHeaderColumns`).
- `HtmlStitch.RegisterAll`: states that the fields are untouched, not which fields end up
  registered.
- `HtmlStitch.Reshare`: states that the arena stays well formed, not which fields end up
  sharing whose children.
- `HtmlStitch.ParseTable`: states the error case and the returned fields. The stitched
  arena is described only through `ProcessBlock`, `AttachAll`, `Matcher` and
  `PreHeadingFindsNone`.
- `Markdown.ParseTable`: states the error case and the returned fields. The stitched
  arena is described through `StitchStep`, `ScanStopsAtLevel`, `ScanWithoutHeadings` and
  `SingleSubTable`, not for sections with several sub-headings.
- `HtmlTable.TableToDocFields`: the data rows are taken to be the rows after the first.
  The source takes the next sibling of each selected `tr` (`elements.next()`,
  generator/src/main/java/com/github/eahau/openapi/douyin/generator/parser/HtmlParser.java:720). The two agree when all rows are siblings in one row group. With a
  `thead` and a `tbody`, or several `tbody` groups, the source skips the first row of each
  later group, and the model reads it.
- `Generator.MoveAll`: iterates the properties as they were when the loop started. When a
  blank-named property takes the parent's name and that name is the key of a later
  property, Java replaces that later value before reaching it and then visits the
  replacement, while the model visits the original.
- `Generator.AddSchema`: states the frame and that the name and key are present. The
  content of the registered objects after the recursive moves is stated only for leaf
  objects (`LeafObjectRegistered`) and for reuse (`SecondAddReuses`).
- `Generator.RespStepAsWritten`: states only the frame. Its difference from `RespStep` is
  stated by `RespStepAgrees` and `PrimitiveArrayDropped`.

## Findings

| source | as written | input that shows it | evidently intended | confidence | as-written member | corrected member |
|---|---|---|---|---|---|---|
| generator/src/main/java/com/github/eahau/openapi/douyin/generator/DocField.java:328-342 | The 32-bit test `containsAny(type, "int", "i32")` comes before the 64-bit test, and "int64" contains "int". | A field of type "int64" | An int64 field gets the integer schema with format int64 | high, not executed | DocFields.PrimitiveKindAsWritten (DocFields.Int64ReadAsInt32) | DocFields.PrimitiveKindOf (DocFields.Int64ReadAsLong, DocFields.PrimitiveKindOrder) |
| generator/src/main/java/com/github/eahau/openapi/douyin/generator/parser/HtmlParser.java:454-534 | The inner loop only advances `next` after handling the node after the sub-heading. When that node is missing or is a stop heading, the outer loop restarts from the same sub-heading. | A level-2 heading and its table, followed by a level-3 heading that is the last node (or is directly followed by a level-2 heading) | Each round moves on to the next heading that ends the section, so the loop ends | high, not executed | HtmlStitch.OuterStepAsWritten (HtmlStitch.TrailingSubHeadingLoops, HtmlStitch.SubHeadingBeforeNextSectionLoops) | HtmlStitch.OuterStep (HtmlStitch.OuterStepAgrees), used by HtmlStitch.ParseTable |
| generator/src/main/java/com/github/eahau/douyin/openapi/generator/GeneratorContent.java:245-264 | Any schema with items is routed to `addSchema`, which returns at once when the items have no properties. | A response field "ids" whose schema is an array of integers | A field `addSchema` has nothing to move is added to the response as it is | medium, not executed | Generator.RespStepAsWritten (Generator.PrimitiveArrayDropped) | Generator.RespStep (Generator.RespStepAgrees), used by Generator.RespLoop |
| generator/src/main/java/com/github/eahau/douyin/openapi/generator/GeneratorContent.java:278-282 | When an equal schema is already registered, the parent's property is `$ref(existSchema.get$ref())`. A registered schema carries no `$ref`, so that reference is null. | The same object schema added twice under the same key | The property references the registered key | high, not executed | Generator.ReuseAsWritten (Generator.ReusedSchemaLosesRef) | Generator.Reuse (Generator.SecondAddReuses), used by Generator.AddSchema |

=== FILE: base.dfy ===
/** Optional values, results, and the exceptions the generator core can raise. */
module Base {

  datatype Option<+T> = None | Some(value: T)

  /** Every way the modelled Java code stops with an exception. */
  datatype Failure =
    | EmptyHeaderRow          // `elements.get(0)` on a header row without cells
    | MissingColspan          // `Integer.parseInt("")` on a header cell without colspan
    | InvalidRange            // `Range.closedOpen(lower, upper)` with lower > upper
    | OverlappingRanges       // `ImmutableRangeMap.Builder.build()` on overlapping ranges
    | ColumnOutOfRange        // `columns.get(i)` / `columns.subList(0, i)` past the header
    | NoPrecedingHeading      // the table is not preceded by a heading
    | NoClassName(at: nat)    // no heading/paragraph names a known object field
    | NoHeaderRow             // a Markdown block without any table line
    | NegativeLimit           // `Stream.limit` with a negative size
    | NullSchemaName          // `CaseFormat.to(..., null)` in addSchema
    | ConcurrentModification  // a new key put into the map addSchema is iterating
    | NoPathSegment           // `pathArray[pathArray.length - 1]` on an empty split

  datatype Result<+T> = Ok(value: T) | Err(error: Failure) {
    predicate IsFailure() { Err? }
    function PropagateFailure<U>(): Result<U>
      requires Err?
    {
      Err(error)
    }
    function Extract(): T
      requires Ok?
    {
      value
    }
  }
}

=== FILE: doc_fields.dfy ===
/** The documented field record (`DocField`), its lazily inferred type token, the
    column-name → setter table, the type classification, and the field arena.

    Fields live in an arena addressed by index.  Children lists are arena objects of their
    own, because the parsers share one list between several fields (`setChildren(list)`)
    and later appends through one owner are seen by all of them. */
module DocFields {

  import opened Base
  import opened Text
  import opened Schemas

  type FieldId = nat
  type ListId = nat

  /** Misc.DEFAULT_VALUE_KEY */
  const DEFAULT_VALUE_KEY: string := "固定值"

  datatype Field = Field(
    name: string,
    typ: Option<string>,        // null until set or inferred
    required: bool,
    desc: Option<string>,
    defV: Option<string>,
    maxLength: Option<string>,
    example: Option<string>,
    children: ListId,           // the children list object
    alternates: seq<ListId>,    // otherSchemas, in insertion order (see AlternateKey)
    parent: Option<FieldId>)

  /** `new DocField()` whose (empty) children list is `children`. */
  function NewField(children: ListId): Field {
    Field("", None, false, None, None, None, None, children, [], None)
  }

  datatype Arena = Arena(fields: seq<Field>, lists: seq<seq<FieldId>>)

  /** Every reference resolves, and a parent was always created before its child, so
      parent chains cannot loop. */
  ghost predicate Valid(a: Arena) {
    && (forall i :: 0 <= i < |a.fields| ==> a.fields[i].children < |a.lists|)
    && (forall i, k :: 0 <= i < |a.fields| && 0 <= k < |a.fields[i].alternates| ==>
          a.fields[i].alternates[k] < |a.lists|)
    && (forall i :: 0 <= i < |a.fields| && a.fields[i].parent.Some? ==> a.fields[i].parent.value < i)
    && (forall l, k :: 0 <= l < |a.lists| && 0 <= k < |a.lists[l]| ==> a.lists[l][k] < |a.fields|)
  }

  const EmptyArena: Arena := Arena([], [])

  lemma EmptyArenaValid()
    ensures Valid(EmptyArena)
  {
  }

  /** Adds `f` with a fresh, empty children list. */
  function Alloc(a: Arena, f: Field): (r: (Arena, FieldId))
    requires Valid(a)
    requires f.alternates == []
    requires f.parent.Some? ==> f.parent.value < |a.fields|
    ensures Valid(r.0)
    ensures r.1 == |a.fields| && r.0.fields == a.fields + [f.(children := |a.lists|)]
    ensures r.0.lists == a.lists + [[]]
  {
    (Arena(a.fields + [f.(children := |a.lists|)], a.lists + [[]]), |a.fields|)
  }

  /** `list.add(id)` on a children list object. */
  function AppendToList(a: Arena, l: ListId, id: FieldId): (r: Arena)
    requires Valid(a) && l < |a.lists| && id < |a.fields|
    ensures Valid(r)
    ensures r.fields == a.fields && |r.lists| == |a.lists|
    ensures r.lists[l] == a.lists[l] + [id]
    ensures forall m :: 0 <= m < |a.lists| && m != l ==> r.lists[m] == a.lists[m]
  {
    a.(lists := a.lists[l := a.lists[l] + [id]])
  }

  /** A new list object holding `ids` (a `List` built by a stream collector). */
  function NewList(a: Arena, ids: seq<FieldId>): (r: (Arena, ListId))
    requires Valid(a)
    requires forall k :: 0 <= k < |ids| ==> ids[k] < |a.fields|
    ensures Valid(r.0)
    ensures r.1 == |a.lists| && r.0.lists == a.lists + [ids] && r.0.fields == a.fields
  {
    (a.(lists := a.lists + [ids]), |a.lists|)
  }

  /** `setChildren(list)`: the field now shares the list object `l`. */
  function SetChildren(a: Arena, id: FieldId, l: ListId): (r: Arena)
    requires Valid(a) && id < |a.fields| && l < |a.lists|
    ensures Valid(r)
    ensures r.lists == a.lists && |r.fields| == |a.fields|
    ensures r.fields[id] == a.fields[id].(children := l)
    ensures forall j :: 0 <= j < |a.fields| && j != id ==> r.fields[j] == a.fields[j]
  {
    a.(fields := a.fields[id := a.fields[id].(children := l)])
  }

  function ChildrenOf(a: Arena, id: FieldId): seq<FieldId>
    requires Valid(a) && id < |a.fields|
  {
    a.lists[a.fields[id].children]
  }

  /* ---------- type token ---------- */

  /** Token inferred from a default or example value. */
  function InferToken(v: string): string {
    if IsCreatable(v) then "number"
    else if EqualsLower(v, "true") || EqualsLower(v, "false") then "bool"
    else "string"
  }

  function FirstPresent(a: Option<string>, b: Option<string>): Option<string> {
    if a.Some? then a else b
  }

  /** Names whose type is "string" without being documented. */
  predicate IsHeaderName(name: string) {
    EqualsLower(name, "content-type") || EqualsLower(name, "access-token")
  }

  /** `getType()`: the token and the field afterwards (an inferred token is stored). */
  function GetType(f: Field): (r: (string, Field))
    ensures f.typ.Some? ==> r == (f.typ.value, f)
    ensures f.typ.None? && IsHeaderName(f.name) ==> r.0 == "string"
    ensures f.typ.None? && !IsHeaderName(f.name) && f.defV.Some? ==> r.0 == InferToken(f.defV.value)
    ensures f.typ.None? && !IsHeaderName(f.name) && f.defV.None? && f.example.Some?
      ==> r.0 == InferToken(f.example.value)
    ensures f.typ.None? && !IsHeaderName(f.name) && f.defV.None? && f.example.None? ==> r.0 == "struct"
    ensures r.1 == f.(typ := r.1.typ)
    ensures r.1.typ.Some? ==> r.1.typ == Some(r.0)
    ensures r.1.typ.None? ==> r.0 == "struct"
  {
    if f.typ.Some? then (f.typ.value, f)
    else if IsHeaderName(f.name) then ("string", f.(typ := Some("string")))
    else
      match FirstPresent(f.defV, f.example)
      case Some(v) => var t := InferToken(v); (t, f.(typ := Some(t)))
      case None => ("struct", f)
  }

  /** The token `getType()` answers; it never depends on earlier calls. */
  function TypeOf(f: Field): string {
    GetType(f).0
  }

  /** Asking twice gives the same token and leaves the field as the first call left it. */
  lemma GetTypeIdempotent(f: Field)
    ensures GetType(GetType(f).1) == GetType(f)
    ensures TypeOf(GetType(f).1) == TypeOf(f)
  {
  }

  /* ---------- classification ---------- */

  /** The static `isObjectType(String)`: the object aliases only. */
  predicate IsObjectAlias(t: string) {
    t == "object" || t == "struct" || t == "strcut" || t == "Json Object"
  }

  predicate IsInt64Token(t: string) {
    Contains(t, "i64") || Contains(t, "int64") || Contains(t, "long")
  }

  /** `toPrimitiveSchemaOrNull(t)` as written: the 32-bit test comes first, and "int64"
      contains "int", so the 64-bit branch never sees an "int64" token. */
  function PrimitiveKindAsWritten(t: string, ownType: string): (r: Option<Kind>)
    ensures r.Some? ==> IsPrimitiveKind(r.value)
  {
    if Contains(t, "bool") then Some(BooleanS)
    else if EqualsLower(t, "sting") || EqualsLower(t, "string") then Some(StringS)
    else if Contains(t, "int") || Contains(t, "i32") then Some(IntegerS)
    else if IsInt64Token(t) then Some(LongS)
    else if Contains(t, "float") || Contains(t, "double") || Contains(t, "number") then Some(NumberS)
    else if ownType == "binary" || ownType == "form-data" then Some(FileS)
    else None
  }

  /** An "int64" field is documented as a 32-bit integer by the code as written. */
  lemma Int64ReadAsInt32()
    ensures PrimitiveKindAsWritten("int64", "int64") == Some(IntegerS)
  {
    assert OccursAt("int64", "int", 0);
    ContainsIff("int64", "int");
    MissingCharNotContained("int64", "bool", 0);
  }

  /** Which primitive schema `toPrimitiveSchemaOrNull(t)` builds, with the 64-bit test
      ahead of the 32-bit one; `ownType` is the field's own token (the binary test). */
  function PrimitiveKindOf(t: string, ownType: string): (r: Option<Kind>)
    ensures r.Some? ==> IsPrimitiveKind(r.value)
  {
    if Contains(t, "bool") then Some(BooleanS)
    else if EqualsLower(t, "sting") || EqualsLower(t, "string") then Some(StringS)
    else if IsInt64Token(t) then Some(LongS)
    else if Contains(t, "int") || Contains(t, "i32") then Some(IntegerS)
    else if Contains(t, "float") || Contains(t, "double") || Contains(t, "number") then Some(NumberS)
    else if ownType == "binary" || ownType == "form-data" then Some(FileS)
    else None
  }

  /** A boolean token wins over everything; a 64-bit token that is not a string is a
      long; only the binary tokens give a file; and wherever no 64-bit marker occurs the
      corrected order agrees with the code as written. */
  lemma PrimitiveKindOrder(t: string, ownType: string)
    ensures Contains(t, "bool") ==> PrimitiveKindOf(t, ownType) == Some(BooleanS)
    ensures !Contains(t, "bool") && !EqualsLower(t, "string") && !EqualsLower(t, "sting") && IsInt64Token(t)
      ==> PrimitiveKindOf(t, ownType) == Some(LongS)
    ensures PrimitiveKindOf(t, ownType) == Some(FileS) ==> ownType == "binary" || ownType == "form-data"
    ensures !IsInt64Token(t) ==> PrimitiveKindOf(t, ownType) == PrimitiveKindAsWritten(t, ownType)
  {
  }

  /** With the 64-bit test first, an "int64" field is documented as a long. */
  lemma Int64ReadAsLong()
    ensures PrimitiveKindOf("int64", "int64") == Some(LongS)
  {
    assert OccursAt("int64", "int64", 0);
    ContainsIff("int64", "int64");
    MissingCharNotContained("int64", "bool", 0);
    assert Lower("int64") != "string" by { assert |Lower("int64")| == 5; }
    assert Lower("int64") != "sting" by { assert Lower("int64")[0] == 'i'; }
  }

  /** The default a primitive schema carries: numbers only when the text is creatable. */
  function PrimitiveDefault(k: Kind, defV: Option<string>): (d: Value)
    requires IsPrimitiveKind(k)
    ensures k in {IntegerS, LongS, NumberS} && (defV.None? || !IsCreatable(defV.value)) ==> d == NoValue
    ensures k == BooleanS ==> d.BoolValue?
  {
    match k
    case BooleanS => BoolValue(ParseBoolean(defV))
    case StringS => if defV.Some? then TextValue(defV.value) else NoValue
    case IntegerS => if defV.Some? && IsCreatable(defV.value) then IntValue(ToInt(defV.value)) else NoValue
    case LongS => if defV.Some? && IsCreatable(defV.value) then IntValue(ToLong(defV.value)) else NoValue
    case NumberS => if defV.Some? && IsCreatable(defV.value) then NumberValue(defV.value) else NoValue
    case FileS => NoValue
  }

  /** `toPrimitiveSchemaOrNull(t)` on field `f`. */
  function PrimitiveSchemaOrNull(f: Field, t: string): (r: Option<Schema>)
    ensures r.Some? <==> PrimitiveKindOf(t, TypeOf(f)).Some?
    ensures r.Some? ==> r.value.kind == PrimitiveKindOf(t, TypeOf(f)).value
    ensures r.Some? ==> r.value == New(r.value.kind).(default := r.value.default)
  {
    match PrimitiveKindOf(t, TypeOf(f))
    case None => None
    case Some(k) => Some(New(k).(default := PrimitiveDefault(k, f.defV)))
  }

  predicate IsPrimitiveType(f: Field, t: string) {
    PrimitiveKindOf(t, TypeOf(f)).Some?
  }

  predicate IsBinaryType(f: Field) {
    TypeOf(f) == "binary" || TypeOf(f) == "form-data"
  }

  /** Unknown tokens count as objects: documentation gaps lean towards structure. */
  predicate IsObjectType(f: Field) {
    IsObjectAlias(TypeOf(f)) || !IsPrimitiveType(f, TypeOf(f))
  }

  predicate IsArrayType(f: Field) {
    var t := TypeOf(f);
    ContainsLower(t, "[]") || ContainsLower(t, "list") || ContainsLower(t, "array")
  }

  predicate IsMapType(f: Field) {
    StartsWithIgnoreCase(TypeOf(f), "map")
  }

  predicate IsArrayObject(f: Field) {
    IsArrayType(f) && IsObjectAlias(LastParamType(TypeOf(f)))
  }

  predicate IsArrayOrObject(f: Field) {
    IsArrayType(f) || IsObjectType(f)
  }

  predicate IsPrimitiveArrayType(f: Field) {
    IsArrayType(f) && IsPrimitiveType(f, LastParamType(TypeOf(f)))
  }

  /** A field that is not object-typed always has a primitive schema, so the last branch
      of `toSchema` cannot throw. */
  lemma NonObjectIsPrimitive(f: Field)
    requires !IsObjectType(f)
    ensures PrimitiveSchemaOrNull(f, TypeOf(f)).Some?
  {
  }

  /* ---------- element type ---------- */

  predicate IsTypeDelimiter(c: char) {
    c in "[]<>(),"
  }

  /** The characters of `s` that are not delimiters, in order. */
  function NonDelimiters(s: string): (r: string)
    ensures forall j :: 0 <= j < |r| ==> !IsTypeDelimiter(r[j])
  {
    if s == [] then []
    else (if IsTypeDelimiter(s[0]) then [] else [s[0]]) + NonDelimiters(s[1..])
  }

  /** `StringTokenizer(s, "[]<>(),")`: the maximal runs of non-delimiter characters, in
      order; together they are exactly the non-delimiter characters of `s`. */
  function Tokens(s: string): (r: seq<string>)
    ensures forall k, j :: 0 <= k < |r| && 0 <= j < |r[k]| ==> !IsTypeDelimiter(r[k][j])
    ensures forall k :: 0 <= k < |r| ==> r[k] != []
    ensures Concat(r) == NonDelimiters(s)
  {
    TokensFrom(s, [])
  }

  function TokensFrom(s: string, cur: string): (r: seq<string>)
    requires forall j :: 0 <= j < |cur| ==> !IsTypeDelimiter(cur[j])
    ensures forall k, j :: 0 <= k < |r| && 0 <= j < |r[k]| ==> !IsTypeDelimiter(r[k][j])
    ensures forall k :: 0 <= k < |r| ==> r[k] != []
    ensures Concat(r) == cur + NonDelimiters(s)
    decreases |s|
  {
    if s == [] then (if cur == [] then [] else ConcatOne(cur); [cur])
    else if IsTypeDelimiter(s[0]) then
      var rest := TokensFrom(s[1..], []);
      if cur == [] then rest else ConcatCons(cur, rest); [cur] + rest
    else
      assert cur + [s[0]] + NonDelimiters(s[1..]) == cur + NonDelimiters(s);
      TokensFrom(s[1..], cur + [s[0]])
  }

  lemma ConcatOne(w: string)
    ensures Concat([w]) == w
  {
    assert [w][1..] == [];
  }

  lemma ConcatCons(w: string, ws: seq<string>)
    ensures Concat([w] + ws) == w + Concat(ws)
  {
    assert ([w] + ws)[1..] == ws;
  }

  /** Words free of delimiters, joined by one delimiter, tokenize back into the words. */
  lemma {:induction false} TokensOfJoin(ws: seq<string>, d: char)
    requires IsTypeDelimiter(d)
    requires forall k :: 0 <= k < |ws| ==> ws[k] != [] && forall j :: 0 <= j < |ws[k]| ==> !IsTypeDelimiter(ws[k][j])
    ensures Tokens(Join(ws, [d])) == ws
  {
    TokensOfJoinFrom(ws, d);
  }

  lemma {:induction false} TokensOfJoinFrom(ws: seq<string>, d: char)
    requires IsTypeDelimiter(d)
    requires forall k :: 0 <= k < |ws| ==> ws[k] != [] && forall j :: 0 <= j < |ws[k]| ==> !IsTypeDelimiter(ws[k][j])
    ensures TokensFrom(Join(ws, [d]), []) == ws
    decreases |ws|
  {
    if ws == [] {
    } else if |ws| == 1 {
      TokensFromWord(ws[0], [], []);
      assert ws[0] + [] == ws[0] && [] + ws[0] == ws[0];
      assert ws == [ws[0]];
    } else {
      var rest := Join(ws[1..], [d]);
      TokensOfJoinFrom(ws[1..], d);
      assert Join(ws, [d]) == ws[0] + ([d] + rest);
      TokensFromWord(ws[0], [d] + rest, []);
      assert [] + ws[0] == ws[0];
      assert ([d] + rest)[1..] == rest;
      assert ws == [ws[0]] + ws[1..];
    }
  }

  /** A delimiter-free prefix only extends the current token. */
  lemma {:induction false} TokensFromWord(w: string, rest: string, cur: string)
    requires forall j :: 0 <= j < |w| ==> !IsTypeDelimiter(w[j])
    requires forall j :: 0 <= j < |cur| ==> !IsTypeDelimiter(cur[j])
    ensures TokensFrom(w + rest, cur) == TokensFrom(rest, cur + w)
    decreases |w|
  {
    if w == [] {
      assert w + rest == rest && cur + w == cur;
    } else {
      assert (w + rest)[0] == w[0] && (w + rest)[1..] == w[1..] + rest;
      TokensFromWord(w[1..], rest, cur + [w[0]]);
      assert cur + [w[0]] + w[1..] == cur + w;
    }
  }

  predicate IsContainerWord(t: string) {
    EqualsLower(t, "list") || EqualsLower(t, "array")
  }

  /** Index of the last token that is not a container word. */
  function LastNonContainer(ts: seq<string>): (r: Option<nat>)
    ensures r.Some? ==> r.value < |ts| && !IsContainerWord(ts[r.value])
    ensures r.Some? ==> forall j :: r.value < j < |ts| ==> IsContainerWord(ts[j])
    ensures r.None? ==> forall j :: 0 <= j < |ts| ==> IsContainerWord(ts[j])
  {
    if ts == [] then None
    else if !IsContainerWord(ts[|ts| - 1]) then Some(|ts| - 1)
    else LastNonContainer(ts[..|ts| - 1])
  }

  /** The last token that is not a container word, or "object". */
  function LastParamTypeOf(ts: seq<string>): string {
    match LastNonContainer(ts)
    case None => "object"
    case Some(i) => ts[i]
  }

  /** The token loop of `getLastParamType`: each non-container token overwrites the
      answer, starting from "object". */
  method LastParamTypeLoop(ts: seq<string>) returns (paramType: string)
    ensures paramType == LastParamTypeOf(ts)
    ensures paramType == "object" || (paramType in ts && !IsContainerWord(paramType))
  {
    paramType := "object";
    var i := 0;
    while i < |ts|
      invariant 0 <= i <= |ts|
      invariant paramType == LastParamTypeOf(ts[..i])
    {
      assert ts[..i + 1][..i] == ts[..i];
      if !IsContainerWord(ts[i]) {
        paramType := ts[i];
      }
      i := i + 1;
    }
    assert ts[..i] == ts;
  }

  function LastParamType(t: string): string {
    LastParamTypeOf(Tokens(t))
  }

  /** How the type tests of `DocField` relate: an array of objects is an array; a field
      is object-typed exactly when its token is an object alias or has no primitive schema;
      an array names objects when its last non-container token is an object alias, and a
      container type naming no element type (a bare "List") holds objects. */
  lemma TypeTests(f: Field)
    ensures IsArrayObject(f) ==> IsArrayType(f)
    ensures IsObjectType(f) <==> IsObjectAlias(TypeOf(f)) || PrimitiveSchemaOrNull(f, TypeOf(f)).None?
    ensures IsMapType(f) <==> |TypeOf(f)| >= 3 && Lower(TypeOf(f)[..3]) == "map"
    ensures var ts := Tokens(TypeOf(f));
            IsArrayType(f) ==>
              match LastNonContainer(ts)
              case None => IsArrayObject(f)
              case Some(i) => IsArrayObject(f) <==> IsObjectAlias(ts[i])
  {
    assert Lower("map") == "map";
  }

  /* ---------- column setters ---------- */

  datatype Setter = SetName | SetType | SetRequired | SetDesc | SetExample | SetDefault | SetMaxLength

  datatype ColumnRule = ColumnRule(test: string -> bool, setter: Setter)

  /** The ordered predicate table of `DocField.setters`. */
  const SETTERS: seq<ColumnRule> := [
    // the single-argument `containsAny(it, "名称")` tests for either character
    ColumnRule(c => c == "" || c == "参数" || c == "属性" || c == "参数名" || c == "字段名"
                    || '名' in c || '称' in c, SetName),
    ColumnRule(c => Contains(c, "类型"), SetType),
    ColumnRule(c => Contains(c, "必"), SetRequired),
    ColumnRule(c => c == "说明" || Contains(c, "描述") || Contains(c, "备注"), SetDesc),
    ColumnRule(c => Contains(c, "示例"), SetExample),
    ColumnRule(c => c == "默认值", SetDefault),
    ColumnRule(c => c == "最大长度", SetMaxLength)
  ]

  function FirstMatch(rules: seq<ColumnRule>, column: string): (r: Option<Setter>)
    ensures r.None? <==> forall i :: 0 <= i < |rules| ==> !rules[i].test(column)
    ensures r.Some? ==> exists i :: 0 <= i < |rules| && rules[i].test(column) && rules[i].setter == r.value
                          && forall j :: 0 <= j < i ==> !rules[j].test(column)
  {
    if rules == [] then None
    else if rules[0].test(column) then Some(rules[0].setter)
    else
      var r := FirstMatch(rules[1..], column);
      assert forall i :: 1 <= i < |rules| ==> rules[i] == rules[1..][i - 1];
      r
  }

  /** `getByColumnName`: the setter of the first rule whose predicate accepts the column. */
  function GetByColumnName(column: string): (r: Option<Setter>)
    ensures r.None? <==> forall i :: 0 <= i < |SETTERS| ==> !SETTERS[i].test(column)
    ensures r.Some? ==> exists i :: 0 <= i < |SETTERS| && SETTERS[i].test(column)
                          && SETTERS[i].setter == r.value && forall j :: 0 <= j < i ==> !SETTERS[j].test(column)
  {
    FirstMatch(SETTERS, column)
  }

  /** The empty column name (the last resort of the blank-header fallback) names the field. */
  lemma BlankColumnSetsName()
    ensures GetByColumnName("") == Some(SetName)
  {
    assert SETTERS[0].test("");
  }

  /** A column that only mentions "必" selects the required flag. */
  lemma RequiredColumn(column: string)
    requires Contains(column, "必")
    requires !SETTERS[0].test(column) && !Contains(column, "类型")
    ensures GetByColumnName(column) == Some(SetRequired)
  {
    assert SETTERS[2].test(column);
  }

  function ParseRequired(v: string): bool {
    v == "是" || EqualsLower(v, "true")
  }

  /** What applying a setter to a cell value does to the field. */
  function Apply(f: Field, s: Setter, v: string): (r: Field)
    ensures s == SetRequired ==> r == f.(required := (v == "是" || Lower(v) == "true"))
    ensures s == SetName ==> r == f.(name := v)
    ensures s != SetName ==> r.name == f.name
    ensures r.children == f.children && r.parent == f.parent && r.alternates == f.alternates
  {
    match s
    case SetName => f.(name := v)
    case SetType => f.(typ := Some(v))
    case SetRequired => f.(required := ParseRequired(v))
    case SetDesc => SetDescription(f, v)
    case SetExample => f.(example := Some(v))
    case SetDefault => f.(defV := Some(v))
    case SetMaxLength => f.(maxLength := Some(v))
  }

  /* ---------- setDesc ---------- */

  function FirstNonBlank(ps: seq<string>): (r: Option<string>)
    ensures r.Some? ==> exists k :: 0 <= k < |ps| && |r.value| <= |ps[k]|
  {
    if ps == [] then None
    else if !IsBlank(ps[0]) then
      RemoveCharShortens(ps[0], '"');
      Some(Trim(ReplaceAll(ps[0], "\"", "")))
    else
      var r := FirstNonBlank(ps[1..]);
      assert r.Some? ==> exists k :: 1 <= k < |ps| && |r.value| <= |ps[k]|;
      r
  }

  /** The cleaned first non-blank piece of `value` split on `k + "："` when that occurs,
      else on `k`; None when `k` does not occur. */
  function SplitPiece(value: string, k: string): (r: Option<string>)
    requires |k| > 0
    ensures r.Some? ==> |r.value| < |value|
    ensures !Contains(value, k) ==> r.None?
  {
    var key := k + "：";
    var sep := if Contains(value, key) then key else k;
    if !Contains(value, sep) then None
    else
      assert Contains(value, k) by { if sep == key { ContainsExtended(value, k, "："); } }
      var ps := JavaSplit(value, sep);
      SplitAllShorter(value, sep);
      assert forall j :: 0 <= j < |ps| ==> |ps[j]| < |value|;
      FirstNonBlank(ps)
  }

  /** The fixed-value part of a description becomes the default. */
  function ApplyFixedValue(f: Field, value: string): (r: Field)
    ensures r == f.(defV := r.defV)
    ensures !Contains(value, DEFAULT_VALUE_KEY) ==> r == f
  {
    match SplitPiece(value, DEFAULT_VALUE_KEY)
    case Some(p) => f.(defV := Some(p))
    case None => f
  }

  /** A "msg" string whose description mentions JSON becomes a "Json Object". */
  function MsgCoercion(f: Field, value: string): (r: Field)
    ensures r == f.(typ := r.typ)
    ensures f.name != "msg" ==> r == f
  {
    if f.name == "msg" then
      var (t, g) := GetType(f);
      if t == "string" && ContainsLower(value, "json") then g.(typ := Some("Json Object")) else g
    else f
  }

  /** `setDesc(value)`: a content-type field documented as JSON gets the JSON default;
      any other field has its example part cut out as the description, its fixed value
      made the default, and the "msg" coercion applied. */
  function SetDescription(f: Field, value: string): (r: Field)
    decreases |value|
    ensures r == f.(desc := r.desc, defV := r.defV, typ := r.typ)
    ensures EqualsLower(f.name, "content-type") && ContainsLower(value, "application/json")
      ==> r.typ == Some("string") && r.defV == Some("application/json")
  {
    var f0 := f.(desc := Some(value));
    if EqualsLower(f0.name, "content-type") then
      if ContainsLower(value, "application/json") then
        f0.(defV := Some("application/json"), typ := Some("string"))
      else f0
    else
      var f1 := match SplitPiece(value, "示例")
                case Some(p) => SetDescription(f0, p)
                case None => f0;
      MsgCoercion(ApplyFixedValue(f1, value), value)
  }

  /** A description without an example marker is kept whole. */
  lemma PlainDescriptionKept(f: Field, value: string)
    requires !Contains(value, "示例")
    ensures SetDescription(f, value).desc == Some(value)
  {
  }

  /** The "msg" coercion only ever replaces a known type by "Json Object". */
  lemma MsgCoercionType(f: Field, value: string)
    requires f.typ.Some?
    ensures MsgCoercion(f, value).typ in {f.typ, Some("Json Object")}
    ensures f.name == "msg" && f.typ == Some("string") && ContainsLower(value, "json")
      ==> MsgCoercion(f, value).typ == Some("Json Object")
  {
  }

  /** One unfolding of `SetDescription` for a field that is not a content-type header. */
  lemma SetDescriptionStep(f: Field, value: string)
    requires !EqualsLower(f.name, "content-type")
    ensures var f0 := f.(desc := Some(value));
            var f1 := match SplitPiece(value, "示例")
                      case Some(p) => SetDescription(f0, p)
                      case None => f0;
            SetDescription(f, value) == MsgCoercion(ApplyFixedValue(f1, value), value)
  {
  }

  /** Once a "msg" field is a string, describing it never gives it any other type than
      "string" or "Json Object". */
  lemma {:induction false} MsgStaysStringOrJson(f: Field, value: string)
    requires f.name == "msg" && f.typ == Some("string")
    ensures SetDescription(f, value).typ in {Some("string"), Some("Json Object")}
    decreases |value|
  {
    var f0 := f.(desc := Some(value));
    assert !EqualsLower(f.name, "content-type") by { assert |Lower(f.name)| == 3; }
    SetDescriptionStep(f, value);
    var sp := SplitPiece(value, "示例");
    var f1 := if sp.Some? then SetDescription(f0, sp.value) else f0;
    if sp.Some? {
      MsgStaysStringOrJson(f0, sp.value);
    }
    assert f1.name == "msg" && f1.typ.Some?;
    assert f1.typ in {Some("string"), Some("Json Object")};
    var f2 := ApplyFixedValue(f1, value);
    assert f2.name == "msg" && f2.typ == f1.typ;
    MsgCoercionType(f2, value);
    assert SetDescription(f, value) == MsgCoercion(f2, value);
  }

  /** A "msg" string field whose description mentions JSON ends up a "Json Object". */
  lemma {:induction false} MsgJsonIsObject(f: Field, value: string)
    requires f.name == "msg" && f.typ == Some("string")
    requires ContainsLower(value, "json")
    ensures SetDescription(f, value).typ == Some("Json Object")
  {
    var f0 := f.(desc := Some(value));
    assert !EqualsLower(f.name, "content-type") by { assert |Lower(f.name)| == 3; }
    SetDescriptionStep(f, value);
    var f1 := match SplitPiece(value, "示例")
              case Some(p) => SetDescription(f0, p)
              case None => f0;
    if SplitPiece(value, "示例").Some? {
      MsgStaysStringOrJson(f0, SplitPiece(value, "示例").value);
    }
    var f2 := ApplyFixedValue(f1, value);
    assert SetDescription(f, value) == MsgCoercion(f2, value);
    MsgCoercionType(f2, value);
  }

  /* ---------- identity, alternates, flat children, parent ---------- */

  /** `DocField.equals`: same name and same type token. */
  predicate FieldEq(f: Field, g: Field) {
    f.name == g.name && TypeOf(f) == TypeOf(g)
  }

  /** The `otherSchemas` key of the k-th alternate set (k from 0): name + (k + 1). */
  function AlternateKey(f: Field, k: nat): string {
    f.name + NatToString(k + 1)
  }

  /** Different positions give different keys, so no alternate set overwrites another. */
  lemma AlternateKeysDistinct(f: Field, j: nat, k: nat)
    requires j != k
    ensures AlternateKey(f, j) != AlternateKey(f, k)
  {
    var n := |f.name|;
    assert AlternateKey(f, j)[n..] == NatToString(j + 1);
    assert AlternateKey(f, k)[n..] == NatToString(k + 1);
  }

  /** `addSchema(children)`: records another child set after the existing ones. */
  function AddAlternate(a: Arena, id: FieldId, l: ListId): (r: Arena)
    requires Valid(a) && id < |a.fields| && l < |a.lists|
    ensures Valid(r)
    ensures r.lists == a.lists && |r.fields| == |a.fields|
    ensures r.fields[id] == a.fields[id].(alternates := a.fields[id].alternates + [l])
    ensures forall j :: 0 <= j < |a.fields| && j != id ==> r.fields[j] == a.fields[j]
  {
    a.(fields := a.fields[id := a.fields[id].(alternates := a.fields[id].alternates + [l])])
  }

  /** Children point forward from `base` on: what one table parse builds. */
  ghost predicate ForwardFrom(a: Arena, base: nat) {
    && Valid(a)
    && forall j, k :: base <= j < |a.fields| && 0 <= k < |a.lists[a.fields[j].children]| ==>
         j < a.lists[a.fields[j].children][k]
  }

  predicate IsLeaf(a: Arena, id: FieldId)
    requires Valid(a) && id < |a.fields|
  {
    a.lists[a.fields[id].children] == []
  }

  /** Field `j` lies below `id`: it is one of its children, or lies below one of them. */
  ghost predicate Descends(a: Arena, base: nat, id: FieldId, j: FieldId)
    requires ForwardFrom(a, base) && base <= id < |a.fields|
    decreases |a.fields| - id
  {
    exists k :: 0 <= k < |ChildrenOf(a, id)| && (ChildrenOf(a, id)[k] == j || Descends(a, base, ChildrenOf(a, id)[k], j))
  }

  /** Field `j` is one of `cs` or lies below one of them. */
  ghost predicate UnderAny(a: Arena, base: nat, owner: FieldId, cs: seq<FieldId>, j: FieldId)
    requires ForwardFrom(a, base) && base <= owner
    requires forall k :: 0 <= k < |cs| ==> owner < cs[k] < |a.fields|
  {
    exists k :: 0 <= k < |cs| && (cs[k] == j || Descends(a, base, cs[k], j))
  }

  /** `flatChildren()`: the leaves below a field, in document order; a leaf appears
      exactly when it lies below the field. */
  function FlatChildren(a: Arena, base: nat, id: FieldId): (r: seq<FieldId>)
    requires ForwardFrom(a, base) && base <= id < |a.fields|
    decreases |a.fields| - id, 1
    ensures forall k :: 0 <= k < |r| ==> id < r[k] < |a.fields| && IsLeaf(a, r[k])
    ensures forall j :: j in r <==> 0 <= j < |a.fields| && IsLeaf(a, j) && Descends(a, base, id, j)
  {
    var r := FlatOf(a, base, id, ChildrenOf(a, id));
    assert forall j :: UnderAny(a, base, id, ChildrenOf(a, id), j) == Descends(a, base, id, j);
    r
  }

  /** The leaves of the fields `cs` of `owner`: a leaf entry itself, the leaves below any
      other entry. */
  function FlatOf(a: Arena, base: nat, owner: FieldId, cs: seq<FieldId>): (r: seq<FieldId>)
    requires ForwardFrom(a, base) && base <= owner < |a.fields|
    requires forall k :: 0 <= k < |cs| ==> owner < cs[k] < |a.fields|
    decreases |a.fields| - owner, 0, |cs|
    ensures forall k :: 0 <= k < |r| ==> owner < r[k] < |a.fields| && IsLeaf(a, r[k])
    ensures forall j :: j in r <==> 0 <= j < |a.fields| && IsLeaf(a, j) && UnderAny(a, base, owner, cs, j)
  {
    if cs == [] then []
    else
      var c := cs[0];
      var head := if IsLeaf(a, c) then [c] else FlatChildren(a, base, c);
      var rest := FlatOf(a, base, owner, cs[1..]);
      LeavesUnder(a, base, owner, cs, head, rest);
      head + rest
  }

  /** A leaf has nothing below it. */
  lemma LeafHasNoDescendants(a: Arena, base: nat, c: FieldId, j: FieldId)
    requires ForwardFrom(a, base) && base <= c < |a.fields| && IsLeaf(a, c)
    ensures !Descends(a, base, c, j)
  {
  }

  /** The leaves under `cs` are the leaves under its head and those under its tail. */
  lemma LeavesUnder(a: Arena, base: nat, owner: FieldId, cs: seq<FieldId>, head: seq<FieldId>, rest: seq<FieldId>)
    requires ForwardFrom(a, base) && base <= owner < |a.fields| && cs != []
    requires forall k :: 0 <= k < |cs| ==> owner < cs[k] < |a.fields|
    requires IsLeaf(a, cs[0]) ==> head == [cs[0]]
    requires !IsLeaf(a, cs[0]) ==> forall j :: j in head <==> 0 <= j < |a.fields| && IsLeaf(a, j) && Descends(a, base, cs[0], j)
    requires forall j :: j in rest <==> 0 <= j < |a.fields| && IsLeaf(a, j) && UnderAny(a, base, owner, cs[1..], j)
    ensures forall j :: j in head + rest <==> 0 <= j < |a.fields| && IsLeaf(a, j) && UnderAny(a, base, owner, cs, j)
  {
    forall j: FieldId ensures j in head + rest <==> 0 <= j < |a.fields| && IsLeaf(a, j) && UnderAny(a, base, owner, cs, j) {
      var c := cs[0];
      if IsLeaf(a, c) {
        LeafHasNoDescendants(a, base, c, j);
      }
      if UnderAny(a, base, owner, cs, j) {
        var k :| 0 <= k < |cs| && (cs[k] == j || Descends(a, base, cs[k], j));
        if k > 0 {
          assert cs[1..][k - 1] == cs[k];
          assert UnderAny(a, base, owner, cs[1..], j);
        }
      }
      if UnderAny(a, base, owner, cs[1..], j) {
        var k :| 0 <= k < |cs[1..]| && (cs[1..][k] == j || Descends(a, base, cs[1..][k], j));
        assert cs[k + 1] == cs[1..][k];
      }
    }
  }

  /** The proper ancestors of a field, nearest first. */
  ghost function Ancestors(a: Arena, id: FieldId): (r: seq<FieldId>)
    requires Valid(a) && id < |a.fields|
    decreases id
    ensures forall k :: 0 <= k < |r| ==> r[k] < id
  {
    match a.fields[id].parent
    case None => []
    case Some(p) => [p] + Ancestors(a, p)
  }

  /** `getParent()`: the nearest ancestor that is object-typed. */
  function GetParent(a: Arena, id: FieldId): (r: Option<FieldId>)
    requires Valid(a) && id < |a.fields|
    decreases id
    ensures r.Some? ==> r.value < id && IsObjectType(a.fields[r.value])
  {
    match a.fields[id].parent
    case None => None
    case Some(p) => if IsObjectType(a.fields[p]) then Some(p) else GetParent(a, p)
  }

  /** Passing over a non-object parent shifts the nearest object-typed ancestor by one. */
  lemma NearestSkips(a: Arena, p: FieldId, up: seq<FieldId>, anc: seq<FieldId>, k: nat)
    requires Valid(a) && p < |a.fields| && !IsObjectType(a.fields[p])
    requires forall j :: 0 <= j < |up| ==> up[j] < |a.fields|
    requires anc == [p] + up && k < |up|
    requires forall j :: 0 <= j < k ==> !IsObjectType(a.fields[up[j]])
    ensures anc[k + 1] == up[k]
    ensures forall j :: 0 <= j < k + 1 ==> !IsObjectType(a.fields[anc[j]])
  {
    forall j | 0 <= j < k + 1 ensures !IsObjectType(a.fields[anc[j]]) {
      if j > 0 { assert anc[j] == up[j - 1]; }
    }
  }

  /** Passing over a non-object parent keeps a chain free of object-typed entries. */
  lemma ClearSkips(a: Arena, p: FieldId, up: seq<FieldId>, anc: seq<FieldId>)
    requires Valid(a) && p < |a.fields| && !IsObjectType(a.fields[p])
    requires forall j :: 0 <= j < |up| ==> up[j] < |a.fields| && !IsObjectType(a.fields[up[j]])
    requires anc == [p] + up
    ensures forall j :: 0 <= j < |anc| ==> anc[j] < |a.fields| && !IsObjectType(a.fields[anc[j]])
  {
    forall j | 0 <= j < |anc| ensures anc[j] < |a.fields| && !IsObjectType(a.fields[anc[j]]) {
      if j > 0 { assert anc[j] == up[j - 1]; }
    }
  }

  /** `getParent()` answers the first object-typed entry of the ancestor chain, and
      nothing when the chain has none. */
  lemma {:induction false} GetParentNearest(a: Arena, id: FieldId)
    requires Valid(a) && id < |a.fields|
    decreases id
    ensures GetParent(a, id).Some? ==>
      exists k :: 0 <= k < |Ancestors(a, id)| && Ancestors(a, id)[k] == GetParent(a, id).value
        && forall j :: 0 <= j < k ==> !IsObjectType(a.fields[Ancestors(a, id)[j]])
    ensures GetParent(a, id).None? ==>
      forall k :: 0 <= k < |Ancestors(a, id)| ==> !IsObjectType(a.fields[Ancestors(a, id)[k]])
  {
    match a.fields[id].parent
    case None =>
    case Some(p) =>
      if !IsObjectType(a.fields[p]) {
        GetParentNearest(a, p);
        var anc := Ancestors(a, id);
        var up := Ancestors(a, p);
        assert anc == [p] + up;
        assert GetParent(a, id) == GetParent(a, p);
        if GetParent(a, p).Some? {
          var k :| 0 <= k < |up| && up[k] == GetParent(a, p).value
                   && forall j :: 0 <= j < k ==> !IsObjectType(a.fields[up[j]]);
          NearestSkips(a, p, up, anc, k);
        } else {
          ClearSkips(a, p, up, anc);
        }
      } else {
        assert Ancestors(a, id)[0] == p;
      }
  }

  /** `isRootObject()`: no object-typed ancestor. */
  predicate IsRootObject(a: Arena, id: FieldId)
    requires Valid(a) && id < |a.fields|
  {
    GetParent(a, id).None?
  }
}

=== FILE: field_schema.dfy ===
/** `DocField.toSchema` and `toObjectSchema`: turning a documented field and everything
    below it into a schema value.

    The source recurses through children without any guard, so it only terminates on
    acyclic child structure; the model makes that explicit with a rank that decreases
    from a field to each of its children. */
module FieldSchema {

  import opened Base
  import opened Text
  import OM = OrderedMap
  import opened Schemas
  import opened DocFields

  /** Children always have a smaller rank than their owner. */
  ghost predicate Ranked(a: Arena, rank: seq<nat>) {
    && Valid(a)
    && |rank| == |a.fields|
    && forall i, k :: 0 <= i < |a.fields| && 0 <= k < |ChildrenOf(a, i)| ==> rank[ChildrenOf(a, i)[k]] < rank[i]
  }

  /** The schema of one field, tagged with the field's name, example and description;
      the example goes through the cast of the schema's class. */
  function ToSchema(a: Arena, rank: seq<nat>, id: FieldId): (r: Schema)
    requires Ranked(a, rank) && id < |a.fields|
    decreases rank[id], 2
    ensures r.name == Some(a.fields[id].name) && r.description == a.fields[id].desc
    ensures r.example == Cast(r.kind, a.fields[id].example)
    ensures r == SchemaBody(a, rank, id).(name := r.name, example := r.example, description := r.description)
  {
    var f := a.fields[id];
    var body := SchemaBody(a, rank, id);
    body.(name := Some(f.name), example := Cast(body.kind, f.example), description := f.desc)
  }

  /** An array-typed field gives an array schema with items; a field that is neither an
      array nor an object never does. */
  lemma ToSchemaKind(a: Arena, rank: seq<nat>, id: FieldId)
    requires Ranked(a, rank) && id < |a.fields|
    ensures IsArrayType(a.fields[id]) ==> ToSchema(a, rank, id).kind == ArrayS && ToSchema(a, rank, id).items.Some?
    ensures !IsArrayType(a.fields[id]) && !IsObjectType(a.fields[id]) ==> ToSchema(a, rank, id).kind != ArrayS
  {
  }

  /** The branches of `toSchema`, tried in source order. */
  datatype Shape = ArrayOfObjects | ArrayOfParam | ObjectShape | MapShape | PrimitiveShape

  function ShapeOf(f: Field): (r: Shape)
    ensures IsArrayType(f) <==> r in {ArrayOfObjects, ArrayOfParam}
    ensures r == ObjectShape <==> !IsArrayType(f) && IsObjectType(f)
    ensures r == MapShape <==> !IsArrayType(f) && !IsObjectType(f) && IsMapType(f)
    ensures r == PrimitiveShape ==> PrimitiveSchemaOrNull(f, TypeOf(f)).Some?
  {
    if IsArrayObject(f) then ArrayOfObjects
    else if IsArrayType(f) then ArrayOfParam
    else if IsObjectType(f) then ObjectShape
    else if IsMapType(f) then MapShape
    else
      NonObjectIsPrimitive(f);
      PrimitiveShape
  }

  /** The untagged schema, by the first matching shape. */
  function SchemaBody(a: Arena, rank: seq<nat>, id: FieldId): (r: Schema)
    requires Ranked(a, rank) && id < |a.fields|
    decreases rank[id], 1
    ensures IsArrayType(a.fields[id]) ==> r.kind == ArrayS && r.items.Some?
    ensures IsArrayType(a.fields[id]) || ShapeOf(a.fields[id]) == MapShape ==>
              r.default == (if a.fields[id].defV.Some? then TextValue(a.fields[id].defV.value) else NoValue)
    ensures ShapeOf(a.fields[id]) == ArrayOfObjects ==> r.items == Some(ToObjectSchema(a, rank, id))
    ensures ShapeOf(a.fields[id]) == ArrayOfParam ==> r.items == Some(ElementSchema(a, rank, id))
    ensures ShapeOf(a.fields[id]) == ObjectShape ==>
              && r.(default := NoValue) == ToObjectSchema(a, rank, id).(default := NoValue)
              && (a.fields[id].defV == Some("{}") ==> r.default == NoValue)
              && (a.fields[id].defV != Some("{}") ==> r.default == Cast(r.kind, a.fields[id].defV))
    ensures ShapeOf(a.fields[id]) == MapShape ==> r.kind == MapS && r.additional == Some(ElementSchema(a, rank, id))
    ensures ShapeOf(a.fields[id]) == PrimitiveShape
      ==> r == PrimitiveSchemaOrNull(a.fields[id], TypeOf(a.fields[id])).value
  {
    var f := a.fields[id];
    match ShapeOf(f)
    case ArrayOfObjects =>
      New(ArrayS).(items := Some(ToObjectSchema(a, rank, id)), default := Cast(ArrayS, f.defV))
    case ArrayOfParam =>
      New(ArrayS).(items := Some(ElementSchema(a, rank, id)), default := Cast(ArrayS, f.defV))
    case ObjectShape =>
      var obj := ToObjectSchema(a, rank, id);
      obj.(default := ObjectDefault(obj.kind, f.defV))
    case MapShape =>
      New(MapS).(additional := Some(ElementSchema(a, rank, id)), default := Cast(MapS, f.defV))
    case PrimitiveShape =>
      PrimitiveSchemaOrNull(f, TypeOf(f)).value
  }

  /** An object's default, where "{}" means none, cast by the class of its object
      schema: the collapsed child's class when a single child stands for it. */
  function ObjectDefault(k: Kind, defV: Option<string>): Value {
    if defV == Some("{}") then NoValue else Cast(k, defV)
  }

  /** Items of an array or values of a map: the primitive schema of the last type
      parameter, or the object schema of the children. */
  function ElementSchema(a: Arena, rank: seq<nat>, id: FieldId): (r: Schema)
    requires Ranked(a, rank) && id < |a.fields|
    decreases rank[id], 0, 2
    ensures PrimitiveSchemaOrNull(a.fields[id], LastParamType(TypeOf(a.fields[id]))).Some? ==>
      r == PrimitiveSchemaOrNull(a.fields[id], LastParamType(TypeOf(a.fields[id]))).value
    ensures PrimitiveSchemaOrNull(a.fields[id], LastParamType(TypeOf(a.fields[id]))).None? ==>
      r == ToObjectSchema(a, rank, id)
  {
    match PrimitiveSchemaOrNull(a.fields[id], LastParamType(TypeOf(a.fields[id])))
    case Some(p) => p
    case None => ToObjectSchema(a, rank, id)
  }

  /** A single child that is neither object-typed nor an array of primitives stands for
      its owner. */
  predicate Collapses(a: Arena, id: FieldId)
    requires Valid(a) && id < |a.fields|
  {
    var cs := ChildrenOf(a, id);
    |cs| == 1 && !IsObjectType(a.fields[cs[0]]) && !IsPrimitiveArrayType(a.fields[cs[0]])
  }

  /** `toObjectSchema()`. */
  function ToObjectSchema(a: Arena, rank: seq<nat>, id: FieldId): (r: Schema)
    requires Ranked(a, rank) && id < |a.fields|
    decreases rank[id], 0, 1
    ensures Collapses(a, id) ==> r == ToSchema(a, rank, ChildrenOf(a, id)[0])
    ensures !Collapses(a, id) ==> r.kind == ObjectS && r.items.None? && r.additional.None?
    ensures !Collapses(a, id) ==> r.props == PropsOf(a, rank, id, ChildrenOf(a, id))
  {
    var cs := ChildrenOf(a, id);
    if Collapses(a, id) then ToSchema(a, rank, cs[0])
    else New(ObjectS).(props := PropsOf(a, rank, id, cs))
  }

  /** The property map built from the children in document order; a later child with an
      already used name replaces the earlier one. */
  function PropsOf(a: Arena, rank: seq<nat>, owner: FieldId, cs: seq<FieldId>): (r: seq<OM.Entry<string, Schema>>)
    requires Ranked(a, rank) && owner < |a.fields|
    requires forall k :: 0 <= k < |cs| ==> cs[k] < |a.fields| && rank[cs[k]] < rank[owner]
    decreases rank[owner], 0, 0, |cs|
    ensures OM.NoDupKeys(r)
  {
    if cs == [] then []
    else
      var last := cs[|cs| - 1];
      var prev := PropsOf(a, rank, owner, cs[..|cs| - 1]);
      OM.PutNoDup(prev, a.fields[last].name, ToSchema(a, rank, last));
      OM.Put(prev, a.fields[last].name, ToSchema(a, rank, last))
  }

  /** Position of the last field in `cs` called `n`. */
  function LastNamed(a: Arena, cs: seq<FieldId>, n: string): (r: Option<nat>)
    requires forall k :: 0 <= k < |cs| ==> cs[k] < |a.fields|
    ensures r.Some? ==> r.value < |cs| && a.fields[cs[r.value]].name == n
    ensures r.Some? ==> forall j :: r.value < j < |cs| ==> a.fields[cs[j]].name != n
    ensures r.None? ==> forall j :: 0 <= j < |cs| ==> a.fields[cs[j]].name != n
  {
    if cs == [] then None
    else if a.fields[cs[|cs| - 1]].name == n then Some(|cs| - 1)
    else LastNamed(a, cs[..|cs| - 1], n)
  }

  /** Each property holds the schema of the last child with that name, and there is a
      property for exactly the names the children carry. */
  lemma {:induction false} PropsLaterWins(a: Arena, rank: seq<nat>, owner: FieldId, cs: seq<FieldId>, n: string)
    requires Ranked(a, rank) && owner < |a.fields|
    requires forall k :: 0 <= k < |cs| ==> cs[k] < |a.fields| && rank[cs[k]] < rank[owner]
    ensures OM.Get(PropsOf(a, rank, owner, cs), n) ==
      match LastNamed(a, cs, n)
      case None => None
      case Some(k) => Some(ToSchema(a, rank, cs[k]))
    decreases |cs|
  {
    if cs != [] {
      var last := cs[|cs| - 1];
      var init := cs[..|cs| - 1];
      PropsLaterWins(a, rank, owner, init, n);
      var sch := seq(|cs|, k requires 0 <= k < |cs| => ToSchema(a, rank, cs[k]));
      var prev := PropsOf(a, rank, owner, init);
      var key := a.fields[last].name;
      assert PropsOf(a, rank, owner, cs) == OM.Put(prev, key, sch[|cs| - 1]);
      if key == n {
        LastNamedHere(a, cs, sch, n, prev);
      } else {
        assert OM.Get(prev, n) == match LastNamed(a, init, n) case None => None case Some(k) => Some(sch[k]) by {
          match LastNamed(a, init, n)
          case None =>
          case Some(j) => assert init[j] == cs[j];
        }
        OM.PutOther(prev, key, sch[|cs| - 1], n);
        LastNamedEarlier(a, cs, sch, n, prev);
      }
      match LastNamed(a, cs, n)
      case None =>
      case Some(k) => assert sch[k] == ToSchema(a, rank, cs[k]);
    }
  }

  /** An object-typed field that does not collapse has, under each name, the schema of
      its last child of that name, and no property for names no child carries. */
  lemma ObjectFieldProperty(a: Arena, rank: seq<nat>, id: FieldId, n: string)
    requires Ranked(a, rank) && id < |a.fields|
    requires ShapeOf(a.fields[id]) == ObjectShape && !Collapses(a, id)
    ensures OM.Get(ToSchema(a, rank, id).props, n) ==
      match LastNamed(a, ChildrenOf(a, id), n)
      case None => None
      case Some(k) => Some(ToSchema(a, rank, ChildrenOf(a, id)[k]))
  {
    var body := SchemaBody(a, rank, id);
    assert body.props == body.(default := NoValue).props;
    PropsLaterWins(a, rank, id, ChildrenOf(a, id), n);
  }

  /** The last child carries the name: its value is the one found. */
  lemma LastNamedHere<V>(a: Arena, cs: seq<FieldId>, sch: seq<V>, n: string, prev: seq<OM.Entry<string, V>>)
    requires |sch| == |cs| > 0 && forall k :: 0 <= k < |cs| ==> cs[k] < |a.fields|
    requires a.fields[cs[|cs| - 1]].name == n
    ensures OM.Get(OM.Put(prev, n, sch[|cs| - 1]), n) ==
      match LastNamed(a, cs, n) case None => None case Some(k) => Some(sch[k])
  {
    var g := OM.Get(OM.Put(prev, n, sch[|cs| - 1]), n);
    assert g == Some(sch[|cs| - 1]);
    assert LastNamed(a, cs, n) == Some(|cs| - 1);
    FoundLast(LastNamed(a, cs, n), sch, g);
  }

  /** The value picked at the last position. */
  lemma FoundLast<V>(o: Option<nat>, sch: seq<V>, g: Option<V>)
    requires |sch| > 0 && o == Some(|sch| - 1) && g == Some(sch[|sch| - 1])
    ensures g == match o case None => None case Some(k) => Some(sch[k])
  {
  }

  /** The last child has another name: the earlier children decide. */
  lemma LastNamedEarlier<V>(a: Arena, cs: seq<FieldId>, sch: seq<V>, n: string, prev: seq<OM.Entry<string, V>>)
    requires |sch| == |cs| > 0 && forall k :: 0 <= k < |cs| ==> cs[k] < |a.fields|
    requires OM.Get(prev, n) ==
      match LastNamed(a, cs[..|cs| - 1], n) case None => None case Some(k) => Some(sch[k])
    requires a.fields[cs[|cs| - 1]].name != n
    ensures OM.Get(prev, n) == match LastNamed(a, cs, n) case None => None case Some(k) => Some(sch[k])
  {
    assert LastNamed(a, cs, n) == LastNamed(a, cs[..|cs| - 1], n);
  }

  /** Adding the next child to the property map. */
  lemma PropsStep(a: Arena, rank: seq<nat>, owner: FieldId, cs: seq<FieldId>, i: nat)
    requires Ranked(a, rank) && owner < |a.fields| && i < |cs|
    requires forall k :: 0 <= k < |cs| ==> cs[k] < |a.fields| && rank[cs[k]] < rank[owner]
    ensures PropsOf(a, rank, owner, cs[..i + 1])
      == OM.Put(PropsOf(a, rank, owner, cs[..i]), a.fields[cs[i]].name, ToSchema(a, rank, cs[i]))
  {
    assert cs[..i + 1][..i] == cs[..i];
  }

  /** The source's `this.schema` memo: a cache of schemas already built. */
  ghost predicate CacheSound(a: Arena, rank: seq<nat>, cache: map<FieldId, Schema>)
    requires Ranked(a, rank)
  {
    forall k :: k in cache ==> k < |a.fields| && cache[k] == ToSchema(a, rank, k)
  }

  /** `toSchema()` with its memo: a cached schema is answered as is, otherwise the schema
      is built (children through the memo as well) and stored.  The memo never changes
      the answer. */
  method ToSchemaMemo(a: Arena, rank: seq<nat>, id: FieldId, cache: map<FieldId, Schema>)
    returns (r: Schema, cache': map<FieldId, Schema>)
    requires Ranked(a, rank) && id < |a.fields|
    requires CacheSound(a, rank, cache)
    decreases rank[id], 2
    ensures r == ToSchema(a, rank, id)
    ensures CacheSound(a, rank, cache') && id in cache' && cache.Keys <= cache'.Keys
  {
    if id in cache {
      return cache[id], cache;
    }
    var f := a.fields[id];
    var body;
    body, cache' := BodyMemo(a, rank, id, cache);
    r := body.(name := Some(f.name), example := Cast(body.kind, f.example), description := f.desc);
    cache' := cache'[id := r];
  }

  /** The untagged schema over the memo. */
  method BodyMemo(a: Arena, rank: seq<nat>, id: FieldId, cache: map<FieldId, Schema>)
    returns (body: Schema, cache': map<FieldId, Schema>)
    requires Ranked(a, rank) && id < |a.fields|
    requires CacheSound(a, rank, cache)
    decreases rank[id], 1
    ensures body == SchemaBody(a, rank, id)
    ensures CacheSound(a, rank, cache') && cache.Keys <= cache'.Keys
  {
    var f := a.fields[id];
    match ShapeOf(f) {
      case ArrayOfObjects =>
        var obj;
        obj, cache' := ObjectSchemaMemo(a, rank, id, cache);
        body := New(ArrayS).(items := Some(obj), default := Cast(ArrayS, f.defV));
      case ArrayOfParam =>
        var elem;
        elem, cache' := ElementSchemaMemo(a, rank, id, cache);
        body := New(ArrayS).(items := Some(elem), default := Cast(ArrayS, f.defV));
      case ObjectShape =>
        var obj;
        obj, cache' := ObjectSchemaMemo(a, rank, id, cache);
        body := obj.(default := ObjectDefault(obj.kind, f.defV));
      case MapShape =>
        var elem;
        elem, cache' := ElementSchemaMemo(a, rank, id, cache);
        body := New(MapS).(additional := Some(elem), default := Cast(MapS, f.defV));
      case PrimitiveShape =>
        body, cache' := PrimitiveSchemaOrNull(f, TypeOf(f)).value, cache;
    }
  }

  /** The element schema over the memo. */
  method ElementSchemaMemo(a: Arena, rank: seq<nat>, id: FieldId, cache: map<FieldId, Schema>)
    returns (r: Schema, cache': map<FieldId, Schema>)
    requires Ranked(a, rank) && id < |a.fields|
    requires CacheSound(a, rank, cache)
    decreases rank[id], 0, 1
    ensures r == ElementSchema(a, rank, id)
    ensures CacheSound(a, rank, cache') && cache.Keys <= cache'.Keys
  {
    match PrimitiveSchemaOrNull(a.fields[id], LastParamType(TypeOf(a.fields[id]))) {
      case Some(p) => r, cache' := p, cache;
      case None => r, cache' := ObjectSchemaMemo(a, rank, id, cache);
    }
  }

  /** `toObjectSchema()` over the memo. */
  method ObjectSchemaMemo(a: Arena, rank: seq<nat>, id: FieldId, cache: map<FieldId, Schema>)
    returns (r: Schema, cache': map<FieldId, Schema>)
    requires Ranked(a, rank) && id < |a.fields|
    requires CacheSound(a, rank, cache)
    decreases rank[id], 0, 0
    ensures r == ToObjectSchema(a, rank, id)
    ensures CacheSound(a, rank, cache') && cache.Keys <= cache'.Keys
  {
    var cs := ChildrenOf(a, id);
    if Collapses(a, id) {
      r, cache' := ToSchemaMemo(a, rank, cs[0], cache);
      return;
    }
    var props;
    props, cache' := PropsMemo(a, rank, id, cs, cache);
    r := New(ObjectS).(props := props);
  }

  /** The property map of `owner`'s children over the memo, child by child. */
  method PropsMemo(a: Arena, rank: seq<nat>, id: FieldId, cs: seq<FieldId>, cache: map<FieldId, Schema>)
    returns (props: seq<OM.Entry<string, Schema>>, cache': map<FieldId, Schema>)
    requires Ranked(a, rank) && id < |a.fields|
    requires forall k :: 0 <= k < |cs| ==> cs[k] < |a.fields| && rank[cs[k]] < rank[id]
    requires CacheSound(a, rank, cache)
    decreases rank[id], 0, 0, 0
    ensures props == PropsOf(a, rank, id, cs)
    ensures CacheSound(a, rank, cache') && cache.Keys <= cache'.Keys
  {
    props := [];
    cache' := cache;
    var i := 0;
    while i < |cs|
      invariant 0 <= i <= |cs|
      invariant CacheSound(a, rank, cache') && cache.Keys <= cache'.Keys
      invariant props == PropsOf(a, rank, id, cs[..i])
    {
      props, cache' := PropMemo(a, rank, id, cs, i, props, cache');
      i := i + 1;
    }
    assert cs[..i] == cs;
  }

  /** One turn of the property loop: the i-th child's schema, through the memo, put
      under its name. */
  method PropMemo(a: Arena, rank: seq<nat>, id: FieldId, cs: seq<FieldId>, i: nat,
                  props: seq<OM.Entry<string, Schema>>, cache: map<FieldId, Schema>)
    returns (props': seq<OM.Entry<string, Schema>>, cache': map<FieldId, Schema>)
    requires Ranked(a, rank) && id < |a.fields| && i < |cs|
    requires forall k :: 0 <= k < |cs| ==> cs[k] < |a.fields| && rank[cs[k]] < rank[id]
    requires CacheSound(a, rank, cache)
    requires props == PropsOf(a, rank, id, cs[..i])
    decreases rank[id], 0, 0, 0, 0
    ensures props' == PropsOf(a, rank, id, cs[..i + 1])
    ensures CacheSound(a, rank, cache') && cache.Keys <= cache'.Keys
  {
    var child;
    child, cache' := ToSchemaMemo(a, rank, cs[i], cache);
    PropsStep(a, rank, id, cs, i);
    props' := OM.Put(props, a.fields[cs[i]].name, child);
  }
}

=== FILE: generator.dfy ===
/** `GeneratorContent`: the schema-name prefix of an operation, the components registry
    that nested object schemas are moved into (replaced by `$ref`s), the response and
    request-body schemas, and the operation id.

    The registry holds schema objects that later steps keep mutating, so it is a heap of
    schemas plus an insertion-ordered map from component name to heap handle. */
module Generator {

  import opened Base
  import opened Text
  import OM = OrderedMap
  import opened Schemas
  import opened DocFields
  import FieldSchema

  /* ---------- schema prefix ---------- */

  /** `getSchemaPrefix()`: the last two '/'-separated pieces of the path (fewer when there
      are fewer), joined by '_' and read as lower_underscore into UpperCamel. */
  function SchemaPrefix(path: string): (r: string)
    ensures '_' !in r
  {
    var pieces := JavaSplit(path, "/");
    var start := if |pieces| >= 2 then |pieces| - 2 else 0;
    UpperCamelHasNoUnderscore(Join(pieces[start..], "_"));
    UpperCamel(Join(pieces[start..], "_"))
  }

  /** Splitting a '/'-joined path whose last segment is not empty gives the segments. */
  lemma SplitPath(ws: seq<string>)
    requires |ws| >= 2 && ws[|ws| - 1] != []
    requires forall k :: 0 <= k < |ws| ==> '/' !in ws[k]
    ensures JavaSplit(Join(ws, "/"), "/") == ws
  {
    SplitJoin(ws, '/');
    JoinHasSeparator(ws, '/');
  }

  /** Two underscore-free words joined by '_' read back as their capitalizations. */
  lemma UpperCamelOfPair(x: string, y: string)
    requires '_' !in x && '_' !in y
    ensures UpperCamel(Join([x, y], "_")) == Capitalize(x) + Capitalize(y)
  {
    SplitJoin([x, y], '_');
    var cx, cy := Capitalize(x), Capitalize(y);
    assert CapitalizeAll([x, y]) == [cx, cy];
    assert Concat([cy]) == cy + Concat([]);
    assert Concat([cx, cy]) == cx + Concat([cy]);
    assert cy + [] == cy;
  }

  /** For a path ending in two underscore-free segments, the prefix is the two segments
      capitalized and run together. */
  lemma SchemaPrefixOfSegments(ws: seq<string>)
    requires |ws| >= 2 && ws[|ws| - 1] != []
    requires forall k :: 0 <= k < |ws| ==> '/' !in ws[k]
    requires '_' !in ws[|ws| - 2] && '_' !in ws[|ws| - 1]
    ensures SchemaPrefix(Join(ws, "/")) == Capitalize(ws[|ws| - 2]) + Capitalize(ws[|ws| - 1])
  {
    var x, y := ws[|ws| - 2], ws[|ws| - 1];
    SplitPath(ws);
    SchemaPrefixOfSplit(Join(ws, "/"), ws);
    UpperCamelOfPair(x, y);
  }

  /** The prefix read from the pieces of a path that splits into at least two. */
  lemma SchemaPrefixOfSplit(path: string, pieces: seq<string>)
    requires JavaSplit(path, "/") == pieces && |pieces| >= 2
    ensures SchemaPrefix(path) == UpperCamel(Join([pieces[|pieces| - 2], pieces[|pieces| - 1]], "_"))
  {
    assert pieces[|pieces| - 2..] == [pieces[|pieces| - 2], pieces[|pieces| - 1]];
  }

  /* ---------- the components registry ---------- */

  datatype Registry = Registry(heap: seq<Schema>, names: seq<OM.Entry<string, nat>>)

  ghost predicate Good(reg: Registry) {
    forall e :: e in reg.names ==> e.value < |reg.heap|
  }

  /** `components.addSchemas(key, s)`: a new object under `key`, replacing any earlier one. */
  function Register(reg: Registry, key: string, s: Schema): (r: (Registry, nat))
    requires Good(reg)
    ensures Good(r.0) && r.1 == |reg.heap| && r.0.heap == reg.heap + [s]
    ensures OM.Get(r.0.names, key) == Some(r.1)
    ensures forall k :: k != key ==> OM.Get(r.0.names, k) == OM.Get(reg.names, k)
    ensures forall k :: k in OM.Keys(reg.names) ==> k in OM.Keys(r.0.names)
  {
    OM.PutEntries(reg.names, key, |reg.heap|);
    OM.PutOthers(reg.names, key, |reg.heap|);
    (Registry(reg.heap + [s], OM.Put(reg.names, key, |reg.heap|)), |reg.heap|)
  }

  /** The schema registered under `key`. */
  function Lookup(reg: Registry, key: string): (r: Option<Schema>)
    requires Good(reg)
  {
    match OM.Get(reg.names, key)
    case None => None
    case Some(h) => Some(reg.heap[h])
  }

  /** `parent.addProperty(key, value)` on the object at handle `p`. */
  function AddPropertyAt(reg: Registry, p: nat, key: string, value: Schema): (r: Registry)
    requires Good(reg) && p < |reg.heap|
    ensures Good(r) && r.names == reg.names && |r.heap| == |reg.heap|
    ensures r.heap[p] == AddProperty(reg.heap[p], key, value)
    ensures forall j :: 0 <= j < |reg.heap| && j != p ==> r.heap[j] == reg.heap[j]
  {
    reg.(heap := reg.heap[p := AddProperty(reg.heap[p], key, value)])
  }

  /** The properties `addSchema` moves: those of the items of an array, else its own. */
  function TargetProps(s: Schema): seq<OM.Entry<string, Schema>> {
    if s.items.Some? then s.items.value.props else s.props
  }

  /** `defaultIfBlank(schema.getName(), parent.getName())`. */
  function NameFor(s: Schema, parent: Schema): (r: Option<string>)
    ensures s.name.Some? && !IsBlank(s.name.value) ==> r == s.name
    ensures s.name.None? || IsBlank(s.name.value) ==> r == parent.name
  {
    if s.name.Some? && !IsBlank(s.name.value) then s.name else parent.name
  }

  /** The component key: the prefix and the UpperCamel name, except that "extra" is
      always "extra". */
  function FullName(prefix: string, name: string): (r: string)
    ensures name == "extra" ==> r == "extra"
    ensures name != "extra" ==> r == prefix + UpperCamel(name)
    ensures name != "extra" ==> prefix <= r
    ensures '_' !in prefix ==> '_' !in r
  {
    if name == "extra" then "extra"
    else
      UpperCamelHasNoUnderscore(name);
      prefix + UpperCamel(name)
  }

  /** The property written when an equal schema is already registered, as the source
      writes it: a reference built from the registered schema's own `$ref`. */
  function ReuseRefAsWritten(exist: Schema): (r: Schema)
    ensures r.kind == Plain && r.props == []
    ensures r.ref == OptRefTo(exist.ref)
    ensures exist.ref.None? ==> r.ref.None?
  {
    New(Plain).(ref := OptRefTo(exist.ref))
  }

  /** The reuse branch as written: the parent's property is built from the registered
      schema's own `$ref`. */
  function ReuseAsWritten(reg: Registry, p: nat, name: string, full: string): (r: Registry)
    requires Good(reg) && p < |reg.heap| && Lookup(reg, full).Some?
    ensures Good(r) && |r.heap| == |reg.heap|
    ensures OM.Get(r.heap[p].props, name) == Some(ReuseRefAsWritten(Lookup(reg, full).value))
  {
    AddPropertyAt(reg, p, name, ReuseRefAsWritten(Lookup(reg, full).value))
  }

  /** A registered schema carries no `$ref` of its own, so the reference written as the
      source does points nowhere, while the corrected one names the key. */
  lemma ReusedSchemaLosesRef(reg: Registry, p: nat, name: string, full: string)
    requires Good(reg) && p < |reg.heap| && full in OM.Keys(reg.names)
    requires Lookup(reg, full).value.ref.None?
    ensures OM.Get(ReuseAsWritten(reg, p, name, full).heap[p].props, name).value.ref.None?
    ensures OM.Get(Reuse(reg, p, name, full).heap[p].props, name).value.ref == Some(RefTo(full))
  {
  }

  /** The intended property: a reference to the registered key. */
  function ReuseRef(fullName: string): (r: Schema)
    ensures r.kind == Plain && r.props == []
    ensures '.' !in fullName && '/' !in fullName ==> r.ref == Some(COMPONENTS_PREFIX + fullName)
  {
    New(Plain).(ref := Some(RefTo(fullName)))
  }

  /** The array property that replaces an inline array of objects. */
  function ArrayRef(s: Schema, fullName: string): (r: Schema)
    ensures r.kind == ArrayS && r.items == Some(New(Plain).(ref := Some(RefTo(fullName))))
    ensures r.example == s.example && r.description == s.description
  {
    New(ArrayS).(example := s.example, description := s.description,
                 items := Some(New(Plain).(ref := Some(RefTo(fullName)))))
  }

  /** The object registered for an array of objects: the item properties. */
  function ItemObject(s: Schema, name: string, props: seq<OM.Entry<string, Schema>>): (r: Schema)
    ensures r.kind == ObjectS && r.name == Some(name) && r.props == props
  {
    New(ObjectS).(name := Some(name), props := props, example := s.example, description := s.description)
  }

  /** The handle-level frame of one registry rewrite below parent `p`: every older object
      but `p` is untouched, `p` only gains properties, and no name is forgotten. */
  ghost predicate Below(reg: Registry, r: Registry, p: nat)
    requires p < |reg.heap|
  {
    && Good(r) && |r.heap| >= |reg.heap|
    && (forall j :: 0 <= j < |reg.heap| && j != p ==> r.heap[j] == reg.heap[j])
    && r.heap[p] == reg.heap[p].(props := r.heap[p].props)
    && (forall k :: k in OM.Keys(reg.heap[p].props) ==> k in OM.Keys(r.heap[p].props))
    && (forall k :: k in OM.Keys(reg.names) ==> k in OM.Keys(r.names))
  }

  lemma BelowTrans(r0: Registry, r1: Registry, r2: Registry, p: nat)
    requires p < |r0.heap| && Below(r0, r1, p) && Below(r1, r2, p)
    ensures Below(r0, r2, p)
  {
  }

  lemma AddPropertyBelow(reg: Registry, p: nat, key: string, value: Schema)
    requires Good(reg) && p < |reg.heap|
    ensures Below(reg, AddPropertyAt(reg, p, key, value), p)
    ensures OM.Get(AddPropertyAt(reg, p, key, value).heap[p].props, key) == Some(value)
  {
    var m := reg.heap[p].props;
    if key !in OM.Keys(m) {
      assert OM.Keys(OM.Put(m, key, value)) == OM.Keys(m) + [key];
    }
  }

  /** The "extra" special case: the parent first gets a plain reference to "extra". */
  function ExtraRef(reg: Registry, p: nat, name: string): (r: Registry)
    requires Good(reg) && p < |reg.heap|
    ensures Below(reg, r, p) && |r.heap| == |reg.heap| && r.names == reg.names
    ensures name != "extra" ==> r == reg
    ensures name == "extra" ==> OM.Get(r.heap[p].props, "extra") == Some(New(Plain).(ref := Some(RefTo("extra"))))
  {
    if name == "extra" then
      AddPropertyBelow(reg, p, name, New(Plain).(ref := Some(RefTo("extra"))));
      AddPropertyAt(reg, p, name, New(Plain).(ref := Some(RefTo("extra"))))
    else reg
  }

  /** `addSchema(parent, schema)` with the parent at handle `p`: nothing for a schema
      without properties to move; otherwise the parent gets a property `name` under which
      the schema is referenced. */
  function AddSchema(prefix: string, reg: Registry, p: nat, s: Schema): (r: Result<Registry>)
    requires Good(reg) && p < |reg.heap|
    decreases s, 1
    ensures TargetProps(s) == [] ==> r == Ok(reg)
    ensures TargetProps(s) != [] && NameFor(s, reg.heap[p]).None? ==> r == Err(NullSchemaName)
    ensures r.Ok? ==> Below(reg, r.value, p)
    ensures r.Ok? && TargetProps(s) != [] ==>
              var name := NameFor(s, reg.heap[p]).value;
              && name in OM.Keys(r.value.heap[p].props)
              && FullName(prefix, name) in OM.Keys(r.value.names)
  {
    var props := TargetProps(s);
    if props == [] then Ok(reg)
    else
      match NameFor(s, reg.heap[p])
      case None => Err(NullSchemaName)
      case Some(name) =>
        var full := FullName(prefix, name);
        var reg1 := ExtraRef(reg, p, name);
        var r :- if Lookup(reg1, full) == Some(s) then Ok(Reuse(reg1, p, name, full))
                 else Relocate(prefix, reg1, p, s, name, full);
        BelowTrans(reg, reg1, r, p);
        Ok(r)
  }

  /** An equal schema is already registered under the key: the parent only gets a
      reference to it, and the registry's names stay as they were. */
  function Reuse(reg: Registry, p: nat, name: string, full: string): (r: Registry)
    requires Good(reg) && p < |reg.heap| && full in OM.Keys(reg.names)
    ensures Below(reg, r, p) && r.names == reg.names && |r.heap| == |reg.heap|
    ensures OM.Get(r.heap[p].props, name) == Some(ReuseRef(full))
    ensures name in OM.Keys(r.heap[p].props) && full in OM.Keys(r.names)
  {
    AddPropertyBelow(reg, p, name, ReuseRef(full));
    AddPropertyAt(reg, p, name, ReuseRef(full))
  }

  /** No equal schema is registered: the parent references the key (through an array
      property for an array), the schema is registered under the key (an object of the
      item properties for an array), and its properties are moved in turn. */
  function Relocate(prefix: string, reg: Registry, p: nat, s: Schema, name: string, full: string): (r: Result<Registry>)
    requires Good(reg) && p < |reg.heap|
    decreases s, 0, |TargetProps(s)| + 1
    ensures r.Ok? ==> Below(reg, r.value, p)
    ensures r.Ok? ==> name in OM.Keys(r.value.heap[p].props) && full in OM.Keys(r.value.names)
    ensures r.Ok? ==> var h := |reg.heap|;
                      && h < |r.value.heap|
                      && r.value.heap[h].kind == (if s.kind == ArrayS then ObjectS else s.kind)
    ensures r.Ok? ==> var h := |reg.heap|;
                      var registered := if s.kind == ArrayS then ItemObject(s, name, TargetProps(s)) else s;
                      && r.value.heap[h] == registered.(props := r.value.heap[h].props)
                      && (s.kind == ArrayS || s.items.None? ==>
                            forall k :: k in OM.Keys(TargetProps(s)) ==> k in OM.Keys(r.value.heap[h].props))
    ensures r.Ok? && s.kind == ArrayS ==> OM.Get(r.value.heap[p].props, name) == Some(ArrayRef(s, full))
    ensures r.Ok? && s.kind != ArrayS ==> OM.Get(r.value.heap[p].props, name) == Some(New(ObjectS).(ref := Some(RefTo(full))))
  {
    var props := TargetProps(s);
    var prop := if s.kind == ArrayS then ArrayRef(s, full) else New(ObjectS).(ref := Some(RefTo(full)));
    var registered := if s.kind == ArrayS then ItemObject(s, name, props) else s;
    AddPropertyBelow(reg, p, name, prop);
    var reg2 := AddPropertyAt(reg, p, name, prop);
    var (reg3, h) := Register(reg2, full, registered);
    var r :- MoveAll(prefix, reg3, h, s, props);
    RelocateFrame(reg, reg2, reg3, r, p, h);
    Ok(r)
  }

  /** The frame of a relocation: the parent changed only by its new property, the new
      object only by the moves below it. */
  lemma RelocateFrame(reg: Registry, reg2: Registry, reg3: Registry, r: Registry, p: nat, h: nat)
    requires p < |reg.heap| && Below(reg, reg2, p) && |reg2.heap| == |reg.heap| && reg2.names == reg.names
    requires Good(reg3) && h == |reg2.heap| && |reg3.heap| == h + 1 && reg3.heap[..h] == reg2.heap
    requires forall k :: k in OM.Keys(reg2.names) ==> k in OM.Keys(reg3.names)
    requires Below(reg3, r, h)
    requires forall j :: 0 <= j < |reg3.heap| && j != h ==> r.heap[j] == reg3.heap[j]
    ensures Below(reg, r, p) && r.heap[p] == reg2.heap[p]
    ensures r.heap[h] == reg3.heap[h].(props := r.heap[h].props)
  {
    assert r.heap[p] == reg3.heap[p] == reg2.heap[p];
    forall j | 0 <= j < |reg.heap| && j != p ensures r.heap[j] == reg.heap[j] {
      assert r.heap[j] == reg3.heap[j] == reg2.heap[j];
    }
  }

  /** `addSchema(parent, v)` puts a key the parent's property map does not hold yet: `v`
      has properties to move and its name (or, when blank, the parent's) is not a key. */
  predicate PutsNewKey(reg: Registry, h: nat, v: Schema)
    requires h < |reg.heap|
  {
    && TargetProps(v) != []
    && NameFor(v, reg.heap[h]).Some?
    && NameFor(v, reg.heap[h]).value !in OM.Keys(reg.heap[h].props)
  }

  /** `for (value : properties.values()) addSchema(schema, value)`, with the object at
      handle `h` holding `properties`: moves each of `ps` (properties of `owner`) out of
      it. The recursive call writes into the very map being iterated; a put of a new key
      is a structural change of the `HashMap`, so the iterator's next step throws. */
  function MoveAll(prefix: string, reg: Registry, h: nat, ghost owner: Schema, ps: seq<OM.Entry<string, Schema>>): (r: Result<Registry>)
    requires Good(reg) && h < |reg.heap|
    requires forall e :: e in ps ==> e in TargetProps(owner)
    decreases owner, 0, |ps|
    ensures r.Ok? ==> Below(reg, r.value, h)
    ensures r.Ok? ==> forall j :: 0 <= j < |reg.heap| && j != h ==> r.value.heap[j] == reg.heap[j]
    ensures |ps| > 1 && PutsNewKey(reg, h, ps[0].value) ==> r.Err?
  {
    if ps == [] then Ok(reg)
    else
      assert ps[0] in TargetProps(owner);
      var reg1 :- AddSchema(prefix, reg, h, ps[0].value);
      if |ps| > 1 && PutsNewKey(reg, h, ps[0].value) then Err(ConcurrentModification)
      else
        var reg2 :- MoveAll(prefix, reg1, h, owner, ps[1..]);
        BelowTrans(reg, reg1, reg2, h);
        Ok(reg2)
  }

  /** A nested object with a blank name takes its parent's name; when that is not yet a
      property of the parent, the put changes the map under iteration, and the next
      property makes the iterator throw. */
  lemma BlankNestedNameThrows(prefix: string, reg: Registry, h: nat, owner: Schema, ps: seq<OM.Entry<string, Schema>>)
    requires Good(reg) && h < |reg.heap|
    requires forall e :: e in ps ==> e in TargetProps(owner)
    requires |ps| >= 2 && TargetProps(ps[0].value) != []
    requires ps[0].value.name.None? || IsBlank(ps[0].value.name.value)
    requires reg.heap[h].name.Some? && reg.heap[h].name.value !in OM.Keys(reg.heap[h].props)
    ensures MoveAll(prefix, reg, h, owner, ps).Err?
    ensures AddSchema(prefix, reg, h, ps[0].value).Ok? ==> MoveAll(prefix, reg, h, owner, ps) == Err(ConcurrentModification)
  {
    assert NameFor(ps[0].value, reg.heap[h]) == reg.heap[h].name;
    assert PutsNewKey(reg, h, ps[0].value);
  }

  /** Moving properties that have nothing to move changes nothing. */
  lemma {:induction false} MoveLeaves(prefix: string, reg: Registry, h: nat, owner: Schema, ps: seq<OM.Entry<string, Schema>>)
    requires Good(reg) && h < |reg.heap|
    requires forall e :: e in ps ==> e in TargetProps(owner) && TargetProps(e.value) == []
    decreases |ps|
    ensures MoveAll(prefix, reg, h, owner, ps) == Ok(reg)
  {
    if ps != [] {
      assert ps[0] in ps;
      assert forall e :: e in ps[1..] ==> e in ps;
      MoveLeaves(prefix, reg, h, owner, ps[1..]);
    }
  }

  /** An object whose properties are all leaves is registered under its key unchanged. */
  lemma LeafObjectRegistered(prefix: string, reg: Registry, p: nat, s: Schema)
    requires Good(reg) && p < |reg.heap|
    requires s.kind != ArrayS && s.items.None? && s.props != []
    requires s.name.Some? && !IsBlank(s.name.value) && s.name.value != "extra"
    requires forall e :: e in s.props ==> TargetProps(e.value) == []
    requires Lookup(reg, FullName(prefix, s.name.value)).None?
    ensures AddSchema(prefix, reg, p, s).Ok?
    ensures Lookup(AddSchema(prefix, reg, p, s).value, FullName(prefix, s.name.value)) == Some(s)
  {
    var name := s.name.value;
    var full := FullName(prefix, name);
    assert TargetProps(s) == s.props;
    assert NameFor(s, reg.heap[p]) == Some(name);
    assert ExtraRef(reg, p, name) == reg;
    var reg3 := LeafRelocate(prefix, reg, p, s, name, full);
    assert AddSchema(prefix, reg, p, s) == Relocate(prefix, reg, p, s, name, full);
    assert Lookup(reg3, full) == Some(s);
  }

  /** Relocating an object whose properties are all leaves registers it unchanged and
      moves nothing; the registry is returned for the caller to name. */
  lemma LeafRelocate(prefix: string, reg: Registry, p: nat, s: Schema, name: string, full: string)
    returns (reg3: Registry)
    requires Good(reg) && p < |reg.heap|
    requires s.kind != ArrayS && s.items.None?
    requires forall e :: e in s.props ==> TargetProps(e.value) == []
    ensures Good(reg3) && Lookup(reg3, full) == Some(s)
    ensures Relocate(prefix, reg, p, s, name, full) == Ok(reg3)
  {
    var prop := New(ObjectS).(ref := Some(RefTo(full)));
    var reg2 := AddPropertyAt(reg, p, name, prop);
    var (r3, h) := Register(reg2, full, s);
    reg3 := r3;
    MoveLeaves(prefix, reg3, h, s, s.props);
  }

  /** Adding the same leaf object a second time, under any parent, takes the reuse
      branch: the parent only gets a reference to the registered key. */
  lemma SecondAddReuses(prefix: string, reg: Registry, p: nat, q: nat, s: Schema)
    requires Good(reg) && p < |reg.heap| && q < |reg.heap|
    requires s.kind != ArrayS && s.items.None? && s.props != []
    requires s.name.Some? && !IsBlank(s.name.value) && s.name.value != "extra"
    requires forall e :: e in s.props ==> TargetProps(e.value) == []
    requires Lookup(reg, FullName(prefix, s.name.value)).None?
    ensures AddSchema(prefix, reg, p, s).Ok?
    ensures var r := AddSchema(prefix, reg, p, s).value;
            AddSchema(prefix, r, q, s) == Ok(Reuse(r, q, s.name.value, FullName(prefix, s.name.value)))
  {
    LeafObjectRegistered(prefix, reg, p, s);
    var name := s.name.value;
    var full := FullName(prefix, name);
    var r := AddSchema(prefix, reg, p, s).value;
    assert TargetProps(s) == s.props;
    assert NameFor(s, r.heap[q]) == Some(name);
    assert ExtraRef(r, q, name) == r;
    assert Lookup(r, full) == Some(s);
  }

  /* ---------- the response schema ---------- */

  /** The routing test of `buildRespSchema` as written: a schema with properties or with
      items is handed to `addSchema`. */
  predicate RouteAsWritten(s: Schema) {
    s.props != [] || s.items.Some?
  }

  /** The intended routing test: only a schema `addSchema` has properties to move. */
  predicate Route(s: Schema) {
    TargetProps(s) != []
  }

  /** The two routing tests part exactly on arrays whose items have no properties, and a
      schema the intended test routes the written test routes as well. */
  lemma RoutesDiffer(s: Schema)
    ensures Route(s) ==> RouteAsWritten(s)
    ensures RouteAsWritten(s) && !Route(s) <==> s.items.Some? && s.items.value.props == []
  {
  }

  /** One response field as the source handles it: an array whose items have no
      properties (an array of primitives) is routed to `addSchema`, which returns without
      adding anything, so the field disappears from the response. */
  function RespStepAsWritten(prefix: string, reg: Registry, h: nat, fieldName: string, s: Schema): (r: Result<Registry>)
    requires Good(reg) && h < |reg.heap|
    ensures r.Ok? ==> Below(reg, r.value, h)
  {
    if RouteAsWritten(s) then AddSchema(prefix, reg, h, s)
    else
      AddPropertyBelow(reg, h, fieldName, s);
      Ok(AddPropertyAt(reg, h, fieldName, s))
  }

  /** The property key a response field ends up under: its schema's name (falling back
      to the response's) when it is moved into the registry, else the field's name. */
  function RespKey(fieldName: string, s: Schema, parentName: string): string {
    if !Route(s) then fieldName
    else if s.name.Some? && !IsBlank(s.name.value) then s.name.value
    else parentName
  }

  /** One response field, routed by `Route`: the response object gains the field's key,
      and nothing else in the registry is lost. */
  function RespStep(prefix: string, reg: Registry, h: nat, fieldName: string, s: Schema): (r: Result<Registry>)
    requires Good(reg) && h < |reg.heap| && reg.heap[h].name.Some?
    ensures r.Ok? ==> Below(reg, r.value, h)
    ensures r.Ok? ==> RespKey(fieldName, s, reg.heap[h].name.value) in OM.Keys(r.value.heap[h].props)
    ensures !Route(s) ==> r.Ok? && OM.Get(r.value.heap[h].props, fieldName) == Some(s)
  {
    if Route(s) then AddSchema(prefix, reg, h, s)
    else
      AddPropertyBelow(reg, h, fieldName, s);
      Ok(AddPropertyAt(reg, h, fieldName, s))
  }

  /** Both routings agree on every schema but an array whose items have no properties. */
  lemma RespStepAgrees(prefix: string, reg: Registry, h: nat, fieldName: string, s: Schema)
    requires Good(reg) && h < |reg.heap| && reg.heap[h].name.Some?
    requires !(s.items.Some? && s.items.value.props == [])
    ensures RespStepAsWritten(prefix, reg, h, fieldName, s) == RespStep(prefix, reg, h, fieldName, s)
  {
  }

  /** A response object holding nothing but its name, the registry it sits in, and an
      array of integers named "ids". */
  function IdsRegistry(): (r: Registry)
    ensures Good(r) && |r.heap| == 1 && r.heap[0].name.Some?
  {
    Registry([New(ObjectS).(name := Some("Response"))], [])
  }

  function IdsField(): (r: Schema)
    ensures r.kind == ArrayS && r.items.Some? && r.items.value.props == []
  {
    New(ArrayS).(name := Some("ids"), items := Some(New(IntegerS)))
  }

  /** The array of integers "ids" is lost as written and kept when routed by `Route`. */
  lemma PrimitiveArrayDropped()
    ensures RespStepAsWritten("", IdsRegistry(), 0, "ids", IdsField()) == Ok(IdsRegistry())
    ensures "ids" !in OM.Keys(IdsRegistry().heap[0].props)
    ensures var r := RespStep("", IdsRegistry(), 0, "ids", IdsField());
            r.Ok? && OM.Get(r.value.heap[0].props, "ids") == Some(IdsField())
  {
    assert RouteAsWritten(IdsField()) && !Route(IdsField());
  }

  /** The response fields in order, each through `RespStep`. */
  function RespLoop(prefix: string, reg: Registry, h: nat, fields: seq<(string, Schema)>): (r: Result<Registry>)
    requires Good(reg) && h < |reg.heap| && reg.heap[h].name.Some?
    decreases |fields|
    ensures r.Ok? ==> Below(reg, r.value, h)
    ensures r.Ok? ==> forall i :: 0 <= i < |fields| ==>
              RespKey(fields[i].0, fields[i].1, reg.heap[h].name.value) in OM.Keys(r.value.heap[h].props)
  {
    if fields == [] then Ok(reg)
    else
      var reg1 :- RespStep(prefix, reg, h, fields[0].0, fields[0].1);
      var r :- RespLoop(prefix, reg1, h, fields[1..]);
      BelowTrans(reg, reg1, r, h);
      Ok(r)
  }

  /** The name and schema of each response field. */
  function RespFields(a: Arena, rank: seq<nat>, ids: seq<FieldId>): (r: seq<(string, Schema)>)
    requires FieldSchema.Ranked(a, rank) && forall k :: 0 <= k < |ids| ==> ids[k] < |a.fields|
    ensures |r| == |ids|
    ensures forall k :: 0 <= k < |ids| ==> r[k] == (a.fields[ids[k]].name, FieldSchema.ToSchema(a, rank, ids[k]))
  {
    seq(|ids|, k requires 0 <= k < |ids| => (a.fields[ids[k]].name, FieldSchema.ToSchema(a, rank, ids[k])))
  }

  /** A field with a non-blank name keeps it as its response key. */
  lemma RespKeysAreNames(a: Arena, rank: seq<nat>, ids: seq<FieldId>, fields: seq<(string, Schema)>, respName: string)
    requires FieldSchema.Ranked(a, rank) && forall k :: 0 <= k < |ids| ==> ids[k] < |a.fields|
    requires fields == RespFields(a, rank, ids)
    ensures forall k :: 0 <= k < |ids| && !IsBlank(a.fields[ids[k]].name) ==>
              RespKey(fields[k].0, fields[k].1, respName) == a.fields[ids[k]].name
  {
    forall k | 0 <= k < |ids| && !IsBlank(a.fields[ids[k]].name)
      ensures RespKey(fields[k].0, fields[k].1, respName) == a.fields[ids[k]].name
    {
      assert fields[k].1.name == Some(a.fields[ids[k]].name);
    }
  }

  /** `buildRespSchema()` without the rebuild branch: an object named prefix + "Response"
      is registered, every field is added to it or moved below it, and the result is a
      reference to it.  Every field with a non-blank name is a property of the response. */
  function BuildRespSchema(a: Arena, rank: seq<nat>, path: string, reg: Registry, ids: seq<FieldId>): (r: Result<(Registry, Schema)>)
    requires FieldSchema.Ranked(a, rank) && forall k :: 0 <= k < |ids| ==> ids[k] < |a.fields|
    requires Good(reg)
    ensures r.Ok? ==> var respName := SchemaPrefix(path) + "Response";
              && r.value.1 == New(ObjectS).(ref := Some(RefTo(respName)))
              && Good(r.value.0) && |reg.heap| < |r.value.0.heap|
              && r.value.0.heap[|reg.heap|].name == Some(respName)
              && r.value.0.heap[|reg.heap|].kind == ObjectS
              && respName in OM.Keys(r.value.0.names)
              && forall k :: 0 <= k < |ids| && !IsBlank(a.fields[ids[k]].name) ==>
                   a.fields[ids[k]].name in OM.Keys(r.value.0.heap[|reg.heap|].props)
  {
    var respName := SchemaPrefix(path) + "Response";
    var (reg1, h) := Register(reg, respName, New(ObjectS).(name := Some(respName)));
    var fields := RespFields(a, rank, ids);
    var reg2 :- RespLoop(SchemaPrefix(path), reg1, h, fields);
    RespKeysAreNames(a, rank, ids, fields, respName);
    Ok((reg2, New(ObjectS).(ref := Some(RefTo(respName)))))
  }

  /* ---------- the request body ---------- */

  /** Field `id` is a root field named `n`. */
  predicate IsRootField(a: Arena, id: FieldId, n: string)
    requires Valid(a) && id < |a.fields|
  {
    IsRootObject(a, id) && a.fields[id].name == n
  }

  /** Each field as a property entry: its name and its schema. */
  function FieldEntries(a: Arena, rank: seq<nat>, ids: seq<FieldId>): (r: seq<OM.Entry<string, Schema>>)
    requires FieldSchema.Ranked(a, rank) && forall k :: 0 <= k < |ids| ==> ids[k] < |a.fields|
    ensures |r| == |ids|
    ensures forall k :: 0 <= k < |ids| ==> r[k] == OM.Entry(a.fields[ids[k]].name, FieldSchema.ToSchema(a, rank, ids[k]))
  {
    seq(|ids|, k requires 0 <= k < |ids| => OM.Entry(a.fields[ids[k]].name, FieldSchema.ToSchema(a, rank, ids[k])))
  }

  /** Which fields are roots. */
  function RootFlags(a: Arena, ids: seq<FieldId>): (r: seq<bool>)
    requires Valid(a) && forall k :: 0 <= k < |ids| ==> ids[k] < |a.fields|
    ensures |r| == |ids|
    ensures forall k :: 0 <= k < |ids| ==> r[k] == IsRootObject(a, ids[k])
  {
    seq(|ids|, k requires 0 <= k < |ids| => IsRootObject(a, ids[k]))
  }

  /** Some field among `ids` is a root field named `n`. */
  predicate RootNamed(a: Arena, ids: seq<FieldId>, n: string)
    requires Valid(a) && forall k :: 0 <= k < |ids| ==> ids[k] < |a.fields|
  {
    exists k :: 0 <= k < |ids| && IsRootField(a, ids[k], n)
  }

  /** `e` is the name and schema of some root field among `ids`. */
  ghost predicate RootEntry(a: Arena, rank: seq<nat>, ids: seq<FieldId>, e: OM.Entry<string, Schema>)
    requires FieldSchema.Ranked(a, rank) && forall k :: 0 <= k < |ids| ==> ids[k] < |a.fields|
  {
    exists k :: 0 <= k < |ids| && IsRootField(a, ids[k], e.key) && e.value == FieldSchema.ToSchema(a, rank, ids[k])
  }

  /** A selected entry's key is exactly a root field's name. */
  lemma RootKeys<V>(a: Arena, ids: seq<FieldId>, es: seq<OM.Entry<string, V>>, keep: seq<bool>)
    requires Valid(a) && forall k :: 0 <= k < |ids| ==> ids[k] < |a.fields|
    requires |es| == |ids| && forall k :: 0 <= k < |ids| ==> es[k].key == a.fields[ids[k]].name
    requires |keep| == |ids| && forall k :: 0 <= k < |ids| ==> keep[k] == IsRootObject(a, ids[k])
    ensures forall n :: OM.SelectedKey(es, keep, n) <==> RootNamed(a, ids, n)
  {
    forall n | OM.SelectedKey(es, keep, n) ensures RootNamed(a, ids, n) {
      var i :| 0 <= i < |es| && keep[i] && es[i].key == n;
      assert IsRootField(a, ids[i], n);
    }
    forall n | RootNamed(a, ids, n) ensures OM.SelectedKey(es, keep, n) {
      var k :| 0 <= k < |ids| && IsRootField(a, ids[k], n);
      assert keep[k] && es[k].key == n;
    }
  }

  /** A selected entry is a root field's name and schema. */
  lemma RootValues(a: Arena, rank: seq<nat>, ids: seq<FieldId>, es: seq<OM.Entry<string, Schema>>, keep: seq<bool>)
    requires FieldSchema.Ranked(a, rank) && forall k :: 0 <= k < |ids| ==> ids[k] < |a.fields|
    requires es == FieldEntries(a, rank, ids) && keep == RootFlags(a, ids)
    ensures forall e :: OM.Selected(es, keep, e) ==> RootEntry(a, rank, ids, e)
  {
    forall e | OM.Selected(es, keep, e) ensures RootEntry(a, rank, ids, e) {
      var i :| 0 <= i < |es| && keep[i] && es[i] == e;
      assert IsRootField(a, ids[i], e.key);
    }
  }

  /** Position `k` holds the last root field named `n` among `ids`. */
  ghost predicate LastRootAt(a: Arena, ids: seq<FieldId>, n: string, k: int)
    requires Valid(a) && forall k :: 0 <= k < |ids| ==> ids[k] < |a.fields|
  {
    && 0 <= k < |ids|
    && IsRootField(a, ids[k], n)
    && forall k' :: k < k' < |ids| ==> !IsRootField(a, ids[k'], n)
  }

  /** The selected root entries put in order: under each root name, the schema of the
      last root field of that name, and nothing under other names. */
  lemma SelectedRootsLaterWins(a: Arena, rank: seq<nat>, ids: seq<FieldId>, n: string)
    requires FieldSchema.Ranked(a, rank) && forall k :: 0 <= k < |ids| ==> ids[k] < |a.fields|
    ensures var m := OM.PutAll([], OM.Select(FieldEntries(a, rank, ids), RootFlags(a, ids)));
            && (RootNamed(a, ids, n) ==>
                  exists k :: LastRootAt(a, ids, n, k) && OM.Get(m, n) == Some(FieldSchema.ToSchema(a, rank, ids[k])))
            && (!RootNamed(a, ids, n) ==> OM.Get(m, n).None?)
  {
    var es, keep := FieldEntries(a, rank, ids), RootFlags(a, ids);
    OM.SelectedLaterWins(es, keep, n);
    match OM.LastSelected(es, keep, n)
    case Some(i) =>
      assert IsRootField(a, ids[i], n);
      forall k' | i < k' < |ids| ensures !IsRootField(a, ids[k'], n) {
        assert !(keep[k'] && es[k'].key == n);
      }
      assert LastRootAt(a, ids, n, i);
    case None =>
      forall k | 0 <= k < |ids| ensures !IsRootField(a, ids[k], n) {
        assert !(keep[k] && es[k].key == n);
      }
  }

  lemma ReqPropsLaterWins(a: Arena, rank: seq<nat>, ids: seq<FieldId>)
    requires FieldSchema.Ranked(a, rank) && forall k :: 0 <= k < |ids| ==> ids[k] < |a.fields|
    ensures var m := OM.PutAll([], OM.Select(FieldEntries(a, rank, ids), RootFlags(a, ids)));
            forall n :: RootNamed(a, ids, n) ==>
              exists k :: LastRootAt(a, ids, n, k) && OM.Get(m, n) == Some(FieldSchema.ToSchema(a, rank, ids[k]))
  {
    forall n | RootNamed(a, ids, n)
      ensures var m := OM.PutAll([], OM.Select(FieldEntries(a, rank, ids), RootFlags(a, ids)));
              exists k :: LastRootAt(a, ids, n, k) && OM.Get(m, n) == Some(FieldSchema.ToSchema(a, rank, ids[k]))
    {
      SelectedRootsLaterWins(a, rank, ids, n);
    }
  }

  /** The properties of the request body schema: every root field of the body, in order,
      under its name (a later field replaces an earlier one of the same name). */
  function ReqProps(a: Arena, rank: seq<nat>, ids: seq<FieldId>): (r: seq<OM.Entry<string, Schema>>)
    requires FieldSchema.Ranked(a, rank) && forall k :: 0 <= k < |ids| ==> ids[k] < |a.fields|
    ensures forall n :: n in OM.Keys(r) <==> RootNamed(a, ids, n)
    ensures forall e :: e in r ==> RootEntry(a, rank, ids, e)
    ensures forall n :: RootNamed(a, ids, n) ==>
              exists k :: LastRootAt(a, ids, n, k) && OM.Get(r, n) == Some(FieldSchema.ToSchema(a, rank, ids[k]))
  {
    var es := FieldEntries(a, rank, ids);
    var keep := RootFlags(a, ids);
    OM.PutAllSelected(es, keep);
    RootKeys(a, ids, es, keep);
    RootValues(a, rank, ids, es, keep);
    ReqPropsLaterWins(a, rank, ids);
    OM.PutAll([], OM.Select(es, keep))
  }

  /** `buildReqBodySchema()`: an object whose properties are the root body fields, each
      holding the schema of the last root field of its name. */
  function ReqBodySchema(a: Arena, rank: seq<nat>, ids: seq<FieldId>): (r: Schema)
    requires FieldSchema.Ranked(a, rank) && forall k :: 0 <= k < |ids| ==> ids[k] < |a.fields|
    ensures r.kind == ObjectS && r.ref.None? && r.items.None?
    ensures forall n :: n in OM.Keys(r.props) <==> RootNamed(a, ids, n)
    ensures forall n :: RootNamed(a, ids, n) ==>
              exists k :: LastRootAt(a, ids, n, k) && OM.Get(r.props, n) == Some(FieldSchema.ToSchema(a, rank, ids[k]))
  {
    New(ObjectS).(props := ReqProps(a, rank, ids))
  }

  datatype RequestBody = RequestBody(required: bool, description: Option<string>, mediaType: string, schema: Schema)

  /** Whether any of the fields is a binary upload. */
  function AnyBinary(a: Arena, ids: seq<FieldId>): (r: bool)
    requires forall k :: 0 <= k < |ids| ==> ids[k] < |a.fields|
    ensures r <==> exists k :: 0 <= k < |ids| && IsBinaryType(a.fields[ids[k]])
  {
    if ids == [] then false
    else IsBinaryType(a.fields[ids[0]]) || AnyBinary(a, ids[1..])
  }

  /** `getRequestBody()`: multipart exactly when a body field is binary, required exactly
      when there are body fields, described by the operation's description. */
  function GetRequestBody(a: Arena, rank: seq<nat>, desc: Option<string>, ids: seq<FieldId>): (r: RequestBody)
    requires FieldSchema.Ranked(a, rank) && forall k :: 0 <= k < |ids| ==> ids[k] < |a.fields|
    ensures r.required <==> ids != []
    ensures r.mediaType == "multipart/form-data" <==> exists k :: 0 <= k < |ids| && IsBinaryType(a.fields[ids[k]])
    ensures r.mediaType in {"multipart/form-data", "application/json"}
    ensures r.description == desc && r.schema == ReqBodySchema(a, rank, ids)
  {
    var media := if AnyBinary(a, ids) then "multipart/form-data" else "application/json";
    RequestBody(ids != [], desc, media, ReqBodySchema(a, rank, ids))
  }

  /* ---------- the operation id ---------- */

  datatype HttpMethod = GET | PUT | POST | DELETE | OPTIONS | HEAD | PATCH | TRACE

  /** `HttpMethod.name()`. */
  function MethodName(m: HttpMethod): (r: string)
    ensures '_' !in r
  {
    match m
    case GET => "GET" case PUT => "PUT" case POST => "POST" case DELETE => "DELETE"
    case OPTIONS => "OPTIONS" case HEAD => "HEAD" case PATCH => "PATCH" case TRACE => "TRACE"
  }

  /** The method names removed from a candidate id, in the order they are tried. */
  const KEYWORDS: seq<string> := ["GET", "POST", "DELETE"]

  /** The first of `kws` at or after `i` that occurs in `p`, ignoring case. */
  function FirstKeyword(p: string, kws: seq<string>, i: nat): (r: Option<nat>)
    decreases |kws| - i
    ensures r.Some? ==> i <= r.value < |kws| && ContainsIgnoreCase(p, kws[r.value])
    ensures r.Some? ==> forall j :: i <= j < r.value ==> !ContainsIgnoreCase(p, kws[j])
    ensures r.None? ==> forall j :: i <= j < |kws| ==> !ContainsIgnoreCase(p, kws[j])
  {
    if i >= |kws| then None
    else if ContainsIgnoreCase(p, kws[i]) then Some(i)
    else FirstKeyword(p, kws, i + 1)
  }

  /** The candidate as `toOperationId` cleans it: untouched when no method keyword occurs
      in it; otherwise lower-cased, with every occurrence of the first keyword (in the order
      of `KEYWORDS`, not of position) cut out and the pieces between them kept in order. */
  function Candidate(p: string): (r: string)
    ensures FirstKeyword(p, KEYWORDS, 0).None? ==> r == p
    ensures FirstKeyword(p, KEYWORDS, 0).Some? ==>
              var kw := Lower(KEYWORDS[FirstKeyword(p, KEYWORDS, 0).value]);
              && |kw| > 0
              && r == Join(SplitAll(Lower(p), kw), "")
              && |r| < |p|
    ensures r == p <==> FirstKeyword(p, KEYWORDS, 0).None?
  {
    match FirstKeyword(p, KEYWORDS, 0)
    case None => p
    case Some(k) =>
      var kw := Lower(KEYWORDS[k]);
      ReplaceIsSplitJoin(Lower(p), kw, "");
      ReplaceAll(Lower(p), kw, "")
  }

  /** Only the first keyword in list order goes: "post_get" holds GET, which is tried
      before POST, so the "post" stays. */
  lemma FirstKeywordOnly()
    ensures Candidate("post_get") == "post_"
  {
    LowerPostGet();
    GetFirstInPostGet();
    RemoveGetFromPostGet();
  }

  lemma GetFirstInPostGet()
    ensures FirstKeyword("post_get", KEYWORDS, 0) == Some(0)
  {
    LowerPostGet();
    GetInPostGet();
    assert ContainsIgnoreCase("post_get", KEYWORDS[0]);
  }

  lemma RemoveGetFromPostGet()
    ensures ReplaceAll("post_get", "get", "") == "post_"
  {
    GetInPostGet();
    assert "post_get"[..5] == "post_";
    assert "post_get"[5 + 3..] == [];
    assert ReplaceAll([], "get", "") == [];
  }

  lemma LowerPostGet()
    ensures Lower("post_get") == "post_get" && Lower("GET") == "get"
  {
    var l := Lower("post_get");
    assert forall i :: 0 <= i < 8 ==> l[i] == "post_get"[i];
    var g := Lower("GET");
    assert g[0] == 'g' && g[1] == 'e' && g[2] == 't';
  }

  lemma GetInPostGet()
    ensures IndexFrom("post_get", "get", 0) == Some(5)
  {
    var s := "post_get";
    assert s[5..8] == "get";
    assert OccursAt(s, "get", 5);
    forall j | 0 <= j < 5 ensures !OccursAt(s, "get", j) {
      assert s[j..j + 3][0] == s[j] != 'g';
    }
  }

  /** `toOperationId`: the lower-case method name and the cleaned candidate joined by '_',
      read as lower_underscore into lowerCamel. */
  function CandidateId(m: HttpMethod, p: string): (r: string)
    ensures '_' !in r
    ensures Lower(MethodName(m)) <= r
    ensures r == LowerCamel(Lower(MethodName(m)) + "_" + Candidate(p))
  {
    var mn := Lower(MethodName(m));
    assert '_' !in mn;
    var joined := mn + "_" + Candidate(p);
    LowerCamelHasNoUnderscore(joined);
    LowerCamelHead(mn, joined[|mn| + 1..]);
    assert joined == mn + "_" + joined[|mn| + 1..];
    LowerIdempotent(MethodName(m));
    LowerCamel(joined)
  }

  /** The cache key of a documentation path: its last '/'-separated piece with '-'
      read as '_'; none when the path is nothing but separators. */
  function LastPiece(docPath: string): (r: Option<string>)
    ensures r.None? <==> JavaSplit(docPath, "/") == []
  {
    var pieces := JavaSplit(docPath, "/");
    if pieces == [] then None else Some(ReplaceChar(pieces[|pieces| - 1], '-', '_'))
  }

  /** `operationId()` against the process-wide cache: the first operation under a key
      gets an id from the key, later ones an id from the full path; the cache keeps the
      latest id.  A path of separators only has no last piece to index. */
  function OperationId(m: HttpMethod, docPath: string, path: string, cache: map<string, string>): (r: Result<(string, map<string, string>)>)
    ensures r.Err? <==> LastPiece(docPath).None?
    ensures r.Err? ==> r.error == NoPathSegment
    ensures r.Ok? ==> '_' !in r.value.0 && Lower(MethodName(m)) <= r.value.0
    ensures r.Ok? ==> var key := LastPiece(docPath).value;
              && r.value.1 == cache[key := r.value.0]
              && (key !in cache ==> r.value.0 == CandidateId(m, key))
              && (key in cache ==> r.value.0 == CandidateId(m, ReplaceChar(path, '/', '_')))
  {
    match LastPiece(docPath)
    case None => Err(NoPathSegment)
    case Some(key) =>
      var id := if key !in cache then CandidateId(m, key) else CandidateId(m, ReplaceChar(path, '/', '_'));
      Ok((id, cache[key := id]))
  }

  /** Asking again for the same documentation path gives the path-based id, and from then
      on the id and the cache no longer change. */
  lemma OperationIdSettles(m: HttpMethod, docPath: string, path: string, cache: map<string, string>)
    requires LastPiece(docPath).Some?
    ensures var c1 := OperationId(m, docPath, path, cache).value.1;
            var r2 := OperationId(m, docPath, path, c1).value;
            var r3 := OperationId(m, docPath, path, r2.1).value;
            && r2.0 == CandidateId(m, ReplaceChar(path, '/', '_'))
            && r3 == r2
            && r2.1 == cache[LastPiece(docPath).value := r2.0]
  {
    var key := LastPiece(docPath).value;
    var c1 := OperationId(m, docPath, path, cache).value.1;
    assert key in c1;
    var r2 := OperationId(m, docPath, path, c1).value;
    var id2 := CandidateId(m, ReplaceChar(path, '/', '_'));
    assert r2 == (id2, c1[key := id2]);
    assert key in r2.1;
    var r3 := OperationId(m, docPath, path, r2.1).value;
    assert r3.0 == id2;
    UpdateSame(r2.1, key);
    var id1 := OperationId(m, docPath, path, cache).value.0;
    UpdateTwice(cache, key, id1, id2);
  }

  lemma UpdateSame<K, V>(m: map<K, V>, k: K)
    requires k in m
    ensures m[k := m[k]] == m
  {
  }

  lemma UpdateTwice<K, V>(m: map<K, V>, k: K, a: V, b: V)
    ensures m[k := a][k := b] == m[k := b]
  {
  }

  /** Two documentation paths with the same last piece share a cache entry: the second
      operation's id comes from its path even when it never asked before. */
  lemma SharedLastPiece(m: HttpMethod, d1: string, d2: string, p1: string, p2: string, cache: map<string, string>)
    requires LastPiece(d1).Some? && LastPiece(d1) == LastPiece(d2)
    ensures var c1 := OperationId(m, d1, p1, cache).value.1;
            OperationId(m, d2, p2, c1).value.0 == CandidateId(m, ReplaceChar(p2, '/', '_'))
  {
  }
}

=== FILE: html_stitch.dfy ===
/** `HtmlParser.parseTable` and `getPreHeadingText`: the first table of a section gives
    the top-level fields; each later table in the section (below a sub-heading) holds the
    fields of a class named by the text before it, and is attached to every registered
    field whose type mentions that class or whose name is that class.

    A document is the sequence of top-level nodes; a raw HTML block carries the rows of
    the table it contains (none when it holds no table). */
module HtmlStitch {

  import opened Base
  import opened Text
  import OM = OrderedMap
  import opened DocFields
  import opened HtmlTable

  datatype Node =
    | Heading(level: nat, text: string)
    | Paragraph(text: string)
    | Block(rows: seq<Row>)

  type Doc = seq<Node>

  /** The text of the first `Text` node inside a node; raw HTML blocks have none. */
  function FirstText(n: Node): Option<string> {
    match n
    case Heading(_, t) => Some(t)
    case Paragraph(t) => Some(t)
    case Block(_) => None
  }

  /** The first space-separated piece of a text. */
  function FirstPiece(t: string): (r: string)
    ensures r <= t && ' ' !in r
    ensures r == t || t[|r|] == ' '
  {
    if t == [] || t[0] == ' ' then [] else [t[0]] + FirstPiece(t[1..])
  }

  predicate IsClassChar(c: char) {
    c == '_' || IsAsciiAlpha(c)
  }

  /** The letters and underscores of a text, in order. */
  function KeepClassChars(t: string): (r: string)
    ensures forall k :: 0 <= k < |r| ==> IsClassChar(r[k])
    ensures forall c :: c in t && IsClassChar(c) ==> c in r
    ensures |r| <= |t|
    ensures r == t <==> forall k :: 0 <= k < |t| ==> IsClassChar(t[k])
  {
    if t == [] then []
    else (if IsClassChar(t[0]) then [t[0]] else []) + KeepClassChars(t[1..])
  }

  /** Filtering a text is filtering its parts: the kept characters stay in order. */
  lemma {:induction false} KeepClassCharsAppend(a: string, b: string)
    ensures KeepClassChars(a + b) == KeepClassChars(a) + KeepClassChars(b)
    decreases |a|
  {
    if a != [] {
      var head := if IsClassChar(a[0]) then [a[0]] else [];
      assert (a + b)[0] == a[0] && (a + b)[1..] == a[1..] + b;
      KeepClassCharsAppend(a[1..], b);
      calc {
        KeepClassChars(a + b);
        head + KeepClassChars(a[1..] + b);
        head + (KeepClassChars(a[1..]) + KeepClassChars(b));
        (head + KeepClassChars(a[1..])) + KeepClassChars(b);
      }
    } else {
      assert a + b == b;
    }
  }

  /** A single character is kept exactly when it is a letter or '_'. */
  lemma KeepClassCharsOne(c: char)
    ensures IsClassChar(c) <==> KeepClassChars([c]) == [c]
  {
    assert [c][1..] == [];
  }

  /** The class name a node offers: the letters and underscores of its first word. */
  function ClassWord(n: Node): Option<string> {
    match FirstText(n)
    case None => None
    case Some(t) => Some(KeepClassChars(FirstPiece(t)))
  }

  lemma ClassCharsAreNotBlank(w: string)
    requires w != [] && forall k :: 0 <= k < |w| ==> IsClassChar(w[k])
    ensures !IsBlank(w)
  {
    assert !IsWhitespace(w[0]);
  }

  /** A heading that ends the section of a table at level `level`. */
  predicate IsStop(n: Node, level: nat) {
    n.Heading? && n.level <= level
  }

  /* ---------- the class registry ---------- */

  /** The key of the registry: "name:type". */
  function KeyOf(a: Arena, id: FieldId): string
    requires id < |a.fields|
  {
    a.fields[id].name + ":" + TypeOf(a.fields[id])
  }

  /** The arena and the insertion-ordered registry of object-like fields. */
  datatype Stitch = Stitch(arena: Arena, reg: seq<OM.Entry<string, FieldId>>)

  ghost predicate Good(s: Stitch) {
    && Valid(s.arena)
    && forall e :: e in s.reg ==> e.value < |s.arena.fields|
  }

  /** `objectTypeDocFieldMap.put(it, it)`. */
  function Register(s: Stitch, id: FieldId): (r: Stitch)
    requires Good(s) && id < |s.arena.fields|
    ensures Good(r) && r.arena == s.arena
    ensures OM.Get(r.reg, KeyOf(s.arena, id)) == Some(id)
    ensures forall k :: k != KeyOf(s.arena, id) ==> OM.Get(r.reg, k) == OM.Get(s.reg, k)
  {
    OM.PutEntries(s.reg, KeyOf(s.arena, id), id);
    OM.PutOthers(s.reg, KeyOf(s.arena, id), id);
    s.(reg := OM.Put(s.reg, KeyOf(s.arena, id), id))
  }

  /** Registers each of `ids` that is array- or object-typed; `onlyNew` keeps an existing
      entry under the same key. */
  function RegisterAll(s: Stitch, ids: seq<FieldId>, onlyNew: bool): (r: Stitch)
    requires Good(s) && forall k :: 0 <= k < |ids| ==> ids[k] < |s.arena.fields|
    ensures Good(r) && r.arena == s.arena
    decreases |ids|
  {
    if ids == [] then s
    else
      var id := ids[0];
      var s' := if IsArrayOrObject(s.arena.fields[id]) && !(onlyNew && OM.Get(s.reg, KeyOf(s.arena, id)).Some?)
                then Register(s, id) else s;
      RegisterAll(s', ids[1..], onlyNew)
  }

  /* ---------- the class-name matcher ---------- */

  datatype MatchHow = ByName | ByType | ByDesc

  /** Why a registered field accepts a candidate class name, tried in source order. */
  function MatchOf(f: Field, clz: string): Option<MatchHow> {
    if StartsWithIgnoreCase(f.name, clz) then Some(ByName)
    else if Contains(TypeOf(f), clz) then Some(ByType)
    else if f.desc.Some? && Contains(f.desc.value, clz) then Some(ByDesc)
    else None
  }

  /** The first registry position whose field accepts `clz`. */
  function FirstAccepting(a: Arena, reg: seq<OM.Entry<string, FieldId>>, clz: string): (r: Option<nat>)
    requires forall e :: e in reg ==> e.value < |a.fields|
    ensures r.Some? ==> r.value < |reg| && MatchOf(a.fields[reg[r.value].value], clz).Some?
    ensures r.Some? ==> forall j :: 0 <= j < r.value ==> MatchOf(a.fields[reg[j].value], clz).None?
    ensures r.None? ==> forall j :: 0 <= j < |reg| ==> MatchOf(a.fields[reg[j].value], clz).None?
  {
    if reg == [] then None
    else if MatchOf(a.fields[reg[0].value], clz).Some? then Some(0)
    else
      match FirstAccepting(a, reg[1..], clz)
      case None => None
      case Some(j) => Some(j + 1)
  }

  /** The matcher handed to `getPreHeadingText`: accepts `clz` when some registered field
      starts with it, has it in its type, or mentions it in its description; in the last
      case a child named `clz` of type "object" is created under that field and
      registered. */
  function Matcher(s: Stitch, clz: string): (r: (bool, Stitch))
    requires Good(s)
    ensures Good(r.1)
    ensures r.0 <==> exists k :: 0 <= k < |s.reg| && MatchOf(s.arena.fields[s.reg[k].value], clz).Some?
    ensures !r.0 ==> r.1 == s
    ensures |r.1.arena.fields| >= |s.arena.fields| && r.1.arena.fields[..|s.arena.fields|] == s.arena.fields
  {
    match FirstAccepting(s.arena, s.reg, clz)
    case None => (false, s)
    case Some(k) =>
      var owner := s.reg[k].value;
      if MatchOf(s.arena.fields[owner], clz) != Some(ByDesc) then (true, s)
      else
        var (a1, child) := Alloc(s.arena, NewField(0).(name := clz, typ := Some("object")));
        assert a1.fields[..|s.arena.fields|] == s.arena.fields;
        var a2 := AppendToList(a1, a1.fields[owner].children, child);
        (true, Register(Stitch(a2, s.reg), child))
  }

  /** A description match leaves a new "object" child named after the class under the
      first accepting field, registered under "clz:object". */
  lemma MatcherCreatesChild(s: Stitch, clz: string, k: nat)
    requires Good(s)
    requires FirstAccepting(s.arena, s.reg, clz) == Some(k)
    requires MatchOf(s.arena.fields[s.reg[k].value], clz) == Some(ByDesc)
    ensures var r := Matcher(s, clz).1;
            var child := |s.arena.fields|;
            && |r.arena.fields| == child + 1
            && r.arena.fields[child].name == clz && TypeOf(r.arena.fields[child]) == "object"
            && child in ChildrenOf(r.arena, s.reg[k].value)
            && OM.Get(r.reg, clz + ":object") == Some(child)
  {
    var owner := s.reg[k].value;
    var f := NewField(0).(name := clz, typ := Some("object"));
    var (a1, child) := Alloc(s.arena, f);
    assert a1.fields[owner] == s.arena.fields[owner];
    var a2 := AppendToList(a1, a1.fields[owner].children, child);
    var r := Register(Stitch(a2, s.reg), child);
    assert Matcher(s, clz).1 == r;
    assert a2.fields[child] == f.(children := |s.arena.lists|);
    assert TypeOf(a2.fields[child]) == "object";
    assert KeyOf(a2, child) == clz + ":" + "object";
    ObjectKey(clz);
    assert child in a2.lists[a2.fields[owner].children];
  }

  lemma ObjectKey(clz: string)
    ensures clz + ":" + "object" == clz + ":object"
  {
  }

  /** `getPreHeadingText(node)`: from node `j` backwards, the first class word that is not
      blank and that the matcher accepts; nothing once the start is passed. */
  function PreHeading(doc: Doc, j: int, s: Stitch): (r: (Option<string>, Stitch))
    requires Good(s) && j < |doc|
    decreases j + 1
    ensures Good(r.1)
    ensures r.0.None? ==> r.1 == s
    ensures r.0.Some? ==> !IsBlank(r.0.value) && forall k :: 0 <= k < |r.0.value| ==> IsClassChar(r.0.value[k])
    ensures r.0.Some? ==> exists k :: NearestOffer(doc, j, s, k) && ClassWord(doc[k]) == r.0
    ensures |r.1.arena.fields| >= |s.arena.fields| && r.1.arena.fields[..|s.arena.fields|] == s.arena.fields
  {
    if j < 0 then (None, s)
    else
      var w := ClassWord(doc[j]);
      if w.Some? && !IsBlank(w.value) then
        var (ok, s') := Matcher(s, w.value);
        if ok then
          assert OfferFlags(doc, s)[j];
          assert NearestOffer(doc, j, s, j);
          (w, s')
        else
          var r := PreHeading(doc, j - 1, s);
          NearestSkips(doc, j, s, r.0);
          r
      else
        var r := PreHeading(doc, j - 1, s);
        NearestSkips(doc, j, s, r.0);
        r
  }

  /** Node `k`, at or before `j`, offers an accepted class name and no later node up to
      `j` does. */
  ghost predicate NearestOffer(doc: Doc, j: int, s: Stitch, k: int)
    requires Good(s) && j < |doc|
  {
    LastSetUpTo(OfferFlags(doc, s), j, k)
  }

  /** Which nodes offer an accepted class name. */
  ghost function OfferFlags(doc: Doc, s: Stitch): (r: seq<bool>)
    requires Good(s)
    ensures |r| == |doc| && forall k :: 0 <= k < |doc| ==> r[k] == Offers(doc[k], s)
  {
    seq(|doc|, k requires 0 <= k < |doc| => Offers(doc[k], s))
  }

  /** Flag `k`, at or before `j`, is the last one set up to `j`. */
  ghost predicate LastSetUpTo(flags: seq<bool>, j: int, k: int)
    requires j < |flags|
  {
    0 <= k <= j && flags[k] && forall k' :: k < k' <= j ==> !flags[k']
  }

  lemma LastSetSkips(flags: seq<bool>, j: int, k: int)
    requires 0 <= j < |flags| && !flags[j] && LastSetUpTo(flags, j - 1, k)
    ensures LastSetUpTo(flags, j, k)
  {
  }

  /** A node that offers nothing does not change which node is nearest. */
  lemma NearestSkips(doc: Doc, j: int, s: Stitch, w: Option<string>)
    requires Good(s) && 0 <= j < |doc| && !Offers(doc[j], s)
    requires w.Some? ==> exists k :: NearestOffer(doc, j - 1, s, k) && ClassWord(doc[k]) == w
    ensures w.Some? ==> exists k :: NearestOffer(doc, j, s, k) && ClassWord(doc[k]) == w
  {
    if w.Some? {
      var k :| NearestOffer(doc, j - 1, s, k) && ClassWord(doc[k]) == w;
      LastSetSkips(OfferFlags(doc, s), j, k);
      assert NearestOffer(doc, j, s, k);
    }
  }

  /** Some registered field accepts `clz`. */
  predicate Accepts(s: Stitch, clz: string)
    requires Good(s)
  {
    exists k :: 0 <= k < |s.reg| && MatchOf(s.arena.fields[s.reg[k].value], clz).Some?
  }

  /** A node offers a class name the registry accepts. */
  predicate Offers(n: Node, s: Stitch)
    requires Good(s)
  {
    ClassWord(n).Some? && !IsBlank(ClassWord(n).value) && Accepts(s, ClassWord(n).value)
  }

  /** No class name is found exactly when no node up to `j` offers an accepted one. */
  lemma {:induction false} PreHeadingFindsNone(doc: Doc, j: int, s: Stitch)
    requires Good(s) && j < |doc|
    ensures PreHeading(doc, j, s).0.None? <==> forall k :: 0 <= k <= j ==> !Offers(doc[k], s)
    decreases j + 1
  {
    if j < 0 {
      assert PreHeading(doc, j, s).0.None?;
    } else {
      PreHeadingFindsNone(doc, j - 1, s);
      var w := ClassWord(doc[j]);
      var offered := Offers(doc[j], s);
      var before := PreHeading(doc, j - 1, s).0.None?;
      if w.Some? && !IsBlank(w.value) {
        var m := Matcher(s, w.value);
        assert m.0 == offered;
        if m.0 {
          assert PreHeading(doc, j, s).0 == w;
        } else {
          assert PreHeading(doc, j, s) == PreHeading(doc, j - 1, s);
        }
      } else {
        assert !offered;
        assert PreHeading(doc, j, s) == PreHeading(doc, j - 1, s);
      }
      assert PreHeading(doc, j, s).0.None? == (before && !offered);
      NoneUpTo(doc, j, s);
    }
  }

  /** Splitting the last node off the nodes that offer nothing. */
  lemma NoneUpTo(doc: Doc, j: nat, s: Stitch)
    requires Good(s) && j < |doc|
    ensures (forall k :: 0 <= k <= j ==> !Offers(doc[k], s))
            <==> (forall k :: 0 <= k <= j - 1 ==> !Offers(doc[k], s)) && !Offers(doc[j], s)
  {
  }

  /** Without any registered field nothing is accepted, so no class name is found. */
  lemma EmptyRegistryFindsNothing(doc: Doc, j: int, a: Arena)
    requires Valid(a) && j < |doc|
    ensures PreHeading(doc, j, Stitch(a, [])).0.None?
    decreases j + 1
  {
    if j >= 0 {
      EmptyRegistryFindsNothing(doc, j - 1, a);
    }
  }

  /* ---------- attaching a class table ---------- */

  /** `List.equals` on fields: same length and pairwise `DocField.equals`. */
  predicate ListEq(a: Arena, xs: seq<FieldId>, ys: seq<FieldId>)
    requires forall k :: 0 <= k < |xs| ==> xs[k] < |a.fields|
    requires forall k :: 0 <= k < |ys| ==> ys[k] < |a.fields|
  {
    |xs| == |ys| && forall k :: 0 <= k < |xs| ==> FieldEq(a.fields[xs[k]], a.fields[ys[k]])
  }

  /** A registered field takes a class table when its type mentions the class or its
      name is the class. */
  predicate TakesClass(f: Field, clz: string) {
    Contains(TypeOf(f), clz) || f.name == clz
  }

  /** One field receiving the class table `l`: as its children when it has none, as an
      alternate child set when its children differ. */
  function AttachOne(a: Arena, id: FieldId, l: ListId): (r: Arena)
    requires Valid(a) && id < |a.fields| && l < |a.lists|
    ensures Valid(r) && |r.fields| == |a.fields| && r.lists == a.lists
    ensures forall j :: 0 <= j < |a.fields| && j != id ==> r.fields[j] == a.fields[j]
    ensures ChildrenOf(a, id) == [] ==> r == SetChildren(a, id, l)
    ensures ChildrenOf(a, id) != [] && !ListEq(a, ChildrenOf(a, id), a.lists[l]) ==> r == AddAlternate(a, id, l)
    ensures ChildrenOf(a, id) != [] && ListEq(a, ChildrenOf(a, id), a.lists[l]) ==> r == a
  {
    if ChildrenOf(a, id) == [] then SetChildren(a, id, l)
    else if !ListEq(a, ChildrenOf(a, id), a.lists[l]) then AddAlternate(a, id, l)
    else a
  }

  /** Every registered field (in registry order) that takes the class gets the table. */
  function AttachAll(a: Arena, vals: seq<FieldId>, clz: string, l: ListId): (r: Arena)
    requires Valid(a) && l < |a.lists| && forall k :: 0 <= k < |vals| ==> vals[k] < |a.fields|
    ensures Valid(r) && |r.fields| == |a.fields| && r.lists == a.lists
    ensures forall j :: 0 <= j < |a.fields| && j !in vals ==> r.fields[j] == a.fields[j]
    decreases |vals|
  {
    if vals == [] then a
    else
      var a' := if TakesClass(a.fields[vals[0]], clz) then AttachOne(a, vals[0], l) else a;
      AttachAll(a', vals[1..], clz, l)
  }

  /** A field that does not take the class is left exactly as it was. */
  lemma {:induction false} AttachAllSkips(a: Arena, vals: seq<FieldId>, clz: string, l: ListId, j: FieldId)
    requires Valid(a) && l < |a.lists| && forall k :: 0 <= k < |vals| ==> vals[k] < |a.fields|
    requires j < |a.fields| && !TakesClass(a.fields[j], clz)
    ensures AttachAll(a, vals, clz, l).fields[j] == a.fields[j]
    decreases |vals|
  {
    if vals != [] {
      var a' := if TakesClass(a.fields[vals[0]], clz) then AttachOne(a, vals[0], l) else a;
      assert a'.fields[j] == a.fields[j];
      assert |a'.fields| == |a.fields|;
      AttachAllSkips(a', vals[1..], clz, l, j);
      assert AttachAll(a, vals, clz, l) == AttachAll(a', vals[1..], clz, l);
    }
  }

  /** Children and alternates do not enter the type token. */
  lemma SameTokenFields(f: Field, g: Field, clz: string)
    requires f.name == g.name && f.typ == g.typ && f.defV == g.defV && f.example == g.example
    ensures TypeOf(f) == TypeOf(g) && (TakesClass(f, clz) <==> TakesClass(g, clz))
  {
  }

  /** A field with no children, or with this table already, ends with the table. */
  lemma AttachOneGivesTable(a: Arena, v: FieldId, l: ListId)
    requires Valid(a) && v < |a.fields| && l < |a.lists|
    requires ChildrenOf(a, v) == [] || a.fields[v].children == l
    ensures AttachOne(a, v, l).fields[v].children == l
    ensures AttachOne(a, v, l).fields[v] == a.fields[v].(children := AttachOne(a, v, l).fields[v].children)
  {
    if ChildrenOf(a, v) != [] {
      assert ListEq(a, ChildrenOf(a, v), a.lists[l]) by {
        forall k | 0 <= k < |ChildrenOf(a, v)|
          ensures FieldEq(a.fields[ChildrenOf(a, v)[k]], a.fields[a.lists[l][k]])
        {
        }
      }
    }
  }

  /** A registered field that takes the class and had no children (or already had this
      table) ends with the table as its children. */
  lemma {:induction false} AttachAllGivesTable(a: Arena, vals: seq<FieldId>, clz: string, l: ListId, v: FieldId)
    requires Valid(a) && l < |a.lists| && forall k :: 0 <= k < |vals| ==> vals[k] < |a.fields|
    requires v in vals && TakesClass(a.fields[v], clz)
    requires ChildrenOf(a, v) == [] || a.fields[v].children == l
    ensures AttachAll(a, vals, clz, l).fields[v].children == l
    decreases |vals|
  {
    var a' := if TakesClass(a.fields[vals[0]], clz) then AttachOne(a, vals[0], l) else a;
    assert |a'.fields| == |a.fields| && a'.lists == a.lists;
    assert AttachAll(a, vals, clz, l) == AttachAll(a', vals[1..], clz, l);
    if vals[0] == v {
      AttachOneGivesTable(a, v, l);
      if v in vals[1..] {
        SameTokenFields(a'.fields[v], a.fields[v], clz);
        AttachAllGivesTable(a', vals[1..], clz, l, v);
      }
    } else {
      assert a'.fields[v] == a.fields[v];
      AttachAllGivesTable(a', vals[1..], clz, l, v);
    }
  }

  /** Each table field whose key is registered shares the children of the registered
      field. */
  function Reshare(s: Stitch, ids: seq<FieldId>): (r: Arena)
    requires Good(s) && forall k :: 0 <= k < |ids| ==> ids[k] < |s.arena.fields|
    ensures Valid(r) && |r.fields| == |s.arena.fields| && r.lists == s.arena.lists
    decreases |ids|
  {
    if ids == [] then s.arena
    else
      var id := ids[0];
      var a' := match OM.Get(s.reg, KeyOf(s.arena, id))
                case None => s.arena
                case Some(o) =>
                  assert o in OM.Values(s.reg);
                  SetChildren(s.arena, id, s.arena.fields[o].children);
      Reshare(Stitch(a', s.reg), ids[1..])
  }

  /* ---------- the section scan ---------- */

  /** Rows of a node that is a table; other nodes parse to no rows. */
  function RowsOf(n: Node): seq<Row> {
    match n case Block(rows) => rows case _ => []
  }

  /** One class table at node `i`: parsed, registered, named by the text before it,
      attached, and its fields made to share registered children. */
  function ProcessBlock(doc: Doc, i: nat, s: Stitch): (r: Result<Stitch>)
    requires Good(s) && i < |doc|
    ensures r.Ok? ==> Good(r.value)
    ensures RowsOf(doc[i]) == [] ==> r == Ok(s)
  {
    var (a1, ids) :- TableToDocFields(s.arena, RowsOf(doc[i]));
    if ids == [] then Ok(Stitch(a1, s.reg))
    else
      var s1 := Stitch(a1, s.reg);
      var s2 := RegisterAll(s1, ids, true);
      var (clz, s3) := PreHeading(doc, i - 1, s2);
      if clz.None? then Err(NoClassName(i))
      else
        var (a4, l) := NewList(s3.arena, ids);
        var a5 := AttachAll(a4, OM.Values(s3.reg), clz.value, l);
        var s5 := Stitch(a5, s3.reg);
        Ok(Stitch(Reshare(s5, ids), s3.reg))
  }

  /** A class table whose fields no text before it names is rejected, as the source's
      `IllegalArgumentException`. */
  lemma UnnamedTableFails(doc: Doc, i: nat, s: Stitch)
    requires Good(s) && i < |doc|
    requires TableToDocFields(s.arena, RowsOf(doc[i])).Ok?
    requires TableToDocFields(s.arena, RowsOf(doc[i])).value.1 != []
    requires var (a1, ids) := TableToDocFields(s.arena, RowsOf(doc[i])).value;
             forall k :: 0 <= k < i ==> !Offers(doc[k], RegisterAll(Stitch(a1, s.reg), ids, true))
    ensures ProcessBlock(doc, i, s) == Err(NoClassName(i))
  {
    var (a1, ids) := TableToDocFields(s.arena, RowsOf(doc[i])).value;
    var s2 := RegisterAll(Stitch(a1, s.reg), ids, true);
    PreHeadingFindsNone(doc, i - 1, s2);
    assert PreHeading(doc, i - 1, s2).0.None?;
  }

  /** Index of the first stop heading at or after `i`, or |doc| when there is none. */
  function NextStop(doc: Doc, level: nat, i: nat): (r: nat)
    requires i <= |doc|
    decreases |doc| - i
    ensures i <= r <= |doc| && (r < |doc| ==> IsStop(doc[r], level))
    ensures forall k :: i <= k < r ==> !IsStop(doc[k], level)
  {
    if i == |doc| then i else if IsStop(doc[i], level) then i else NextStop(doc, level, i + 1)
  }

  /** Index of the first heading at or after `i`, or |doc|. */
  function NextHeading(doc: Doc, i: nat): (r: nat)
    requires i <= |doc|
    decreases |doc| - i
    ensures i <= r <= |doc| && (r < |doc| ==> doc[r].Heading?)
    ensures forall k :: i <= k < r ==> !doc[k].Heading?
  {
    if i == |doc| then i else if doc[i].Heading? then i else NextHeading(doc, i + 1)
  }

  /** Index of the last heading before `i`. */
  function PrevHeading(doc: Doc, i: nat): (r: Option<nat>)
    requires i <= |doc|
    ensures r.Some? ==> r.value < i && doc[r.value].Heading?
    ensures r.Some? ==> forall k :: r.value < k < i ==> !doc[k].Heading?
    ensures r.None? ==> forall k :: 0 <= k < i ==> !doc[k].Heading?
  {
    if i == 0 then None else if doc[i - 1].Heading? then Some(i - 1) else PrevHeading(doc, i - 1)
  }

  /** The nodes `i..stop`: headings are passed over, every other node is processed. */
  function ScanNodes(doc: Doc, i: nat, stop: nat, s: Stitch): (r: Result<Stitch>)
    requires Good(s) && i <= stop <= |doc|
    decreases stop - i
    ensures r.Ok? ==> Good(r.value)
  {
    if i == stop then Ok(s)
    else if doc[i].Heading? then ScanNodes(doc, i + 1, stop, s)
    else
      var s' :- ProcessBlock(doc, i, s);
      ScanNodes(doc, i + 1, stop, s')
  }

  /** Nodes without a table change nothing. */
  lemma {:induction false} ScanWithoutTables(doc: Doc, i: nat, stop: nat, s: Stitch)
    requires Good(s) && i <= stop <= |doc|
    requires forall k :: i <= k < stop ==> RowsOf(doc[k]) == []
    ensures ScanNodes(doc, i, stop, s) == Ok(s)
    decreases stop - i
  {
    if i < stop {
      ScanWithoutTables(doc, i + 1, stop, s);
    }
  }

  /* ---------- the outer loop, as written and as intended ---------- */

  /** Where the source's outer loop moves `next` (a node index; None is null) in one
      round starting from the sub-heading at `n`: its inner loop only advances `next`
      after handling the node that follows `n`, so when that node is missing or is a
      stop heading, `next` stays at `n`. */
  function OuterStepAsWritten(doc: Doc, level: nat, n: nat): (r: Option<nat>)
    requires n < |doc|
    ensures r == Some(n) <==> n + 1 >= |doc| || IsStop(doc[n + 1], level)
    ensures r.Some? ==> n <= r.value < |doc|
    ensures r.Some? && r.value != n ==> IsStop(doc[r.value], level) && forall k :: n + 1 < k < r.value ==> !IsStop(doc[k], level)
    ensures r.None? ==> forall k :: n < k < |doc| ==> !IsStop(doc[k], level)
  {
    if n + 1 >= |doc| || IsStop(doc[n + 1], level) then Some(n)
    else
      var e := NextStop(doc, level, n + 2);
      if e == |doc| then None else Some(e)
  }

  /** The loop stays at the same non-stop node forever: the state repeats. */
  predicate Stuck(doc: Doc, level: nat, n: nat)
    requires n < |doc|
  {
    !IsStop(doc[n], level) && OuterStepAsWritten(doc, level, n) == Some(n)
  }

  /** A section whose only sub-heading is the last node never finishes. */
  lemma TrailingSubHeadingLoops()
    ensures var doc := [Heading(2, "Response"), Block([]), Heading(3, "Data")];
            PrevHeading(doc, 1) == Some(0) && NextHeading(doc, 2) == 2 && Stuck(doc, 2, 2)
  {
  }

  /** A sub-heading followed directly by the next section's heading never finishes. */
  lemma SubHeadingBeforeNextSectionLoops()
    ensures var doc := [Heading(2, "Response"), Block([]), Heading(3, "Data"), Heading(2, "Errors")];
            NextHeading(doc, 2) == 2 && Stuck(doc, 2, 2)
  {
  }

  /** The intended round: from the sub-heading at `n`, straight to the next stop. */
  function OuterStep(doc: Doc, level: nat, n: nat): (r: Option<nat>)
    requires n < |doc|
    ensures r.Some? ==> n < r.value < |doc| && IsStop(doc[r.value], level)
    ensures r.None? ==> forall k :: n < k < |doc| ==> !IsStop(doc[k], level)
  {
    var e := NextStop(doc, level, n + 1);
    if e == |doc| then None else Some(e)
  }

  /** Whenever the source's loop does advance, it advances exactly as intended. */
  lemma OuterStepAgrees(doc: Doc, level: nat, n: nat)
    requires n < |doc| && !IsStop(doc[n], level)
    requires !Stuck(doc, level, n)
    ensures OuterStepAsWritten(doc, level, n) == OuterStep(doc, level, n)
  {
    if n + 1 < |doc| && !IsStop(doc[n + 1], level) {
      assert NextStop(doc, level, n + 1) == NextStop(doc, level, n + 2);
    }
  }

  /** `parseTable(topHtmlBlock)` with the intended loop (`OuterStep`): the block's table
      gives the top-level fields, then the nodes after the first following heading, up to
      the next heading of the section's level or above, contribute class tables. */
  function ParseTable(a: Arena, doc: Doc, t: nat): (r: Result<(Arena, seq<FieldId>)>)
    requires Valid(a) && t < |doc|
    ensures PrevHeading(doc, t).None? ==> r == Err(NoPrecedingHeading)
    ensures r.Ok? ==> Valid(r.value.0)
    ensures r.Ok? ==> TableToDocFields(a, RowsOf(doc[t])).Ok?
                      && r.value.1 == TableToDocFields(a, RowsOf(doc[t])).value.1
  {
    match PrevHeading(doc, t)
    case None => Err(NoPrecedingHeading)
    case Some(h) =>
      var level := doc[h].level;
      var (a1, res) :- TableToDocFields(a, RowsOf(doc[t]));
      var flat := FlatAll(a1, |a.fields|, res);
      var s0 := RegisterAll(Stitch(a1, []), res + flat, false);
      var n := NextHeading(doc, t + 1);
      if n == |doc| || IsStop(doc[n], level) then Ok((s0.arena, res))
      else
        // one round of the outer loop; it ends at a stop heading or at the end
        var stop := match OuterStep(doc, level, n) case Some(e) => e case None => |doc|;
        var s :- ScanNodes(doc, n + 1, stop, s0);
        Ok((s.arena, res))
  }

  /** The leaves below each of `ids`, concatenated. */
  function FlatAll(a: Arena, base: nat, ids: seq<FieldId>): (r: seq<FieldId>)
    requires ForwardFrom(a, base) && forall k :: 0 <= k < |ids| ==> base <= ids[k] < |a.fields|
    ensures forall k :: 0 <= k < |r| ==> r[k] < |a.fields|
  {
    if ids == [] then [] else FlatChildren(a, base, ids[0]) + FlatAll(a, base, ids[1..])
  }
}

=== FILE: html_table.dfy ===
/** The table layer of `HtmlParser`: the header row's column ranges (`toRangeMetadata`),
    one row of cells decoded into a field, the rows stitched into a tree by level
    (`tableToDocFields`), two-column tables read as a map (`tableToMap`) and "key: value"
    lines read as fields (`parseHead`).

    A table is given as its rows of cells; each cell carries its text (as Jsoup's
    `text()` returns it, already trimmed) and its `colspan` attribute, if any. */
module HtmlTable {

  import opened Base
  import opened Text
  import OM = OrderedMap
  import opened DocFields

  datatype Cell = Cell(text: string, colspan: Option<string>)

  type Row = seq<Cell>

  /* ---------- colspans ---------- */

  /** `Integer.parseInt(cell.attr("colspan"))`; a missing attribute reads as "". */
  function ColspanOf(c: Cell): (r: Result<int>)
    ensures r.Ok? <==> c.colspan.Some? && ParseSigned(c.colspan.value, INT_MIN, INT_MAX).Some?
    ensures r.Ok? ==> r.value == ParseSigned(c.colspan.value, INT_MIN, INT_MAX).value
  {
    match c.colspan
    case None => Err(MissingColspan)
    case Some(v) =>
      match ParseSigned(v, INT_MIN, INT_MAX)
      case None => Err(MissingColspan)
      case Some(n) => Ok(n)
  }

  /** `calculateColspan`: the sum of the cells' colspans; every cell must carry one. */
  function ColspanSum(cs: seq<Cell>): (r: Result<int>)
    ensures r.Ok? <==> forall k :: 0 <= k < |cs| ==> ColspanOf(cs[k]).Ok?
  {
    if cs == [] then Ok(0)
    else
      var last := cs[|cs| - 1];
      assert forall k :: 0 <= k < |cs| - 1 ==> cs[..|cs| - 1][k] == cs[k];
      match ColspanSum(cs[..|cs| - 1])
      case Err(e) => Err(e)
      case Ok(s) =>
        match ColspanOf(last)
        case Err(e) => Err(e)
        case Ok(n) => Ok(s + n)
  }

  /** A header of cells with colspan "1" sums to its length. */
  lemma {:induction false} UnitColspans(cs: seq<Cell>)
    requires forall k :: 0 <= k < |cs| ==> cs[k].colspan == Some("1")
    ensures ColspanSum(cs) == Ok(|cs|)
  {
    if cs != [] {
      UnitColspans(cs[..|cs| - 1]);
      assert ParseSigned("1", INT_MIN, INT_MAX) == Some(1) by {
        assert StripSign("1") == "1";
        assert DigitsValue("1") == 1 by { assert "1"[..0] == []; }
      }
    }
  }

  /* ---------- ranges ---------- */

  /** The integers `lo <= x < hi`, unbounded above when `hi` is None.  Guava's
      `singleton(x)` is `[x, x + 1)`, `closedOpen(l, u)` is `[l, u)` and `atLeast(u)` is
      `[u, ∞)`. */
  datatype Span = Span(lo: int, hi: Option<int>)

  predicate InSpan(s: Span, x: int) {
    s.lo <= x && (s.hi.None? || x < s.hi.value)
  }

  predicate Overlap(s: Span, t: Span) {
    var lo := if s.lo < t.lo then t.lo else s.lo;
    (s.hi.None? || lo < s.hi.value) && (t.hi.None? || lo < t.hi.value)
  }

  lemma OverlapMeansSharedPoint(s: Span, t: Span)
    ensures Overlap(s, t) <==> exists x :: InSpan(s, x) && InSpan(t, x)
  {
    if Overlap(s, t) {
      var lo := if s.lo < t.lo then t.lo else s.lo;
      assert InSpan(s, lo) && InSpan(t, lo);
    }
  }

  datatype RangeEntry = RangeEntry(span: Span, column: string)

  predicate Disjoint(es: seq<RangeEntry>) {
    forall i, j :: 0 <= i < j < |es| ==> !Overlap(es[i].span, es[j].span)
  }

  /** `RangeMap.get(x)`. */
  function Lookup(es: seq<RangeEntry>, x: int): (r: Option<string>)
    ensures r.None? <==> forall k :: 0 <= k < |es| ==> !InSpan(es[k].span, x)
    ensures r.Some? ==> exists k :: 0 <= k < |es| && InSpan(es[k].span, x) && es[k].column == r.value
  {
    if es == [] then None
    else if InSpan(es[0].span, x) then Some(es[0].column)
    else
      assert forall k :: 1 <= k < |es| ==> es[k] == es[1..][k - 1];
      Lookup(es[1..], x)
  }

  /** In a map without overlaps the entry containing `x` is the answer. */
  lemma LookupDisjoint(es: seq<RangeEntry>, k: nat, x: int)
    requires Disjoint(es) && k < |es| && InSpan(es[k].span, x)
    ensures Lookup(es, x) == Some(es[k].column)
  {
    forall j | 0 <= j < |es| && j != k
      ensures !InSpan(es[j].span, x)
    {
      OverlapMeansSharedPoint(es[j].span, es[k].span);
      OverlapMeansSharedPoint(es[k].span, es[j].span);
    }
  }

  /** `Range.singleton` or `Range.closedOpen`; the latter throws when lower > upper. */
  function SpanOf(lower: int, upper: int): (r: Result<Span>)
    ensures r.Ok? <==> lower <= upper
    ensures r.Ok? ==> forall x :: InSpan(r.value, x) <==> lower <= x < (if lower == upper then upper + 1 else upper)
  {
    if lower == upper then Ok(Span(lower, Some(lower + 1)))
    else if lower < upper then Ok(Span(lower, Some(upper)))
    else Err(InvalidRange)
  }

  /** The bounds of the column that started at `start` and ends where cell `end` begins. */
  function Bounds(header: Row, start: nat, end: nat): Result<(int, int)>
    requires start <= end < |header|
  {
    var attr := header[end].colspan;
    if attr.Some? && !IsBlank(attr.value) then
      var lower :- ColspanSum(header[..start]);
      var width :- ColspanSum(header[start..end]);
      Ok((lower, lower + width))
    else Ok((start, end))
  }

  /** The loop of `toRangeMetadata` from cell `end` on, with the column that started at
      `start` still open. */
  function RangeLoop(header: Row, start: nat, column: string, end: nat, acc: seq<RangeEntry>): Result<seq<RangeEntry>>
    requires start < end <= |header|
    decreases |header| - end
  {
    if end == |header| then Ok(acc)
    else if header[end].text == [] then RangeLoop(header, start, column, end + 1, acc)
    else
      var (lower, upper) :- Bounds(header, start, end);
      var span :- SpanOf(lower, upper);
      var acc1 := acc + [RangeEntry(span, column)];
      var acc2 := if end == |header| - 1 then acc1 + [RangeEntry(Span(upper, None), header[end].text)] else acc1;
      RangeLoop(header, end, header[end].text, end + 1, acc2)
  }

  /** `toRangeMetadata`: an empty header row throws; overlapping ranges are rejected when
      the map is built. */
  function ToRangeMetadata(header: Row): (r: Result<seq<RangeEntry>>)
    ensures header == [] ==> r == Err(EmptyHeaderRow)
    ensures r.Ok? ==> Disjoint(r.value)
  {
    if header == [] then Err(EmptyHeaderRow)
    else
      var es :- RangeLoop(header, 0, header[0].text, 1, []);
      if Disjoint(es) then Ok(es) else Err(OverlappingRanges)
  }

  /** A header without colspans and without empty cells: column k covers index k, and the
      last one everything after it. */
  function PlainSpans(header: Row): (r: seq<RangeEntry>)
    requires |header| >= 2
  {
    seq(|header| - 1, k requires 0 <= k < |header| - 1 => RangeEntry(Span(k, Some(k + 1)), header[k].text))
      + [RangeEntry(Span(|header| - 1, None), header[|header| - 1].text)]
  }

  predicate PlainHeader(header: Row) {
    forall k :: 0 <= k < |header| ==> header[k].colspan.None? && header[k].text != []
  }

  lemma {:induction false} PlainRangeLoop(header: Row, end: nat)
    requires PlainHeader(header) && |header| >= 2 && 1 <= end < |header|
    ensures RangeLoop(header, end - 1, header[end - 1].text, end, PlainSpans(header)[..end - 1])
            == Ok(PlainSpans(header))
    decreases |header| - end
  {
    var n := |header|;
    var ps := PlainSpans(header);
    assert ps[..end - 1] + [RangeEntry(Span(end - 1, Some(end)), header[end - 1].text)] == ps[..end];
    if end == n - 1 {
      assert ps[..end] + [RangeEntry(Span(end, None), header[end].text)] == ps;
    } else {
      PlainRangeLoop(header, end + 1);
    }
  }

  /** With a plain header, the range map sends every index to the column above it, and
      everything past the last column to the last column. */
  lemma PlainHeaderColumns(header: Row, x: int)
    requires PlainHeader(header) && |header| >= 2 && 0 <= x
    ensures ToRangeMetadata(header).Ok?
    ensures Lookup(ToRangeMetadata(header).value, x)
            == Some(header[if x < |header| then x else |header| - 1].text)
  {
    var ps := PlainSpans(header);
    PlainRangeLoop(header, 1);
    assert ps[..0] == [];
    assert Disjoint(ps);
    var k := if x < |header| - 1 then x else |header| - 1;
    assert InSpan(ps[k].span, x);
    LookupDisjoint(ps, k, x);
  }

  /* ---------- one row ---------- */

  /** The non-empty header texts in order (`eachText()` skips cells without text): every
      non-empty text is a column, every column is a cell's text, and a header without
      empty cells gives exactly its texts. */
  function Columns(header: Row): (r: seq<string>)
    ensures forall k :: 0 <= k < |r| ==> r[k] != []
    ensures |r| <= |header|
    ensures forall k :: 0 <= k < |header| && header[k].text != [] ==> header[k].text in r
    ensures forall k :: 0 <= k < |r| ==> exists j :: 0 <= j < |header| && header[j].text == r[k]
    ensures (forall k :: 0 <= k < |header| ==> header[k].text != []) ==>
              |r| == |header| && forall k :: 0 <= k < |header| ==> r[k] == header[k].text
  {
    if header == [] then []
    else
      var rest := Columns(header[1..]);
      var hd := if header[0].text == [] then [] else [header[0].text];
      ColumnsStepIn(header, hd, rest);
      ColumnsStepFrom(header, hd, rest);
      if forall k :: 0 <= k < |header| ==> header[k].text != [] then
        assert forall k :: 0 <= k < |header[1..]| ==> header[1..][k] == header[k + 1];
        ColumnsStepPlain(header, hd, rest);
        hd + rest
      else hd + rest
  }

  /** Every non-empty text of the header is among its columns. */
  lemma ColumnsStepIn(header: Row, hd: seq<string>, rest: seq<string>)
    requires header != [] && hd == (if header[0].text == [] then [] else [header[0].text])
    requires forall k :: 0 <= k < |header[1..]| && header[1..][k].text != [] ==> header[1..][k].text in rest
    ensures forall k :: 0 <= k < |header| && header[k].text != [] ==> header[k].text in hd + rest
  {
    forall k | 0 <= k < |header| && header[k].text != [] ensures header[k].text in hd + rest {
      if k > 0 { assert header[k] == header[1..][k - 1]; }
    }
  }

  /** Every column is the text of some header cell. */
  lemma ColumnsStepFrom(header: Row, hd: seq<string>, rest: seq<string>)
    requires header != [] && hd == (if header[0].text == [] then [] else [header[0].text])
    requires forall k :: 0 <= k < |rest| ==> exists j :: 0 <= j < |header[1..]| && header[1..][j].text == rest[k]
    ensures forall k :: 0 <= k < |hd + rest| ==> exists j :: 0 <= j < |header| && header[j].text == (hd + rest)[k]
  {
    var r := hd + rest;
    var tl := header[1..];
    forall k | 0 <= k < |r| ensures exists j :: 0 <= j < |header| && header[j].text == r[k] {
      if k < |hd| {
        assert header[0].text == r[k];
      } else {
        assert r[k] == rest[k - |hd|];
        var j :| 0 <= j < |tl| && tl[j].text == rest[k - |hd|];
        assert header[j + 1] == tl[j];
      }
    }
  }

  /** A header without empty cells gives exactly its texts. */
  lemma ColumnsStepPlain(header: Row, hd: seq<string>, rest: seq<string>)
    requires header != [] && hd == (if header[0].text == [] then [] else [header[0].text])
    requires forall k :: 0 <= k < |header| ==> header[k].text != []
    requires |rest| == |header[1..]| && forall k :: 0 <= k < |header[1..]| ==> rest[k] == header[1..][k].text
    ensures |hd + rest| == |header| && forall k :: 0 <= k < |header| ==> (hd + rest)[k] == header[k].text
  {
    var r := hd + rest;
    forall k | 0 <= k < |header| ensures r[k] == header[k].text {
      if k > 0 { assert r[k] == rest[k - 1] && header[k] == header[1..][k - 1]; }
    }
  }

  /** Reading the header in two parts reads their columns one after the other, so the
      columns keep the order of the cells. */
  lemma {:induction false} ColumnsAppend(h1: Row, h2: Row)
    ensures Columns(h1 + h2) == Columns(h1) + Columns(h2)
    decreases |h1|
  {
    if h1 != [] {
      assert (h1 + h2)[1..] == h1[1..] + h2;
      ColumnsAppend(h1[1..], h2);
    } else {
      assert h1 + h2 == h2;
    }
  }

  /** The last non-blank entry, or "" when every entry is blank. */
  function LastNonBlank(xs: seq<string>): (r: string)
    ensures r == "" || (r in xs && !IsBlank(r))
    ensures r == "" <==> forall k :: 0 <= k < |xs| ==> IsBlank(xs[k])
    ensures r != "" ==> exists k :: 0 <= k < |xs| && xs[k] == r && forall j :: k < j < |xs| ==> IsBlank(xs[j])
  {
    if xs == [] then ""
    else if !IsBlank(xs[|xs| - 1]) then xs[|xs| - 1]
    else LastNonBlank(xs[..|xs| - 1])
  }

  /** The column of a value: the range map's, or failing that the header column just
      before it (`columns.get(0)` for the second cell); past the known columns it throws. */
  function ColumnFor(es: seq<RangeEntry>, columns: seq<string>, index: int, i: nat): (r: Result<string>)
    ensures Lookup(es, index).Some? && !IsBlank(Lookup(es, index).value) ==> r == Ok(Lookup(es, index).value)
    ensures r.Err? ==> i > |columns| || (i == 1 && columns == [])
    ensures Lookup(es, index).None? || IsBlank(Lookup(es, index).value) ==>
              && (i == 1 ==> r == (if columns == [] then Err(ColumnOutOfRange) else Ok(columns[0])))
              && (i != 1 && i <= |columns| ==> r == Ok(LastNonBlank(columns[..i])))
              && (i != 1 && i > |columns| ==> r == Err(ColumnOutOfRange))
  {
    var found := Lookup(es, index);
    if found.Some? && !IsBlank(found.value) then Ok(found.value)
    else
      if i == 1 then (if columns == [] then Err(ColumnOutOfRange) else Ok(columns[0]))
      else if i > |columns| then Err(ColumnOutOfRange)
      else Ok(LastNonBlank(columns[..i]))
  }

  /** The running colspan total after a cell. */
  function NextColspanSum(c: Cell, sum: int): (r: Result<int>)
    ensures c.colspan.None? ==> r == Ok(sum)
    ensures c.colspan.Some? ==> (r.Ok? <==> ParseSigned(c.colspan.value, INT_MIN, INT_MAX).Some?)
    ensures c.colspan.Some? && r.Ok? ==> r.value == sum + ParseSigned(c.colspan.value, INT_MIN, INT_MAX).value
  {
    if c.colspan.Some? then
      var n :- ColspanOf(c);
      Ok(sum + n)
    else Ok(sum)
  }

  /** Decodes cells `i..` of a row into the field; `nameIndex` is the cell that first gave
      the field a name. */
  function DecodeCells(es: seq<RangeEntry>, columns: seq<string>, row: Row, i: nat,
                       f: Field, nameIndex: nat, sum: int): (r: Result<(Field, nat)>)
    requires nameIndex <= i
    decreases |row| - i
    ensures r.Ok? ==> r.value.0.children == f.children && r.value.0.parent == f.parent
    ensures r.Ok? ==> r.value.0.alternates == f.alternates
    ensures r.Ok? && f.name != [] ==> r.value.1 == nameIndex
    ensures r.Ok? ==> r.value.1 < |row| || r.value.1 == nameIndex
  {
    if i >= |row| then Ok((f, nameIndex))
    else
      var c := row[i];
      var sum' :- NextColspanSum(c, sum);
      if IsBlank(c.text) then DecodeCells(es, columns, row, i + 1, f, nameIndex, sum')
      else
        var index := if c.colspan.Some? then sum' - 1 else i;
        var column :- ColumnFor(es, columns, index, i);
        match GetByColumnName(column)
        case None => DecodeCells(es, columns, row, i + 1, f, nameIndex, sum')
        case Some(s) =>
          var g := Apply(f, s, c.text);
          var ni := if f.name == [] && g.name != [] then i else nameIndex;
          DecodeCells(es, columns, row, i + 1, g, ni, sum')
  }

  /** Rows whose name is blank, "." or "-" carry no field. */
  predicate IsSkippedName(name: string) {
    IsBlank(name) || name == "." || name == "-"
  }

  /** A name led by '.' or '-' gives its level as the number of those characters in the
      whole name, and loses that many leading characters. */
  function Leveled(f: Field, nameIndex: nat): (r: (Field, nat))
    ensures r.0 == f.(name := r.0.name)
    ensures f.name == [] || (f.name[0] != '.' && f.name[0] != '-') ==> r == (f, nameIndex)
  {
    var name := f.name;
    if name != [] && (name[0] == '.' || name[0] == '-') then
      var n := CountChar(name, name[0]);
      (f.(name := Trim(name[n..])), n)
    else (f, nameIndex)
  }

  /** `n` copies of `c`. */
  function Repeat(c: char, n: nat): (r: string)
    ensures |r| == n && forall k :: 0 <= k < n ==> r[k] == c
  {
    if n == 0 then [] else [c] + Repeat(c, n - 1)
  }

  lemma {:induction false} CountCharPrefix(c: char, n: nat, w: string)
    requires c !in w
    ensures CountChar(Repeat(c, n) + w, c) == n
    decreases n
  {
    if n == 0 {
      assert Repeat(c, 0) + w == w;
      assert CountChar(w, c) == 0;
    } else {
      CountCharPrefix(c, n - 1, w);
      assert (Repeat(c, n) + w)[1..] == Repeat(c, n - 1) + w;
    }
  }

  /** A name written as n dots and a dot-free word sits at level n under that word. */
  lemma LeadingDotsGiveLevel(f: Field, n: nat, w: string, nameIndex: nat)
    requires n >= 1 && '.' !in w && f.name == Repeat('.', n) + w
    ensures Leveled(f, nameIndex) == (f.(name := Trim(w)), n)
  {
    CountCharPrefix('.', n, w);
    assert f.name[n..] == w;
  }

  /* ---------- the stitching ---------- */

  /** The greatest key below `k` (the reversed `TreeMap` scan). */
  function NearestBelow(m: map<nat, FieldId>, k: nat): (r: Option<nat>)
    ensures r.Some? ==> r.value in m && r.value < k
    ensures r.Some? ==> forall j :: r.value < j < k ==> j !in m
    ensures r.None? ==> forall j :: 0 <= j < k ==> j !in m
    decreases k
  {
    if k == 0 then None
    else if k - 1 in m then Some(k - 1)
    else NearestBelow(m, k - 1)
  }

  /** What the rows of one table have built so far: the arena, the open parents by level,
      and the top-level fields. */
  datatype TableState = TableState(arena: Arena, open: map<nat, FieldId>, roots: seq<FieldId>)

  /** The shape every prefix of the rows leaves behind: the earlier arena untouched, the
      new fields forming a forest whose parents precede their children and list them,
      open parents and roots among the new fields, roots without a parent. */
  ghost predicate Shaped(a0: Arena, st: TableState) {
    var a := st.arena;
    && Valid(a)
    && |a0.fields| <= |a.fields| && a.fields[..|a0.fields|] == a0.fields
    && |a0.lists| <= |a.lists| && a.lists[..|a0.lists|] == a0.lists
    && ForwardFrom(a, |a0.fields|)
    && (forall j :: |a0.fields| <= j < |a.fields| ==> a.fields[j].children >= |a0.lists|)
    && (forall j :: |a0.fields| <= j < |a.fields| && a.fields[j].parent.Some? ==>
          |a0.fields| <= a.fields[j].parent.value && j in ChildrenOf(a, a.fields[j].parent.value))
    && (forall l :: l in st.open ==> |a0.fields| <= st.open[l] < |a.fields|)
    && (forall k :: 0 <= k < |st.roots| ==>
          |a0.fields| <= st.roots[k] < |a.fields| && a.fields[st.roots[k]].parent.None?)
  }

  /** The open parent for a row at `level`: the one at the greatest lower level. */
  function ParentFor(open: map<nat, FieldId>, level: nat): Option<FieldId> {
    match NearestBelow(open, level) case None => None case Some(l) => Some(open[l])
  }

  /** Adds one decoded field at level `level`: under the nearest open parent of a lower
      level, and open itself when it can hold children. */
  function AddRow(ghost a0: Arena, st: TableState, f: Field, level: nat): (r: TableState)
    requires Shaped(a0, st)
    ensures |r.arena.fields| == |st.arena.fields| + 1
    ensures r.roots == (if level == 0 then st.roots + [|st.arena.fields|] else st.roots)
    ensures r.arena.fields[|st.arena.fields|] ==
              f.(parent := ParentFor(st.open, level), alternates := [], children := |st.arena.lists|)
  {
    var a := st.arena;
    var parent := ParentFor(st.open, level);
    var g := f.(parent := parent, alternates := []);
    var (a1, id) := Alloc(a, g);
    var a2 := if parent.Some? then AppendToList(a1, a1.fields[parent.value].children, id) else a1;
    var open := if IsObjectType(g) || IsArrayObject(g) then st.open[level := id] else st.open;
    TableState(a2, open, if level == 0 then st.roots + [id] else st.roots)
  }

  /** A nested row without an open parent below its level is neither returned nor listed
      as anybody's child. */
  lemma NestedOrphanDropped(a0: Arena, st: TableState, f: Field, level: nat)
    requires Shaped(a0, st) && level > 0 && ParentFor(st.open, level).None?
    ensures var r := AddRow(a0, st, f, level);
            && |st.arena.fields| !in r.roots
            && forall l :: 0 <= l < |r.arena.lists| ==> |st.arena.fields| !in r.arena.lists[l]
  {
    var r := AddRow(a0, st, f, level);
    var id := |st.arena.fields|;
    AddRowExtends(a0, st, f, level);
    forall k | 0 <= k < |st.roots| ensures st.roots[k] != id { }
    forall l | 0 <= l < |r.arena.lists| ensures id !in r.arena.lists[l] {
      if l < |st.arena.lists| {
        assert r.arena.lists[l] == st.arena.lists[l];
        forall k | 0 <= k < |st.arena.lists[l]| ensures st.arena.lists[l][k] < id { }
      }
    }
  }

  /** The new row is opened as a parent exactly when it is object-typed or an array of
      objects, and then at its own level; every other level keeps its parent. */
  lemma AddRowOpens(a0: Arena, st: TableState, f: Field, level: nat)
    requires Shaped(a0, st)
    ensures var r := AddRow(a0, st, f, level);
            var id := |st.arena.fields|;
            && (id in r.open.Values <==> IsObjectType(f) || IsArrayObject(f))
            && (IsObjectType(f) || IsArrayObject(f) ==> level in r.open && r.open[level] == id)
            && forall l :: l in st.open && l != level ==> l in r.open && r.open[l] == st.open[l]
  {
    var r := AddRow(a0, st, f, level);
    var id := |st.arena.fields|;
    var g := f.(parent := ParentFor(st.open, level), alternates := []);
    assert TypeOf(g) == TypeOf(f) && LastParamType(TypeOf(g)) == LastParamType(TypeOf(f));
    assert IsObjectType(g) == IsObjectType(f) && IsArrayObject(g) == IsArrayObject(f);
    if !(IsObjectType(f) || IsArrayObject(f)) {
      assert r.open == st.open;
      forall l | l in st.open ensures st.open[l] != id { }
    } else {
      assert r.open[level] == id;
    }
  }

  /** `a2` is `a` with field `id` appended under `parent`, whose list gained `id`. */
  ghost predicate Extends(a: Arena, a2: Arena, id: FieldId, parent: Option<FieldId>)
    requires Valid(a)
  {
    && id == |a.fields| && |a2.fields| == id + 1 && a2.fields[..id] == a.fields
    && a2.fields[id].children == |a.lists| && a2.fields[id].parent == parent
    && (parent.Some? ==> parent.value < id)
    && |a2.lists| == |a.lists| + 1 && a2.lists[|a.lists|] == []
    && (forall m :: 0 <= m < |a.lists| ==>
          a2.lists[m] == a.lists[m]
          || (parent.Some? && m == a.fields[parent.value].children && a2.lists[m] == a.lists[m] + [id]))
    && (parent.Some? ==> id in a2.lists[a.fields[parent.value].children])
  }

  lemma AddRowExtends(a0: Arena, st: TableState, f: Field, level: nat)
    requires Shaped(a0, st)
    ensures Valid(AddRow(a0, st, f, level).arena)
    ensures Extends(st.arena, AddRow(a0, st, f, level).arena, |st.arena.fields|, ParentFor(st.open, level))
  {
    var a := st.arena;
    var a1 := Alloc(a, f.(parent := ParentFor(st.open, level), alternates := [])).0;
    assert a1.fields[..|a.fields|] == a.fields;
  }

  /** Appending a field keeps the earlier arena a prefix and the new part forward. */
  lemma ExtendsKeepsPrefix(a0: Arena, a: Arena, a2: Arena, id: FieldId, parent: Option<FieldId>)
    requires Valid(a) && Valid(a2) && Extends(a, a2, id, parent)
    requires |a0.fields| <= |a.fields| && a.fields[..|a0.fields|] == a0.fields
    requires |a0.lists| <= |a.lists| && a.lists[..|a0.lists|] == a0.lists
    requires parent.Some? ==> a.fields[parent.value].children >= |a0.lists|
    ensures a2.fields[..|a0.fields|] == a0.fields
    ensures a2.lists[..|a0.lists|] == a0.lists
  {
    assert a2.fields[..|a0.fields|] == a2.fields[..id][..|a0.fields|];
    forall m | 0 <= m < |a0.lists| ensures a2.lists[m] == a0.lists[m] {
      assert a.lists[m] == a0.lists[m];
    }
  }

  lemma ExtendsKeepsForward(base: nat, a: Arena, a2: Arena, id: FieldId, parent: Option<FieldId>)
    requires Valid(a) && Valid(a2) && Extends(a, a2, id, parent) && ForwardFrom(a, base)
    ensures ForwardFrom(a2, base)
  {
    forall j, k | base <= j < |a2.fields| && 0 <= k < |a2.lists[a2.fields[j].children]|
      ensures j < a2.lists[a2.fields[j].children][k]
    {
      if j != id {
        assert a2.fields[j] == a2.fields[..id][j] == a.fields[j];
        var l := a.fields[j].children;
        if a2.lists[l] != a.lists[l] {
          assert a2.lists[l] == a.lists[l] + [id];
        }
      }
    }
  }

  lemma ExtendsKeepsParents(base: nat, a: Arena, a2: Arena, id: FieldId, parent: Option<FieldId>)
    requires Valid(a) && Valid(a2) && Extends(a, a2, id, parent)
    requires parent.Some? ==> base <= parent.value
    requires forall j :: base <= j < |a.fields| && a.fields[j].parent.Some? ==>
               base <= a.fields[j].parent.value && j in ChildrenOf(a, a.fields[j].parent.value)
    ensures forall j :: base <= j < |a2.fields| && a2.fields[j].parent.Some? ==>
               base <= a2.fields[j].parent.value && j in ChildrenOf(a2, a2.fields[j].parent.value)
  {
    forall j | base <= j < |a2.fields| && a2.fields[j].parent.Some?
      ensures base <= a2.fields[j].parent.value && j in ChildrenOf(a2, a2.fields[j].parent.value)
    {
      var p := a2.fields[j].parent.value;
      if j != id {
        assert a2.fields[j] == a2.fields[..id][j] == a.fields[j];
        assert a2.fields[p] == a2.fields[..id][p] == a.fields[p];
        var l := a.fields[p].children;
        assert j in a.lists[l];
        assert a.lists[l] <= a2.lists[l];
      } else {
        assert a2.fields[p] == a2.fields[..id][p] == a.fields[p];
      }
    }
  }

  lemma AddRowShaped(a0: Arena, st: TableState, f: Field, level: nat)
    requires Shaped(a0, st)
    ensures Shaped(a0, AddRow(a0, st, f, level))
  {
    var r := AddRow(a0, st, f, level);
    var id := |st.arena.fields|;
    AddRowExtends(a0, st, f, level);
    assert r.open == st.open || r.open == st.open[level := id];
    ExtendsShaped(a0, st, r, level, ParentFor(st.open, level));
  }

  /** A state whose arena extends a shaped one by one field, recorded as a root only
      when it has no parent and opened at most at one level, is shaped. */
  lemma ExtendsShaped(a0: Arena, st: TableState, r: TableState, level: nat, parent: Option<FieldId>)
    requires Shaped(a0, st)
    requires Valid(r.arena) && Extends(st.arena, r.arena, |st.arena.fields|, parent)
    requires parent.Some? ==> parent.value in st.open.Values
    requires r.roots == st.roots || (r.roots == st.roots + [|st.arena.fields|] && parent.None?)
    requires r.open == st.open || r.open == st.open[level := |st.arena.fields|]
    ensures Shaped(a0, r)
  {
    var a := st.arena;
    var id := |a.fields|;
    ExtendsKeepsPrefix(a0, a, r.arena, id, parent);
    ExtendsKeepsForward(|a0.fields|, a, r.arena, id, parent);
    ExtendsKeepsParents(|a0.fields|, a, r.arena, id, parent);
    ExtendsKeepsFresh(a0, a, r.arena, id, parent);
    RootsStay(a0, st, r, id);
    if r.open != st.open {
      OpenGrows(|a0.fields|, st.open, r.open, level, id);
    }
  }

  /** Opening the newest field at some level keeps every open field a fresh one. */
  lemma OpenGrows(base: nat, open: map<nat, FieldId>, open': map<nat, FieldId>, level: nat, id: FieldId)
    requires base <= id && forall l :: l in open ==> base <= open[l] < id
    requires open' == open[level := id]
    ensures forall l :: l in open' ==> base <= open'[l] < id + 1
  {
  }

  /** Fields appended after `a0` keep children lists created after `a0`. */
  lemma ExtendsKeepsFresh(a0: Arena, a: Arena, a2: Arena, id: FieldId, parent: Option<FieldId>)
    requires Valid(a) && Extends(a, a2, id, parent) && |a0.lists| <= |a.lists|
    requires forall j :: |a0.fields| <= j < |a.fields| ==> a.fields[j].children >= |a0.lists|
    ensures forall j :: |a0.fields| <= j < |a2.fields| ==> a2.fields[j].children >= |a0.lists|
  {
    forall j | |a0.fields| <= j < |a2.fields| ensures a2.fields[j].children >= |a0.lists| {
      if j != id { assert a2.fields[j] == a2.fields[..id][j] == a.fields[j]; }
    }
  }

  /** The roots recorded so far stay roots once a field is appended at `id`. */
  lemma RootsStay(a0: Arena, st: TableState, r: TableState, id: FieldId)
    requires id == |st.arena.fields| && |r.arena.fields| == id + 1 && r.arena.fields[..id] == st.arena.fields
    requires r.roots == st.roots || (r.roots == st.roots + [id] && r.arena.fields[id].parent.None?)
    requires |a0.fields| <= id
    requires forall k :: 0 <= k < |st.roots| ==>
               |a0.fields| <= st.roots[k] < |st.arena.fields| && st.arena.fields[st.roots[k]].parent.None?
    ensures forall k :: 0 <= k < |r.roots| ==>
              |a0.fields| <= r.roots[k] < |r.arena.fields| && r.arena.fields[r.roots[k]].parent.None?
  {
    forall k | 0 <= k < |r.roots|
      ensures |a0.fields| <= r.roots[k] < |r.arena.fields| && r.arena.fields[r.roots[k]].parent.None?
    {
      if r.roots[k] != id {
        assert r.roots[k] == st.roots[k];
        assert r.arena.fields[r.roots[k]] == r.arena.fields[..id][r.roots[k]];
      }
    }
  }

  /** What a data row contributes: nothing when its name is blank, "." or "-"; else the
      field with its leveled name, and its level. */
  function Decoded(es: seq<RangeEntry>, columns: seq<string>, row: Row): Result<Option<(Field, nat)>> {
    var (f, nameIndex) :- DecodeCells(es, columns, row, 0, NewField(0), 0, 0);
    if IsSkippedName(f.name) then Ok(None) else Ok(Some(Leveled(f, nameIndex)))
  }

  /** One data row: decoded, skipped when it has no usable name, else leveled and added
      as one new field, under the nearest open parent, and returned when at level 0. */
  function RowStep(ghost a0: Arena, es: seq<RangeEntry>, columns: seq<string>, st: TableState, row: Row)
    : (r: Result<TableState>)
    requires Shaped(a0, st)
    ensures r.Ok? ==> Shaped(a0, r.value)
    ensures var d := DecodeCells(es, columns, row, 0, NewField(0), 0, 0);
            && (r.Ok? <==> d.Ok?)
            && (d.Ok? && IsSkippedName(d.value.0.name) ==> r == Ok(st))
            && (d.Ok? && !IsSkippedName(d.value.0.name) ==>
                  var (g, level) := Leveled(d.value.0, d.value.1);
                  var id := |st.arena.fields|;
                  && |r.value.arena.fields| == id + 1
                  && r.value.arena.fields[..id] == st.arena.fields
                  && r.value.arena.fields[id].name == g.name
                  && r.value.arena.fields[id].parent == ParentFor(st.open, level)
                  && r.value.roots == (if level == 0 then st.roots + [id] else st.roots))
  {
    var (f, nameIndex) :- DecodeCells(es, columns, row, 0, NewField(0), 0, 0);
    if IsSkippedName(f.name) then Ok(st)
    else
      var (g, level) := Leveled(f, nameIndex);
      AddRowShaped(a0, st, g, level);
      AddRowExtends(a0, st, g, level);
      Ok(AddRow(a0, st, g, level))
  }

  /** The name a row contributes to the top-level fields: its leveled name when it is
      kept at level 0, else none. */
  function RootName(es: seq<RangeEntry>, columns: seq<string>, row: Row): seq<string> {
    match Decoded(es, columns, row)
    case Ok(Some((g, 0))) => [g.name]
    case _ => []
  }

  /** The names of the rows that give top-level fields, in row order. */
  function RootNames(es: seq<RangeEntry>, columns: seq<string>, rows: seq<Row>): seq<string> {
    if rows == [] then [] else RootName(es, columns, rows[0]) + RootNames(es, columns, rows[1..])
  }

  /** `r` keeps the fields and roots of `st` and has gained roots named `names`. */
  ghost predicate Grown(st: TableState, r: TableState, names: seq<string>) {
    && |st.arena.fields| <= |r.arena.fields| && r.arena.fields[..|st.arena.fields|] == st.arena.fields
    && |r.roots| == |st.roots| + |names| && r.roots[..|st.roots|] == st.roots
    && forall i :: |st.roots| <= i < |r.roots| ==>
         r.roots[i] < |r.arena.fields| && r.arena.fields[r.roots[i]].name == names[i - |st.roots|]
  }

  lemma GrownRefl(st: TableState)
    ensures Grown(st, st, [])
  {
  }

  lemma GrownTrans(st: TableState, st': TableState, r: TableState, n1: seq<string>, n2: seq<string>)
    requires Grown(st, st', n1) && Grown(st', r, n2)
    ensures Grown(st, r, n1 + n2)
  {
    var a, b := |st.arena.fields|, |st'.arena.fields|;
    assert r.arena.fields[..a] == r.arena.fields[..b][..a];
    assert r.roots[..|st.roots|] == r.roots[..|st'.roots|][..|st.roots|];
    forall i | |st.roots| <= i < |r.roots|
      ensures r.roots[i] < |r.arena.fields| && r.arena.fields[r.roots[i]].name == (n1 + n2)[i - |st.roots|]
    {
      if i < |st'.roots| {
        var id := st'.roots[i];
        assert id < b && st'.arena.fields[id].name == n1[i - |st.roots|];
        assert r.roots[i] == r.roots[..|st'.roots|][i] == id;
        assert r.arena.fields[id] == r.arena.fields[..b][id];
      } else {
        assert r.roots[i] < |r.arena.fields| && r.arena.fields[r.roots[i]].name == n2[i - |st'.roots|];
      }
    }
  }

  /** One row grows the state by its root name. */
  lemma RowStepGrown(a0: Arena, es: seq<RangeEntry>, columns: seq<string>, st: TableState, row: Row)
    requires Shaped(a0, st) && RowStep(a0, es, columns, st, row).Ok?
    ensures Grown(st, RowStep(a0, es, columns, st, row).value, RootName(es, columns, row))
  {
    var r := RowStep(a0, es, columns, st, row).value;
    var d := DecodeCells(es, columns, row, 0, NewField(0), 0, 0).value;
    if IsSkippedName(d.0.name) {
      assert RootName(es, columns, row) == [];
      GrownRefl(st);
    } else {
      var (g, level) := Leveled(d.0, d.1);
      var id := |st.arena.fields|;
      assert Decoded(es, columns, row) == Ok(Some((g, level)));
      if level == 0 {
        assert RootName(es, columns, row) == [g.name];
        assert r.roots == st.roots + [id];
        assert r.roots[..|st.roots|] == st.roots;
      } else {
        assert RootName(es, columns, row) == [];
      }
    }
  }

  /** The rows in order: the loop fails exactly when some row cannot be decoded; the
      fields already built are kept, and the top-level fields gained are the level-0 rows
      with a usable name, in row order. */
  function RowsLoop(ghost a0: Arena, es: seq<RangeEntry>, columns: seq<string>, st: TableState, rows: seq<Row>)
    : (r: Result<TableState>)
    requires Shaped(a0, st)
    ensures r.Ok? ==> Shaped(a0, r.value)
    ensures r.Ok? <==> forall k :: 0 <= k < |rows| ==> DecodeCells(es, columns, rows[k], 0, NewField(0), 0, 0).Ok?
    ensures r.Ok? ==> Grown(st, r.value, RootNames(es, columns, rows))
    decreases |rows|
  {
    if rows == [] then
      GrownRefl(st);
      Ok(st)
    else
      var st' :- RowStep(a0, es, columns, st, rows[0]);
      var r := RowsLoop(a0, es, columns, st', rows[1..]);
      AllRowsStep(es, columns, rows);
      if r.Ok? then
        RowStepGrown(a0, es, columns, st, rows[0]);
        GrownTrans(st, st', r.value, RootName(es, columns, rows[0]), RootNames(es, columns, rows[1..]));
        r
      else r
  }

  lemma AllRowsStep(es: seq<RangeEntry>, columns: seq<string>, rows: seq<Row>)
    requires rows != []
    ensures (forall k :: 0 <= k < |rows| ==> DecodeCells(es, columns, rows[k], 0, NewField(0), 0, 0).Ok?)
        <==> DecodeCells(es, columns, rows[0], 0, NewField(0), 0, 0).Ok?
             && forall k :: 0 <= k < |rows[1..]| ==> DecodeCells(es, columns, rows[1..][k], 0, NewField(0), 0, 0).Ok?
  {
    assert forall k :: 1 <= k < |rows| ==> rows[k] == rows[1..][k - 1];
  }

  /** `tableToDocFields`: the first row is the header, the rest are fields; the answer
      is the top-level fields in document order, their descendants hang below them.  Rows
      with a blank, "." or "-" name give nothing, and only level-0 rows are returned. */
  function TableToDocFields(a: Arena, rows: seq<Row>): (r: Result<(Arena, seq<FieldId>)>)
    requires Valid(a)
    ensures rows == [] ==> r == Ok((a, []))
    ensures r.Ok? ==> Shaped(a, TableState(r.value.0, map[], r.value.1))
    ensures rows != [] ==>
              (r.Ok? <==> ToRangeMetadata(rows[0]).Ok? &&
                          forall k :: 1 <= k < |rows| ==>
                            DecodeCells(ToRangeMetadata(rows[0]).value, Columns(rows[0]), rows[k], 0, NewField(0), 0, 0).Ok?)
    ensures rows != [] && r.Ok? ==>
              Grown(TableState(a, map[], []), TableState(r.value.0, map[], r.value.1),
                    RootNames(ToRangeMetadata(rows[0]).value, Columns(rows[0]), rows[1..]))
  {
    if rows == [] then Ok((a, []))
    else
      var es :- ToRangeMetadata(rows[0]);
      var st0 := TableState(a, map[], []);
      assert a.fields[..|a.fields|] == a.fields && a.lists[..|a.lists|] == a.lists;
      assert forall k :: 1 <= k < |rows| ==> rows[k] == rows[1..][k - 1];
      var st :- RowsLoop(a, es, Columns(rows[0]), st0, rows[1..]);
      Ok((st.arena, st.roots))
  }

  /* ---------- two-column tables and "key: value" lines ---------- */

  /** `tableToMap`: every row with exactly two texts maps the first to the second; a
      later row with the same key wins. */
  function TableToMap(rows: seq<seq<string>>): (r: seq<OM.Entry<string, string>>)
    ensures OM.NoDupKeys(r)
  {
    if rows == [] then []
    else
      var prev := TableToMap(rows[..|rows| - 1]);
      var row := rows[|rows| - 1];
      if |row| == 2 then
        OM.PutNoDup(prev, row[0], row[1]);
        OM.Put(prev, row[0], row[1])
      else prev
  }

  /** Position of the last two-text row whose key is `k`. */
  function LastPairRow(rows: seq<seq<string>>, k: string): (r: Option<nat>)
    ensures r.Some? ==> r.value < |rows| && |rows[r.value]| == 2 && rows[r.value][0] == k
    ensures r.Some? ==> forall j :: r.value < j < |rows| ==> !(|rows[j]| == 2 && rows[j][0] == k)
    ensures r.None? ==> forall j :: 0 <= j < |rows| ==> !(|rows[j]| == 2 && rows[j][0] == k)
  {
    if rows == [] then None
    else if |rows[|rows| - 1]| == 2 && rows[|rows| - 1][0] == k then Some(|rows| - 1)
    else LastPairRow(rows[..|rows| - 1], k)
  }

  lemma {:induction false} TableToMapLaterWins(rows: seq<seq<string>>, k: string)
    ensures OM.Get(TableToMap(rows), k) ==
      match LastPairRow(rows, k) case None => None case Some(j) => Some(rows[j][1])
    decreases |rows|
  {
    if rows != [] {
      var init := rows[..|rows| - 1];
      var row := rows[|rows| - 1];
      TableToMapLaterWins(init, k);
      if |row| == 2 && row[0] == k {
        assert LastPairRow(rows, k) == Some(|rows| - 1);
      } else {
        assert LastPairRow(rows, k) == LastPairRow(init, k);
        if |row| == 2 {
          OM.PutOther(TableToMap(init), row[0], row[1], k);
          assert TableToMap(rows) == OM.Put(TableToMap(init), row[0], row[1]);
        } else {
          assert TableToMap(rows) == TableToMap(init);
        }
        match LastPairRow(init, k)
        case None =>
        case Some(j) => assert rows[j] == init[j];
      }
    }
  }

  /** `split(sep, 2)` on a text that contains `sep`: before and after the first one. */
  function SplitOnce(s: string, sep: string): (r: (string, string))
    requires |sep| > 0 && Contains(s, sep)
    ensures r.0 + sep + r.1 == s
    ensures r.0 == s[..IndexFrom(s, sep, 0).value]
    ensures !Contains(r.0, sep)
  {
    var i := IndexFrom(s, sep, 0).value;
    assert s[..i] + sep + s[i + |sep|..] == s by {
      assert s[i..i + |sep|] == sep;
      assert s == s[..i] + s[i..i + |sep|] + s[i + |sep|..];
    }
    assert !Contains(s[..i], sep) by {
      forall j | 0 <= j ensures !OccursAt(s[..i], sep, j) {
        if OccursAt(s[..i], sep, j) {
          assert s[j..j + |sep|] == s[..i][j..j + |sep|];
          assert OccursAt(s, sep, j);
        }
      }
      ContainsIff(s[..i], sep);
    }
    (s[..i], s[i + |sep|..])
  }

  /** One "key: value" pair applied to a field: through the key's setter, or as a string
      field named by the key and described by the value. */
  function ApplyPair(f: Field, s: string, sep: string): (r: Field)
    requires |sep| > 0
    ensures |sep| == 1 && sep[0] !in s ==> r == f
    ensures r.children == f.children && r.parent == f.parent && r.alternates == f.alternates
  {
    ContainsChar(s, sep[0]);
    assert |sep| == 1 ==> sep == [sep[0]];
    if !Contains(s, sep) then f
    else
      var (name, value) := SplitOnce(s, sep);
      match GetByColumnName(name)
      case Some(setter) => Apply(f, setter, value)
      case None => SetDescription(f.(name := name), value).(typ := Some("string"))
  }

  /** `parseHead`: one field per text, the ASCII colon tried before the full-width one.
      Every field is a fresh top-level leaf, and a text without either colon gives a
      field with nothing set. */
  function ParseHead(texts: seq<string>): (r: seq<Field>)
    ensures |r| == |texts|
    ensures forall k :: 0 <= k < |r| ==> r[k].children == 0 && r[k].parent.None? && r[k].alternates == []
    ensures forall k :: 0 <= k < |texts| && ':' !in texts[k] && '：' !in texts[k] ==> r[k] == NewField(0)
    ensures forall k :: 0 <= k < |texts| ==> r[k] == ApplyPair(ApplyPair(NewField(0), texts[k], ":"), texts[k], "：")
  {
    seq(|texts|, k requires 0 <= k < |texts| => ApplyPair(ApplyPair(NewField(0), texts[k], ":"), texts[k], "："))
  }

  /** A line "key:value" whose key no setter knows becomes a string field named `key`. */
  lemma ParseHeadUnknownKey(key: string, value: string)
    requires ':' !in key && '：' !in key + value && GetByColumnName(key).None?
    ensures ParseHead([key + ":" + value])[0].name == key
    ensures ParseHead([key + ":" + value])[0].typ == Some("string")
  {
    var s := key + ":" + value;
    assert OccursAt(s, ":", |key|);
    ContainsIff(s, ":");
    forall j | 0 <= j < |key| ensures !OccursAt(s, ":", j) {
      assert s[j] == key[j];
      assert s[j..j + 1] == [key[j]];
    }
    assert IndexFrom(s, ":", 0) == Some(|key|);
    assert s[..|key|] == key;
    MissingCharNotContained(s, "：", 0);
  }
}

=== FILE: markdown.dfy ===
/** The Markdown variant of table parsing (`MarkdownParser`): pipe-table lines become
    string rows, rows become fields nested by their depth marker, and tables under
    sub-headings replace the children of the field the heading names.

    A table block is given by its string rows; a content block by its raw lines. */
module Markdown {

  import opened Base
  import opened Text
  import opened DocFields
  import HtmlTable

  /* ---------- content lines ---------- */

  /** A line of a pipe table: it holds a '|' and no '-' (which also drops the
      separator line, and any row with a '-' in it). */
  predicate IsTableLine(line: string) {
    '|' in line && '-' !in line
  }

  /** The table lines of a content block, in order. */
  function TableLines(lines: seq<string>): (r: seq<string>)
    ensures |r| <= |lines|
    ensures forall k :: 0 <= k < |r| ==> IsTableLine(r[k])
    ensures forall x :: x in r <==> x in lines && IsTableLine(x)
  {
    if lines == [] then []
    else (if IsTableLine(lines[0]) then [lines[0]] else []) + TableLines(lines[1..])
  }

  /** The table lines of two stretches of a block are those of the first, then those of
      the second: the filter keeps the order of the lines. */
  lemma {:induction false} TableLinesAppend(a: seq<string>, b: seq<string>)
    ensures TableLines(a + b) == TableLines(a) + TableLines(b)
    decreases |a|
  {
    if a == [] {
      assert a + b == b;
    } else {
      assert (a + b)[1..] == a[1..] + b;
      TableLinesAppend(a[1..], b);
    }
  }

  /** A cell with "<br/>" and "*" removed, then trimmed: it holds no '*', is no longer
      than the raw cell, and has no leading or trailing space. */
  function CleanCell(s: string): (r: string)
    ensures '*' !in r && |r| <= |s|
    ensures r != [] ==> r[0] > ' ' && r[|r| - 1] > ' '
  {
    var x := ReplaceAll(s, "<br/>", "");
    var y := ReplaceAll(x, "*", "");
    RemoveCharShortens(x, '*');
    assert "*" == ['*'];
    TrimKeepsOut(y, '*');
    Trim(y)
  }

  /** Trimming only drops characters. */
  lemma TrimKeepsOut(y: string, c: char)
    requires c !in y
    ensures c !in Trim(y)
  {
    var z := TrimStart(y);
    assert z == y[|y| - |z|..];
    assert c !in z;
    assert TrimEnd(z) == z[..|TrimEnd(z)|];
  }

  /** Every cell cleaned, in order. */
  function CleanAll(xs: seq<string>): (r: seq<string>)
    ensures |r| == |xs| && forall k :: 0 <= k < |xs| ==> r[k] == CleanCell(xs[k])
    ensures forall k :: 0 <= k < |r| ==> '*' !in r[k] && |r[k]| <= |xs[k]|
  {
    if xs == [] then [] else [CleanCell(xs[0])] + CleanAll(xs[1..])
  }

  /** One line: split on '|', drop the first piece and keep `length - 2` after it; a split
      into fewer than two pieces makes the limit negative. */
  function LineCells(line: string): (r: Result<seq<string>>)
    ensures r.Err? <==> |JavaSplit(line, "|")| < 2
    ensures r.Err? ==> r.error == NegativeLimit
    ensures r.Ok? ==> |r.value| == |JavaSplit(line, "|")| - 2
  {
    var parts := JavaSplit(line, "|");
    if |parts| < 2 then Err(NegativeLimit) else Ok(CleanAll(parts[1..|parts| - 1]))
  }

  /** `contentToList`: one row per table line, each the cleaned cells of its line. */
  function ContentToList(lines: seq<string>): (r: Result<seq<seq<string>>>)
    ensures r.Ok? ==> |r.value| == |TableLines(lines)|
    ensures r.Ok? ==> forall k :: 0 <= k < |r.value| ==> LineCells(TableLines(lines)[k]) == Ok(r.value[k])
    ensures r.Ok? <==> forall k :: 0 <= k < |lines| && IsTableLine(lines[k]) ==> LineCells(lines[k]).Ok?
  {
    if lines == [] then Ok([])
    else
      var rest :- ContentToList(lines[1..]);
      if IsTableLine(lines[0]) then
        var row :- LineCells(lines[0]);
        assert forall k :: 1 <= k < |lines| ==> lines[k] == lines[1..][k - 1];
        assert TableLines(lines) == [lines[0]] + TableLines(lines[1..]);
        RowsCons(LineCells, TableLines(lines[1..]), rest, lines[0], row);
        Ok([row] + rest)
      else
        assert forall k :: 1 <= k < |lines| ==> lines[k] == lines[1..][k - 1];
        assert TableLines(lines) == TableLines(lines[1..]);
        Ok(rest)
  }

  /** One more line in front gives one more row in front. */
  lemma RowsCons<A, B>(f: A -> Result<B>, tl: seq<A>, rows: seq<B>, line: A, row: B)
    requires |rows| == |tl| && forall k :: 0 <= k < |rows| ==> f(tl[k]) == Ok(rows[k])
    requires f(line) == Ok(row)
    ensures forall k :: 0 <= k < |rows| + 1 ==> f(([line] + tl)[k]) == Ok(([row] + rows)[k])
  {
    forall k | 0 <= k < |rows| + 1
      ensures f(([line] + tl)[k]) == Ok(([row] + rows)[k])
    {
      if k > 0 {
        assert ([line] + tl)[k] == tl[k - 1] && ([row] + rows)[k] == rows[k - 1];
      }
    }
  }

  /** Joining words that lack a character with a separator that is not that character
      gives a text without it. */
  lemma {:induction false} JoinNoChar(ws: seq<string>, sep: char, c: char)
    requires sep != c && forall k :: 0 <= k < |ws| ==> c !in ws[k]
    ensures c !in Join(ws, [sep])
  {
    if |ws| > 1 {
      JoinNoChar(ws[1..], sep, c);
    }
  }

  /** Splitting a '|'-joined line that starts with the separator gives the words back,
      less the trailing empty ones. */
  lemma SplitJoinedLine(ws: seq<string>)
    requires |ws| >= 2 && ws[0] == []
    requires forall k :: 0 <= k < |ws| ==> '|' !in ws[k]
    ensures JavaSplit(Join(ws, "|"), "|") == DropTrailingEmpty(ws)
  {
    var line := Join(ws, "|");
    SplitJoin(ws, '|');
    assert line == ws[0] + "|" + Join(ws[1..], "|");
    assert line[0] == '|';
    ContainsChar(line, '|');
  }

  /** The cells of a line are the cleaned inner pieces of its split. */
  lemma CellsOfSplit(line: string, ws: seq<string>, cs: seq<string>)
    requires JavaSplit(line, "|") == ws && |ws| >= 2 && ws[1..|ws| - 1] == cs
    ensures LineCells(line) == Ok(CleanAll(cs))
  {
  }

  /** The words of a line framed by separators: an empty one, the cells, and the end. */
  lemma FramedWords(cs: seq<string>, end: string)
    requires forall k :: 0 <= k < |cs| ==> '|' !in cs[k]
    requires '|' !in end
    ensures var ws := [""] + cs + [end];
            && (forall k :: 0 <= k < |ws| ==> '|' !in ws[k])
            && ws[1..|ws| - 1] == cs && ws[..|ws| - 1] == [""] + cs
  {
    var ws := [""] + cs + [end];
    forall k | 0 <= k < |ws| ensures '|' !in ws[k] {
      if 0 < k < |ws| - 1 { assert ws[k] == cs[k - 1]; }
    }
  }

  lemma DropLastEmpty(kept: seq<string>)
    requires kept != [] && kept[|kept| - 1] != []
    ensures DropTrailingEmpty(kept + [""]) == kept
  {
    assert (kept + [""])[..|kept|] == kept;
  }

  /** A table line written `|c1|...|cn|` followed by a non-empty remainder (its line
      terminator) gives back exactly the cleaned cells. */
  lemma LineRoundTrip(cs: seq<string>, end: string)
    requires forall k :: 0 <= k < |cs| ==> '|' !in cs[k]
    requires end != [] && '|' !in end
    ensures LineCells(Join([""] + cs + [end], "|")) == Ok(CleanAll(cs))
  {
    var ws := [""] + cs + [end];
    FramedWords(cs, end);
    SplitJoinedLine(ws);
    assert DropTrailingEmpty(ws) == ws;
    CellsOfSplit(Join(ws, "|"), ws, cs);
  }

  /** Splitting `|c1|...|cn|` drops the trailing empty piece. */
  lemma SplitUnterminated(cs: seq<string>)
    requires cs != [] && cs[|cs| - 1] != []
    requires forall k :: 0 <= k < |cs| ==> '|' !in cs[k]
    ensures JavaSplit(Join([""] + cs + [""], "|"), "|") == [""] + cs
  {
    var ws := [""] + cs + [""];
    FramedWords(cs, "");
    SplitJoinedLine(ws);
    var kept := [""] + cs;
    assert ws == kept + [""];
    DropLastEmpty(kept);
  }

  lemma InnerOfFramed(cs: seq<string>)
    requires cs != []
    ensures ([""] + cs)[1..|cs|] == cs[..|cs| - 1]
  {
  }

  /** The same line ending right at its closing '|' loses its last cell: the trailing
      empty piece is dropped by the split, and the limit still removes one more. */
  lemma LineWithoutTerminator(cs: seq<string>)
    requires cs != [] && cs[|cs| - 1] != []
    requires forall k :: 0 <= k < |cs| ==> '|' !in cs[k]
    ensures LineCells(Join([""] + cs + [""], "|")) == Ok(CleanAll(cs[..|cs| - 1]))
  {
    SplitUnterminated(cs);
    InnerOfFramed(cs);
    CellsOfSplit(Join([""] + cs + [""], "|"), [""] + cs, cs[..|cs| - 1]);
  }

  /* ---------- one row ---------- */

  /** The column of cell `i`: its header, or for a blank header the first header (cell 1)
      or the nearest non-blank header before it ("" when none). */
  function ColumnOf(columns: seq<string>, i: nat): (r: Result<string>)
    ensures r.Err? <==> i >= |columns|
    ensures i < |columns| && !IsBlank(columns[i]) ==> r == Ok(columns[i])
    ensures i < |columns| && IsBlank(columns[i]) && i == 1 ==> r == Ok(columns[0])
    ensures r.Ok? && i != 1 && IsBlank(columns[i]) ==> r.value == "" || (r.value in columns[..i] && !IsBlank(r.value))
  {
    if i >= |columns| then Err(ColumnOutOfRange)
    else if !IsBlank(columns[i]) then Ok(columns[i])
    else if i == 1 then Ok(columns[0])
    else Ok(HtmlTable.LastNonBlank(columns[..i]))
  }

  /** Applies the setters of cells `i..`; blank cells are passed over. */
  function DecodeRow(columns: seq<string>, values: seq<string>, i: nat, f: Field): (r: Result<Field>)
    requires i <= |values|
    decreases |values| - i
    ensures r.Ok? ==> r.value.children == f.children && r.value.parent == f.parent
    ensures r.Ok? ==> r.value.alternates == f.alternates
    ensures r.Ok? ==> r.value.name == f.name || r.value.name in values[i..]
  {
    if i >= |values| then Ok(f)
    else if IsBlank(values[i]) then DecodeRow(columns, values, i + 1, f)
    else
      var column :- ColumnOf(columns, i);
      var g := match GetByColumnName(column)
               case None => f
               case Some(s) => Apply(f, s, values[i]);
      assert g.name == f.name || g.name == values[i];
      var r := DecodeRow(columns, values, i + 1, g);
      assert values[i..] == [values[i]] + values[i + 1..];
      r
  }

  /** The depth of a name: with any '.', its number of dots (and that many leading
      characters go, trimmed or not); otherwise the first cell equal to it. */
  function Depth(name: string, values: seq<string>): (r: (int, string))
    ensures '.' in name ==> r.0 == CountChar(name, '.') && r.1 == name[CountChar(name, '.')..]
    ensures '.' !in name ==> r == (IndexOf(values, name), name)
    ensures name in values ==> r.0 >= 0
  {
    ContainsChar(name, '.');
    if Contains(name, ".") then
      var n := CountChar(name, '.');
      (n, name[n..])
    else (IndexOf(values, name), name)
  }

  /** What the rows built so far: the arena, the field registered at each depth, and
      every row's field. */
  datatype MdState = MdState(arena: Arena, open: map<int, FieldId>, ids: seq<FieldId>)

  /** The rows' fields are the next fresh ids, in row order. */
  ghost predicate Built(a0: Arena, st: MdState) {
    && Valid(st.arena)
    && |st.arena.fields| == |a0.fields| + |st.ids|
    && (forall k :: 0 <= k < |st.ids| ==> st.ids[k] == |a0.fields| + k)
    && (forall d :: d in st.open ==> st.open[d] < |st.arena.fields|)
  }

  /** Adds a row's field at `depth`: its parent is the field registered at exactly
      `depth - 1`, which gets it as a child; an object or array-of-object field is
      registered at `depth` (see `AddRowPlaces`). */
  function AddRow(ghost a0: Arena, st: MdState, f: Field, depth: int): (r: MdState)
    requires Built(a0, st) && f.alternates == []
    ensures Built(a0, r)
    ensures r.ids == st.ids + [|st.arena.fields|]
  {
    var parent := if depth - 1 in st.open then Some(st.open[depth - 1]) else None;
    var (a1, id) := Alloc(st.arena, f.(parent := parent));
    var a2 := if parent.Some? then AppendToList(a1, a1.fields[parent.value].children, id) else a1;
    var open := if IsObjectType(f) || IsArrayObject(f) then st.open[depth := id] else st.open;
    BuiltAdd(a0, st, a2, open);
    MdState(a2, open, st.ids + [id])
  }

  /** Where `AddRow` puts the row's field: named as the row, under the field registered
      at exactly `depth - 1` and in its children when there is one, a root otherwise;
      registered at `depth` itself when it can hold children. */
  lemma AddRowPlaces(a0: Arena, st: MdState, f: Field, depth: int)
    requires Built(a0, st) && f.alternates == []
    ensures var r := AddRow(a0, st, f, depth);
            var id := |st.arena.fields|;
            && r.arena.fields[id].name == f.name
            && (depth - 1 in st.open ==> r.arena.fields[id].parent == Some(st.open[depth - 1])
                                         && id in ChildrenOf(r.arena, st.open[depth - 1]))
            && (depth - 1 !in st.open ==> r.arena.fields[id].parent.None?)
            && (IsObjectType(f) || IsArrayObject(f) ==> r.open == st.open[depth := id])
            && (!(IsObjectType(f) || IsArrayObject(f)) ==> r.open == st.open)
  {
    var parent := if depth - 1 in st.open then Some(st.open[depth - 1]) else None;
    var (a1, id) := Alloc(st.arena, f.(parent := parent));
    var a2 := if parent.Some? then AppendToList(a1, a1.fields[parent.value].children, id) else a1;
    assert AddRow(a0, st, f, depth).arena == a2;
    assert a2.fields == a1.fields && |a1.fields| == id + 1;
    if parent.Some? {
      assert a2.lists[a1.fields[parent.value].children] == a1.lists[a1.fields[parent.value].children] + [id];
    }
  }

  /** Appending one fresh field keeps the rows' ids the next fresh ones. */
  lemma BuiltAdd(a0: Arena, st: MdState, a2: Arena, open: map<int, FieldId>)
    requires Built(a0, st) && Valid(a2) && |a2.fields| == |st.arena.fields| + 1
    requires forall d :: d in open ==> open[d] < |a2.fields|
    ensures Built(a0, MdState(a2, open, st.ids + [|st.arena.fields|]))
  {
    var ids := st.ids + [|st.arena.fields|];
    assert forall k :: 0 <= k < |ids| ==> ids[k] == |a0.fields| + k;
  }

  /** One data row: every row that decodes gives one field, a row that set no name
      included (its name stays "" and its depth is the first blank cell's index). */
  function RowStep(ghost a0: Arena, columns: seq<string>, st: MdState, values: seq<string>): (r: Result<MdState>)
    requires Built(a0, st)
    ensures r.Ok? ==> Built(a0, r.value) && |r.value.ids| == |st.ids| + 1
    ensures var d := DecodeRow(columns, values, 0, NewField(0));
            && (r.Ok? <==> d.Ok?)
            && (d.Ok? ==>
                  var (depth, name) := Depth(d.value.name, values);
                  var id := |st.arena.fields|;
                  && r.value.arena.fields[id].name == name
                  && (depth - 1 in st.open ==> r.value.arena.fields[id].parent == Some(st.open[depth - 1]))
                  && (depth - 1 !in st.open ==> r.value.arena.fields[id].parent.None?))
  {
    var f :- DecodeRow(columns, values, 0, NewField(0));
    var (depth, name) := Depth(f.name, values);
    AddRowPlaces(a0, st, f.(name := name), depth);
    Ok(AddRow(a0, st, f.(name := name), depth))
  }

  /** The rows in order; the loop fails exactly when some row's cells cannot be read. */
  function RowsLoop(ghost a0: Arena, columns: seq<string>, st: MdState, rows: seq<seq<string>>): (r: Result<MdState>)
    requires Built(a0, st)
    decreases |rows|
    ensures r.Ok? ==> Built(a0, r.value) && |r.value.ids| == |st.ids| + |rows|
    ensures r.Ok? <==> forall k :: 0 <= k < |rows| ==> DecodeRow(columns, rows[k], 0, NewField(0)).Ok?
  {
    if rows == [] then Ok(st)
    else
      assert forall k :: 1 <= k < |rows| ==> rows[k] == rows[1..][k - 1];
      var st' :- RowStep(a0, columns, st, rows[0]);
      RowsLoop(a0, columns, st', rows[1..])
  }

  /** `tableToDocFields`: nothing for a missing block; otherwise the first row is the
      header and every other row gives a field, nested or not, in row order. */
  function TableToDocFields(a: Arena, table: Option<seq<seq<string>>>): (r: Result<(Arena, seq<FieldId>)>)
    requires Valid(a)
    ensures table.None? ==> r == Ok((a, []))
    ensures table == Some([]) ==> r == Err(NoHeaderRow)
    ensures r.Ok? ==> Valid(r.value.0)
    ensures r.Ok? && table.Some? ==> |r.value.1| == |table.value| - 1
                                     && |r.value.0.fields| == |a.fields| + |r.value.1|
                                     && forall k :: 0 <= k < |r.value.1| ==> r.value.1[k] == |a.fields| + k
    ensures table.Some? && table.value != [] ==>
              (r.Ok? <==> forall k :: 1 <= k < |table.value| ==>
                            DecodeRow(table.value[0], table.value[k], 0, NewField(0)).Ok?)
  {
    match table
    case None => Ok((a, []))
    case Some(rows) =>
      if rows == [] then Err(NoHeaderRow)
      else
        assert forall k :: 1 <= k < |rows| ==> rows[k] == rows[1..][k - 1];
        var st :- RowsLoop(a, rows[0], MdState(a, map[], []), rows[1..]);
        Ok((st.arena, st.ids))
  }

  /** A row that sets no name is still a field: a one-row table whose only cell is blank
      gives one field named "". */
  lemma UnnamedRowKept(a: Arena)
    requires Valid(a)
    ensures var r := TableToDocFields(a, Some([["名称"], [""]]));
            r.Ok? && |r.value.1| == 1 && r.value.0.fields[r.value.1[0]].name == ""
  {
    var st0 := MdState(a, map[], []);
    assert DecodeRow(["名称"], [""], 0, NewField(0)) == Ok(NewField(0));
    assert Depth("", [""]) == (0, "");
    var st1 := RowStep(a, ["名称"], st0, [""]);
    assert st1.Ok?;
    assert RowsLoop(a, ["名称"], st0, [[""]]) == st1 by {
      assert [[""]][1..] == [];
    }
    assert [["名称"], [""]][1..] == [[""]];
  }

  /** Unlike the HTML tables, a gap in depths gives no parent: a depth-2 row under a
      depth-0 object is a root here, while the HTML rule would find depth 0. */
  lemma DepthGapHasNoParent(a0: Arena, st: MdState, f: Field)
    requires Built(a0, st) && f.alternates == [] && st.open == map[0 := 0] && |st.arena.fields| > 0
    ensures AddRow(a0, st, f, 2).arena.fields[|st.arena.fields|].parent.None?
    ensures HtmlTable.NearestBelow(map[0 := 0], 2) == Some(0)
  {
    AddRowPlaces(a0, st, f, 2);
  }

  /* ---------- sections ---------- */

  datatype MdNode =
    | MdHeading(level: nat, chars: string)   // `chars` is the heading's full source text
    | MdTable(rows: seq<seq<string>>)        // a pipe table, already as string rows
    | MdBlock(lines: seq<string>)            // any other content block, by its lines

  /** The two `parseTable` overloads: one for table blocks, one for any content node. */
  datatype Overload = TableOverload | ContentOverload

  /** The node kind an overload reads after a sub-heading.  In the Markdown node model a
      heading is a block and every block is a content node, so the content overload takes
      whatever follows, a heading included. */
  predicate IsBlockFor(ov: Overload, n: MdNode) {
    match ov
    case TableOverload => n.MdTable?
    case ContentOverload => true
  }

  /** The rows a node is read as: a table's own rows, or the table lines among a content
      node's lines, a heading's single line among them.  A heading whose line is no table
      line gives no rows, so reading it fails for want of a header row. */
  function RowsOfNode(n: MdNode): (r: Result<seq<seq<string>>>)
    ensures n.MdHeading? && !IsTableLine(n.chars) ==> r == Ok([])
  {
    match n
    case MdTable(rows) => Ok(rows)
    case MdBlock(lines) => ContentToList(lines)
    case MdHeading(_, chars) => ContentToList([chars])
  }

  /** The first of `flat` whose name occurs in the heading text. */
  function FirstNamedIn(a: Arena, flat: seq<FieldId>, chars: string): (r: Option<nat>)
    requires forall k :: 0 <= k < |flat| ==> flat[k] < |a.fields|
    ensures r.Some? ==> r.value < |flat| && Contains(chars, a.fields[flat[r.value]].name)
    ensures r.Some? ==> forall j :: 0 <= j < r.value ==> !Contains(chars, a.fields[flat[j]].name)
    ensures r.None? ==> forall j :: 0 <= j < |flat| ==> !Contains(chars, a.fields[flat[j]].name)
  {
    if flat == [] then None
    else if Contains(chars, a.fields[flat[0]].name) then Some(0)
    else
      match FirstNamedIn(a, flat[1..], chars)
      case None => None
      case Some(j) => Some(j + 1)
  }

  /** Stitches the table under a sub-heading: its rows join the accumulated fields, and the
      first accumulated field named in the heading has its children replaced by them. */
  function Stitch(a: Arena, flat: seq<FieldId>, chars: string, ids: seq<FieldId>): (r: (Arena, seq<FieldId>))
    requires Valid(a)
    requires forall k :: 0 <= k < |flat| ==> flat[k] < |a.fields|
    requires forall k :: 0 <= k < |ids| ==> ids[k] < |a.fields|
    ensures Valid(r.0) && |r.0.fields| == |a.fields| && r.1 == flat + ids
    ensures r.0.lists == a.lists + [ids]
    ensures match FirstNamedIn(a, flat + ids, chars)
            case None => r.0.fields == a.fields
            case Some(k) =>
              && r.0.fields[(flat + ids)[k]].children == |a.lists|
              && forall j :: 0 <= j < |a.fields| && j != (flat + ids)[k] ==> r.0.fields[j] == a.fields[j]
  {
    var all := flat + ids;
    var (a1, l) := NewList(a, ids);
    match FirstNamedIn(a1, all, chars)
    case None => (a1, all)
    case Some(k) => (SetChildren(a1, all[k], l), all)
  }

  /** One sub-heading and the block after it: the block's rows read into fields, which
      join the accumulated fields and become the children of the first one the heading
      names; failures pass through. */
  function StitchStep(a: Arena, flat: seq<FieldId>, chars: string, block: MdNode): (r: Result<(Arena, seq<FieldId>)>)
    requires Valid(a) && forall k :: 0 <= k < |flat| ==> flat[k] < |a.fields|
    ensures r.Ok? ==> Valid(r.value.0) && |r.value.0.fields| >= |a.fields|
                      && forall k :: 0 <= k < |r.value.1| ==> r.value.1[k] < |r.value.0.fields|
    ensures r.Ok? <==> RowsOfNode(block).Ok? && TableToDocFields(a, Some(RowsOfNode(block).value)).Ok?
    ensures r.Ok? ==> var (a1, ids) := TableToDocFields(a, Some(RowsOfNode(block).value)).value;
                      r.value == Stitch(a1, flat, chars, ids)
  {
    var rows :- RowsOfNode(block);
    var (a1, ids) :- TableToDocFields(a, Some(rows));
    Ok(Stitch(a1, flat, chars, ids))
  }

  /** A sub-heading directly followed by another heading: the table overload passes it
      over, while the content overload reads the heading's line and, finding no table line
      there, fails for want of a header row. */
  lemma HeadingAsContentFails(a: Arena, flat: seq<FieldId>, chars: string, n: MdNode)
    requires Valid(a) && forall k :: 0 <= k < |flat| ==> flat[k] < |a.fields|
    requires n.MdHeading? && !IsTableLine(n.chars)
    ensures !IsBlockFor(TableOverload, n) && IsBlockFor(ContentOverload, n)
    ensures StitchStep(a, flat, chars, n) == Err(NoHeaderRow)
  {
  }

  /** Scans from node `i` to the next heading of exactly the table's level. */
  function Scan(a: Arena, doc: seq<MdNode>, ov: Overload, level: nat, i: nat, flat: seq<FieldId>): (r: Result<Arena>)
    requires Valid(a) && i <= |doc| && forall k :: 0 <= k < |flat| ==> flat[k] < |a.fields|
    decreases |doc| - i
    ensures r.Ok? ==> Valid(r.value) && |r.value.fields| >= |a.fields|
  {
    if i == |doc| then Ok(a)
    else if doc[i].MdHeading? && doc[i].level == level then Ok(a)
    else if doc[i].MdHeading? && i + 1 < |doc| && IsBlockFor(ov, doc[i + 1]) then
      var (a2, flat') :- StitchStep(a, flat, doc[i].chars, doc[i + 1]);
      Scan(a2, doc, ov, level, i + 1, flat')
    else Scan(a, doc, ov, level, i + 1, flat)
  }

  /** A stretch without headings, ending at the end or at a heading of the table's own
      level, holds nothing to stitch. */
  lemma {:induction false} ScanWithoutHeadings(a: Arena, doc: seq<MdNode>, ov: Overload, level: nat, i: nat, e: nat, flat: seq<FieldId>)
    requires Valid(a) && i <= e <= |doc| && forall k :: 0 <= k < |flat| ==> flat[k] < |a.fields|
    requires forall k :: i <= k < e ==> !doc[k].MdHeading?
    requires e == |doc| || (doc[e].MdHeading? && doc[e].level == level)
    ensures Scan(a, doc, ov, level, i, flat) == Ok(a)
    decreases e - i
  {
    if i < e {
      ScanWithoutHeadings(a, doc, ov, level, i + 1, e, flat);
    }
  }

  /** Nodes without headings are passed over. */
  lemma {:induction false} ScanSkips(a: Arena, doc: seq<MdNode>, ov: Overload, level: nat, i: nat, h: nat, flat: seq<FieldId>)
    requires Valid(a) && i <= h <= |doc| && forall k :: 0 <= k < |flat| ==> flat[k] < |a.fields|
    requires forall k :: i <= k < h ==> !doc[k].MdHeading?
    ensures Scan(a, doc, ov, level, i, flat) == Scan(a, doc, ov, level, h, flat)
    decreases h - i
  {
    if i < h {
      ScanSkips(a, doc, ov, level, i + 1, h, flat);
    }
  }

  /** The scan stops at the first heading of the table's own level: whatever follows
      that heading never matters. */
  lemma {:induction false} ScanStopsAtLevel(a: Arena, doc: seq<MdNode>, ov: Overload, level: nat, i: nat, j: nat, flat: seq<FieldId>)
    requires Valid(a) && i <= j < |doc| && forall k :: 0 <= k < |flat| ==> flat[k] < |a.fields|
    requires doc[j].MdHeading? && doc[j].level == level
    ensures Scan(a, doc, ov, level, i, flat) == Scan(a, doc[..j + 1], ov, level, i, flat)
    decreases j - i
  {
    var pre := doc[..j + 1];
    assert pre[i] == doc[i];
    if i < j && !(doc[i].MdHeading? && doc[i].level == level) {
      assert pre[i + 1] == doc[i + 1];
      if doc[i].MdHeading? && IsBlockFor(ov, doc[i + 1]) {
        match StitchStep(a, flat, doc[i].chars, doc[i + 1])
        case Err(_) =>
        case Ok((a2, flat')) =>
          ScanStopsAtLevel(a2, doc, ov, level, i + 1, j, flat');
      } else {
        ScanStopsAtLevel(a, doc, ov, level, i + 1, j, flat);
      }
    }
  }

  /** From a sub-heading whose block is the last before the section ends, the scan is
      that one step. */
  lemma ScanAtSubHeading(a: Arena, doc: seq<MdNode>, ov: Overload, level: nat, h: nat, e: nat, flat: seq<FieldId>)
    requires Valid(a) && h + 1 < e <= |doc| && forall k :: 0 <= k < |flat| ==> flat[k] < |a.fields|
    requires doc[h].MdHeading? && doc[h].level != level && IsBlockFor(ov, doc[h + 1])
    requires forall k :: h + 1 <= k < e ==> !doc[k].MdHeading?
    requires e == |doc| || (doc[e].MdHeading? && doc[e].level == level)
    ensures var st := StitchStep(a, flat, doc[h].chars, doc[h + 1]);
            && (st.Err? ==> Scan(a, doc, ov, level, h, flat) == Err(st.error))
            && (st.Ok? ==> Scan(a, doc, ov, level, h, flat) == Ok(st.value.0))
  {
    var st := StitchStep(a, flat, doc[h].chars, doc[h + 1]);
    if st.Ok? {
      ScanWithoutHeadings(st.value.0, doc, ov, level, h + 1, e, st.value.1);
    }
  }

  /** A section whose only sub-heading is followed by a block stitches exactly that
      block: the arena is the one that single step leaves, or the step's failure. */
  lemma SingleSubTable(a: Arena, doc: seq<MdNode>, ov: Overload, level: nat, i: nat, h: nat, e: nat, flat: seq<FieldId>)
    requires Valid(a) && i <= h && h + 1 < e <= |doc| && forall k :: 0 <= k < |flat| ==> flat[k] < |a.fields|
    requires forall k :: i <= k < h ==> !doc[k].MdHeading?
    requires doc[h].MdHeading? && doc[h].level != level
    requires IsBlockFor(ov, doc[h + 1])
    requires forall k :: h + 1 <= k < e ==> !doc[k].MdHeading?
    requires e == |doc| || (doc[e].MdHeading? && doc[e].level == level)
    ensures var st := StitchStep(a, flat, doc[h].chars, doc[h + 1]);
            && (st.Err? ==> Scan(a, doc, ov, level, i, flat) == Err(st.error))
            && (st.Ok? ==> Scan(a, doc, ov, level, i, flat) == Ok(st.value.0))
  {
    ScanSkips(a, doc, ov, level, i, h, flat);
    ScanAtSubHeading(a, doc, ov, level, h, e, flat);
  }

  /** `parseTable(topBlock)`: the block must directly follow a heading, whose level bounds
      the section; the block's rows are the result, and the section's sub-tables are
      stitched into the arena. */
  function ParseTable(a: Arena, doc: seq<MdNode>, ov: Overload, t: nat): (r: Result<(Arena, seq<FieldId>)>)
    requires Valid(a) && t < |doc| && IsBlockFor(ov, doc[t])
    ensures t == 0 || !doc[t - 1].MdHeading? ==> r == Err(NoPrecedingHeading)
    ensures r.Ok? ==> Valid(r.value.0)
    ensures r.Ok? ==> RowsOfNode(doc[t]).Ok?
                      && TableToDocFields(a, Some(RowsOfNode(doc[t]).value)).Ok?
                      && r.value.1 == TableToDocFields(a, Some(RowsOfNode(doc[t]).value)).value.1
  {
    if t == 0 || !doc[t - 1].MdHeading? then Err(NoPrecedingHeading)
    else
      var level := doc[t - 1].level;
      var rows :- RowsOfNode(doc[t]);
      var (a1, res) :- TableToDocFields(a, Some(rows));
      var a2 :- Scan(a1, doc, ov, level, t + 1, res);
      Ok((a2, res))
  }
}

=== FILE: ordered_map.dfy ===
/** Insertion-ordered association lists with the `put`/`get` behaviour of Java's
    `LinkedHashMap`: putting an existing key replaces its value in place, a new key is
    appended at the end. */
module OrderedMap {

  import opened Base

  datatype Entry<K, V> = Entry(key: K, value: V)

  function Keys<K, V>(m: seq<Entry<K, V>>): (r: seq<K>)
    ensures |r| == |m|
    ensures forall i :: 0 <= i < |m| ==> r[i] == m[i].key
  {
    if m == [] then [] else [m[0].key] + Keys(m[1..])
  }

  function Values<K, V>(m: seq<Entry<K, V>>): (r: seq<V>)
    ensures |r| == |m|
    ensures forall i :: 0 <= i < |m| ==> r[i] == m[i].value
  {
    if m == [] then [] else [m[0].value] + Values(m[1..])
  }

  predicate NoDupKeys<K(==,!new), V>(m: seq<Entry<K, V>>) {
    forall i, j :: 0 <= i < j < |m| ==> m[i].key != m[j].key
  }

  /** The value stored under `k`, from the first entry holding that key. */
  function Get<K(==,!new), V>(m: seq<Entry<K, V>>, k: K): (r: Option<V>)
    ensures r.None? <==> k !in Keys(m)
    ensures r.Some? ==> exists i :: 0 <= i < |m| && m[i] == Entry(k, r.value)
  {
    if m == [] then None
    else if m[0].key == k then Some(m[0].value)
    else Get(m[1..], k)
  }

  function Put<K(==,!new), V>(m: seq<Entry<K, V>>, k: K, v: V): (r: seq<Entry<K, V>>)
    ensures Get(r, k) == Some(v)
    ensures k in Keys(m) ==> Keys(r) == Keys(m)
    ensures k !in Keys(m) ==> Keys(r) == Keys(m) + [k]
  {
    if m == [] then [Entry(k, v)]
    else if m[0].key == k then
      PutKeysHit(m, k, v);
      [Entry(k, v)] + m[1..]
    else
      var rest := Put(m[1..], k, v);
      PutKeysMiss(m, k, rest);
      [m[0]] + rest
  }

  /** Replacing the first entry's value keeps the keys. */
  lemma PutKeysHit<K, V>(m: seq<Entry<K, V>>, k: K, v: V)
    requires m != [] && m[0].key == k
    ensures Keys([Entry(k, v)] + m[1..]) == Keys(m)
  {
    KeysCons(Entry(k, v), m[1..]);
    KeysCons(m[0], m[1..]);
    assert m == [m[0]] + m[1..];
  }

  /** Keeping the first entry in front of the put into the rest. */
  lemma PutKeysMiss<K, V>(m: seq<Entry<K, V>>, k: K, rest: seq<Entry<K, V>>)
    requires m != [] && m[0].key != k
    requires k in Keys(m[1..]) ==> Keys(rest) == Keys(m[1..])
    requires k !in Keys(m[1..]) ==> Keys(rest) == Keys(m[1..]) + [k]
    ensures k in Keys(m) ==> Keys([m[0]] + rest) == Keys(m)
    ensures k !in Keys(m) ==> Keys([m[0]] + rest) == Keys(m) + [k]
  {
    KeysCons(m[0], m[1..]);
    KeysCons(m[0], rest);
    assert m == [m[0]] + m[1..];
    assert k in Keys(m) <==> k in Keys(m[1..]);
    if k !in Keys(m) {
      assert [m[0].key] + (Keys(m[1..]) + [k]) == [m[0].key] + Keys(m[1..]) + [k];
    }
  }

  lemma KeysCons<K, V>(e: Entry<K, V>, m: seq<Entry<K, V>>)
    ensures Keys([e] + m) == [e.key] + Keys(m)
  {
    assert ([e] + m)[1..] == m;
  }

  /** Putting one key leaves every other key's value alone. */
  lemma {:induction false} PutOther<K(!new), V>(m: seq<Entry<K, V>>, k: K, v: V, k': K)
    requires k' != k
    ensures Get(Put(m, k, v), k') == Get(m, k')
  {
    if m != [] && m[0].key != k {
      PutOther(m[1..], k, v, k');
    }
  }

  /** A put leaves the value of every other key as it was. */
  lemma PutOthers<K(!new), V>(m: seq<Entry<K, V>>, k: K, v: V)
    ensures forall k' :: k' != k ==> Get(Put(m, k, v), k') == Get(m, k')
  {
    forall k' | k' != k
      ensures Get(Put(m, k, v), k') == Get(m, k')
    {
      PutOther(m, k, v, k');
    }
  }

  /** Every entry after a put is an old entry or the new one. */
  lemma {:induction false} PutEntries<K(!new), V>(m: seq<Entry<K, V>>, k: K, v: V)
    ensures forall e :: e in Put(m, k, v) ==> e in m || e == Entry(k, v)
  {
    if m != [] && m[0].key != k {
      PutEntries(m[1..], k, v);
      assert Put(m, k, v) == [m[0]] + Put(m[1..], k, v);
    }
  }

  /** `putAll` of entries in order: later entries replace earlier ones of the same key. */
  function PutAll<K(==,!new), V>(m: seq<Entry<K, V>>, es: seq<Entry<K, V>>): (r: seq<Entry<K, V>>)
    decreases |es|
    ensures forall k :: k in Keys(r) <==> k in Keys(m) || k in Keys(es)
    ensures forall e :: e in r ==> e in m || e in es
  {
    if es == [] then m
    else
      PutEntries(m, es[0].key, es[0].value);
      assert Keys(es) == [es[0].key] + Keys(es[1..]);
      assert forall e :: e in es[1..] ==> e in es;
      PutAll(Put(m, es[0].key, es[0].value), es[1..])
  }

  /** The elements of `xs` whose flag in `keep` is set, in order. */
  function Select<T(!new)>(xs: seq<T>, keep: seq<bool>): (r: seq<T>)
    requires |keep| == |xs|
    ensures forall x :: x in r <==> exists k :: 0 <= k < |xs| && keep[k] && xs[k] == x
  {
    if xs == [] then []
    else
      var rest := Select(xs[1..], keep[1..]);
      assert forall k :: 0 < k < |xs| ==> xs[k] == xs[1..][k - 1] && keep[k] == keep[1..][k - 1];
      (if keep[0] then [xs[0]] else []) + rest
  }

  /** Selecting from a sequence with one more element appends it when its flag is set. */
  lemma {:induction false} SelectSnoc<T(!new)>(xs: seq<T>, keep: seq<bool>, x: T, b: bool)
    requires |keep| == |xs|
    ensures Select(xs + [x], keep + [b]) == Select(xs, keep) + (if b then [x] else [])
    decreases |xs|
  {
    if xs != [] {
      assert (xs + [x])[1..] == xs[1..] + [x];
      assert (keep + [b])[1..] == keep[1..] + [b];
      SelectSnoc(xs[1..], keep[1..], x, b);
    }
  }

  /** Putting one more entry after a run of entries is one more put. */
  lemma {:induction false} PutAllSnoc<K(!new), V>(m: seq<Entry<K, V>>, es: seq<Entry<K, V>>, e: Entry<K, V>)
    ensures PutAll(m, es + [e]) == Put(PutAll(m, es), e.key, e.value)
    decreases |es|
  {
    if es == [] {
      assert [e][1..] == [];
    } else {
      assert (es + [e])[1..] == es[1..] + [e];
      PutAllSnoc(Put(m, es[0].key, es[0].value), es[1..], e);
    }
  }

  /** The position of the last selected entry with key `k`. */
  function LastSelected<K(==), V>(es: seq<Entry<K, V>>, keep: seq<bool>, k: K): (r: Option<nat>)
    requires |keep| == |es|
    ensures r.Some? ==> r.value < |es| && keep[r.value] && es[r.value].key == k
    ensures r.Some? ==> forall i :: r.value < i < |es| ==> !(keep[i] && es[i].key == k)
    ensures r.None? ==> forall i :: 0 <= i < |es| ==> !(keep[i] && es[i].key == k)
  {
    if es == [] then None
    else if keep[|es| - 1] && es[|es| - 1].key == k then Some(|es| - 1)
    else LastSelected(es[..|es| - 1], keep[..|es| - 1], k)
  }

  /** Putting the selected entries in order: the last selected entry of a key wins. */
  lemma {:induction false} SelectedLaterWins<K(!new), V(!new)>(es: seq<Entry<K, V>>, keep: seq<bool>, k: K)
    requires |keep| == |es|
    ensures Get(PutAll([], Select(es, keep)), k) ==
      match LastSelected(es, keep, k)
      case None => None
      case Some(i) => Some(es[i].value)
    decreases |es|
  {
    if es != [] {
      var n := |es| - 1;
      var init, kinit := es[..n], keep[..n];
      SelectedLaterWins(init, kinit, k);
      assert es == init + [es[n]] && keep == kinit + [keep[n]];
      SelectSnoc(init, kinit, es[n], keep[n]);
      var prev := PutAll([], Select(init, kinit));
      if keep[n] && es[n].key == k {
        PutAllSnoc([], Select(init, kinit), es[n]);
        assert LastSelected(es, keep, k) == Some(n);
      } else {
        if keep[n] {
          PutAllSnoc([], Select(init, kinit), es[n]);
          PutOther(prev, es[n].key, es[n].value, k);
        } else {
          assert Select(init, kinit) + [] == Select(init, kinit);
        }
        assert Get(PutAll([], Select(es, keep)), k) == Get(prev, k);
        assert LastSelected(es, keep, k) == LastSelected(init, kinit, k);
        match LastSelected(init, kinit, k)
        case None =>
        case Some(i) => assert init[i] == es[i];
      }
    }
  }

  /** Some selected entry has key `k`. */
  ghost predicate SelectedKey<K, V>(es: seq<Entry<K, V>>, keep: seq<bool>, k: K)
    requires |keep| == |es|
  {
    exists i :: 0 <= i < |es| && keep[i] && es[i].key == k
  }

  /** `e` is a selected entry. */
  ghost predicate Selected<K, V>(es: seq<Entry<K, V>>, keep: seq<bool>, e: Entry<K, V>)
    requires |keep| == |es|
  {
    exists i :: 0 <= i < |es| && keep[i] && es[i] == e
  }

  /** Putting the selected entries into an empty map: its keys are the selected keys,
      its entries selected entries. */
  lemma PutAllSelected<K(!new), V(!new)>(es: seq<Entry<K, V>>, keep: seq<bool>)
    requires |keep| == |es|
    ensures forall k :: k in Keys(PutAll([], Select(es, keep))) <==> SelectedKey(es, keep, k)
    ensures forall e :: e in PutAll([], Select(es, keep)) ==> Selected(es, keep, e)
  {
    var sel := Select(es, keep);
    forall k | k in Keys(PutAll([], sel)) ensures SelectedKey(es, keep, k) {
      var j :| 0 <= j < |sel| && Keys(sel)[j] == k;
      assert sel[j] in sel;
    }
    forall k | SelectedKey(es, keep, k) ensures k in Keys(PutAll([], sel)) {
      var i :| 0 <= i < |es| && keep[i] && es[i].key == k;
      assert es[i] in sel;
      var j :| 0 <= j < |sel| && sel[j] == es[i];
      assert Keys(sel)[j] == k;
    }
  }

  /** Putting keeps keys unique. */
  lemma PutNoDup<K(!new), V>(m: seq<Entry<K, V>>, k: K, v: V)
    requires NoDupKeys(m)
    ensures NoDupKeys(Put(m, k, v))
  {
    var r := Put(m, k, v);
    assert forall i :: 0 <= i < |r| ==> r[i].key == Keys(r)[i];
    assert forall i :: 0 <= i < |m| ==> m[i].key == Keys(m)[i];
  }
}

=== FILE: schemas.dfy ===
/** The subset of the OpenAPI Schema Object the generator produces, as an immutable
    value.  One constructor per swagger schema class the generator instantiates. */
module Schemas {

  import opened Base
  import opened Text
  import OM = OrderedMap

  datatype Kind =
    | Plain          // `new Schema()`
    | BooleanS       // type boolean
    | StringS        // type string
    | IntegerS       // type integer, format int32
    | LongS          // type integer, format int64
    | NumberS        // type number, format double
    | FileS          // type string, format binary
    | ObjectS        // type object
    | ArrayS         // type array
    | MapS           // type object with additionalProperties

  /** An example or default value as the swagger classes store it; floating point
      defaults are kept as their source text. */
  datatype Value =
    | NoValue
    | TextValue(text: string)
    | BoolValue(flag: bool)
    | IntValue(number: int)
    | NumberValue(source: string)

  datatype Schema = Schema(
    kind: Kind,
    props: seq<OM.Entry<string, Schema>>,
    items: Option<Schema>,
    additional: Option<Schema>,
    name: Option<string>,
    description: Option<string>,
    example: Value,
    default: Value,
    ref: Option<string>)

  predicate IsPrimitiveKind(k: Kind) {
    k in {BooleanS, StringS, IntegerS, LongS, NumberS, FileS}
  }

  /** A freshly constructed schema of the given class. */
  function New(k: Kind): Schema {
    Schema(k, [], None, None, None, None, NoValue, NoValue, None)
  }

  /** `Schema.cast`, which `example(v)` and `_default(v)` apply to a text `v`: null stays
      null; a boolean schema stores `Boolean.parseBoolean`; an integer schema (int32 or
      int64) stores the number an optional '-' and decimal digits denote within 64 bits,
      and null for any other text; every other class stores the text as it is. */
  function Cast(k: Kind, v: Option<string>): (r: Value)
    ensures v.None? ==> r == NoValue
    ensures v.Some? && k == BooleanS ==> r.BoolValue? && (r.flag <==> EqualsIgnoreCase(v.value, "true"))
    ensures v.Some? && k !in {BooleanS, IntegerS, LongS} ==> r == TextValue(v.value)
    ensures k in {IntegerS, LongS} ==> r == NoValue || (r.IntValue? && LONG_MIN <= r.number <= LONG_MAX)
    ensures v.Some? && k in {IntegerS, LongS} ==>
              (v.value == [] || v.value[0] == '+' || !AllDigits(StripSign(v.value)) ==> r == NoValue)
  {
    match v
    case None => NoValue
    case Some(t) =>
      if k == BooleanS then
        BoolValue(ParseBoolean(v))
      else if k in {IntegerS, LongS} then
        if t != [] && t[0] == '+' then NoValue
        else match ParseSigned(t, LONG_MIN, LONG_MAX) case Some(n) => IntValue(n) case None => NoValue
      else TextValue(t)
  }

  /** An integer schema reads a rendered number back as that number, with or without a
      minus sign. */
  lemma CastNumberRoundTrip(k: Kind, n: nat)
    requires k in {IntegerS, LongS} && n <= LONG_MAX
    ensures Cast(k, Some(NatToString(n))) == IntValue(n)
    ensures Cast(k, Some("-" + NatToString(n))) == IntValue(0 - n)
  {
    var s := NatToString(n);
    assert s[0] != '-' && s[0] != '+' by { assert IsDigit(s[0]); }
    ParseNatToString(n, LONG_MIN, LONG_MAX);
    assert ("-" + s)[1..] == s;
  }

  const COMPONENTS_PREFIX: string := "#/components/schemas/"

  /** `Schema.set$ref`: a bare name is expanded to a components reference, anything with
      a '.' or '/' is kept as written. */
  function RefTo(s: string): (r: string)
    ensures '.' !in s && '/' !in s ==> r == COMPONENTS_PREFIX + s
    ensures '.' in s || '/' in s ==> r == s
    ensures |s| <= |r| && r[|r| - |s|..] == s
    ensures '/' in r || '.' in r
  {
    if '.' !in s && '/' !in s then
      assert COMPONENTS_PREFIX[1] == '/';
      COMPONENTS_PREFIX + s
    else s
  }

  /** A reference is never expanded twice: setting `$ref` to an expanded reference keeps
      it as it is. */
  lemma RefToIdempotent(s: string)
    ensures RefTo(RefTo(s)) == RefTo(s)
  {
    var r := RefTo(s);
    assert '/' in r || '.' in r;
  }

  function OptRefTo(s: Option<string>): Option<string> {
    match s case Some(v) => Some(RefTo(v)) case None => None
  }

  /** `Schema.addProperty`. */
  function AddProperty(s: Schema, key: string, value: Schema): (r: Schema)
    ensures OM.Get(r.props, key) == Some(value)
    ensures forall k :: k != key ==> OM.Get(r.props, k) == OM.Get(s.props, k)
    ensures r == s.(props := r.props)
  {
    OM.PutOthers(s.props, key, value);
    s.(props := OM.Put(s.props, key, value))
  }

  function PropertyValues(s: Schema): seq<Schema> {
    OM.Values(s.props)
  }
}

=== FILE: text.dfy ===
/** String helpers with the semantics of the Java, commons-lang and Guava calls the
    generator uses.  Case folding is ASCII only (Guava's `Ascii` is exactly that; for the
    commons `*IgnoreCase` helpers this is the modelled approximation). */
module Text {

  import opened Base

  /* ---------- characters ---------- */

  function ToLowerChar(c: char): char {
    if 'A' <= c <= 'Z' then (c as int + 32) as char else c
  }

  function ToUpperChar(c: char): char {
    if 'a' <= c <= 'z' then (c as int - 32) as char else c
  }

  predicate IsAsciiAlpha(c: char) {
    ('a' <= c <= 'z') || ('A' <= c <= 'Z')
  }

  predicate IsDigit(c: char) {
    '0' <= c <= '9'
  }

  /** `Character.isWhitespace`: ASCII separators and the Unicode space separators
      except the three non-breaking ones. */
  predicate IsWhitespace(c: char) {
    c == ' ' || c == '\t' || c == '\n' || c == '\U{000B}' || c == '\U{000C}' || c == '\r'
    || ('\U{001C}' <= c <= '\U{001F}')
    || c == '\U{1680}' || ('\U{2000}' <= c <= '\U{2006}') || ('\U{2008}' <= c <= '\U{200A}')
    || c == '\U{2028}' || c == '\U{2029}' || c == '\U{205F}' || c == '\U{3000}'
  }

  /* ---------- case ---------- */

  function Lower(s: string): (r: string)
    ensures |r| == |s|
    ensures forall i :: 0 <= i < |s| ==> r[i] == ToLowerChar(s[i])
  {
    if s == [] then [] else [ToLowerChar(s[0])] + Lower(s[1..])
  }

  predicate EqualsIgnoreCase(a: string, b: string) {
    Lower(a) == Lower(b)
  }

  /** `equalsIgnoreCase` against a constant already written in lower case, which
      `Lower` leaves as it is. */
  predicate EqualsLower(s: string, lower: string) {
    Lower(s) == lower
  }

  /** `Boolean.parseBoolean`: "true" in any case, and false for anything else, null
      included. */
  predicate ParseBoolean(v: Option<string>) {
    v.Some? && EqualsLower(v.value, "true")
  }

  /* ---------- searching ---------- */

  predicate OccursAt(s: string, t: string, i: nat) {
    i + |t| <= |s| && s[i..i + |t|] == t
  }

  /** Leftmost occurrence of `t` in `s` at or after `from` (`String.indexOf(t, from)`). */
  function IndexFrom(s: string, t: string, from: nat): (r: Option<nat>)
    decreases |s| - from
    ensures r.Some? ==> from <= r.value && OccursAt(s, t, r.value)
    ensures r.Some? ==> forall j :: from <= j < r.value ==> !OccursAt(s, t, j)
    ensures r.None? ==> forall j :: from <= j ==> !OccursAt(s, t, j)
  {
    if from + |t| > |s| then None
    else if s[from..from + |t|] == t then Some(from)
    else IndexFrom(s, t, from + 1)
  }

  predicate Contains(s: string, t: string) {
    IndexFrom(s, t, 0).Some?
  }

  lemma ContainsIff(s: string, t: string)
    ensures Contains(s, t) <==> exists i :: 0 <= i && OccursAt(s, t, i)
  {
  }

  /** Whatever contains `t + u` contains `t`. */
  lemma ContainsExtended(s: string, t: string, u: string)
    requires Contains(s, t + u)
    ensures Contains(s, t)
  {
    var i := IndexFrom(s, t + u, 0).value;
    assert s[i..i + |t|] == (t + u)[..|t|];
    assert OccursAt(s, t, i);
    ContainsIff(s, t);
  }

  /** A text lacking one of the characters of `t` does not contain `t`. */
  lemma MissingCharNotContained(s: string, t: string, j: nat)
    requires j < |t| && t[j] !in s
    ensures !Contains(s, t)
  {
  }

  /** Containing a one-character text is containing the character. */
  lemma ContainsChar(s: string, c: char)
    ensures Contains(s, [c]) <==> c in s
  {
    ContainsIff(s, [c]);
    if c in s {
      var k :| 0 <= k < |s| && s[k] == c;
      assert s[k..k + 1] == [c];
      assert OccursAt(s, [c], k);
    } else {
      MissingCharNotContained(s, [c], 0);
    }
  }

  predicate ContainsIgnoreCase(s: string, t: string) {
    Contains(Lower(s), Lower(t))
  }

  /** `containsIgnoreCase` against a constant already written in lower case. */
  predicate ContainsLower(s: string, lower: string) {
    Contains(Lower(s), lower)
  }

  predicate StartsWith(s: string, p: string) {
    p <= s
  }

  predicate StartsWithIgnoreCase(s: string, p: string) {
    |p| <= |s| && EqualsIgnoreCase(s[..|p|], p)
  }

  function CountChar(s: string, c: char): (n: nat)
    ensures n <= |s|
    ensures n == 0 <==> c !in s
  {
    if s == [] then 0 else (if s[0] == c then 1 else 0) + CountChar(s[1..], c)
  }

  /** Index of the first element equal to `x` (`List.indexOf`), -1 when absent. */
  function IndexOf(xs: seq<string>, x: string): (r: int)
    ensures -1 <= r < |xs|
    ensures r >= 0 ==> xs[r] == x && forall j :: 0 <= j < r ==> xs[j] != x
    ensures r == -1 ==> x !in xs
  {
    if xs == [] then -1
    else if xs[0] == x then 0
    else
      var r := IndexOf(xs[1..], x);
      if r == -1 then -1 else r + 1
  }

  /* ---------- blank, trim ---------- */

  /** `StringUtils.isBlank` on a non-null string. */
  predicate IsBlank(s: string) {
    forall i :: 0 <= i < |s| ==> IsWhitespace(s[i])
  }

  /** `String.trim`: drops leading and trailing characters up to U+0020. */
  function Trim(s: string): (r: string)
    ensures |r| <= |s|
    ensures r != [] ==> r[0] > ' ' && r[|r| - 1] > ' '
  {
    TrimEnd(TrimStart(s))
  }

  function TrimStart(s: string): (r: string)
    ensures |r| <= |s| && r == s[|s| - |r|..]
    ensures r != [] ==> r[0] > ' '
  {
    if s != [] && s[0] <= ' ' then TrimStart(s[1..]) else s
  }

  function TrimEnd(s: string): (r: string)
    ensures |r| <= |s| && r == s[..|r|]
    ensures r != [] ==> r[|r| - 1] > ' '
    ensures s != [] && s[0] > ' ' ==> r != [] && r[0] == s[0]
  {
    if s != [] && s[|s| - 1] <= ' ' then TrimEnd(s[..|s| - 1]) else s
  }

  /* ---------- splitting, joining, replacing ---------- */

  /** Every piece between successive leftmost occurrences of `sep`. */
  function SplitAll(s: string, sep: string): (r: seq<string>)
    requires |sep| > 0
    decreases |s|
    ensures |r| >= 1
  {
    match IndexFrom(s, sep, 0)
    case None => [s]
    case Some(i) => [s[..i]] + SplitAll(s[i + |sep|..], sep)
  }

  function DropTrailingEmpty(xs: seq<string>): (r: seq<string>)
    ensures r <= xs
    ensures r == [] || r[|r| - 1] != []
    ensures forall k :: |r| <= k < |xs| ==> xs[k] == []
  {
    if xs == [] then []
    else if xs[|xs| - 1] == [] then DropTrailingEmpty(xs[..|xs| - 1])
    else xs
  }

  /** `String.split` with a literal separator and no limit: without a match the input is
      the single piece; otherwise trailing empty pieces are removed. */
  function JavaSplit(s: string, sep: string): seq<string>
    requires |sep| > 0
  {
    if !Contains(s, sep) then [s] else DropTrailingEmpty(SplitAll(s, sep))
  }

  /** Every piece of a split is strictly shorter than the input once the separator occurs. */
  lemma {:induction false} SplitAllShorter(s: string, sep: string)
    requires |sep| > 0 && Contains(s, sep)
    ensures forall k :: 0 <= k < |SplitAll(s, sep)| ==> |SplitAll(s, sep)[k]| < |s|
    decreases |s|
  {
    var i := IndexFrom(s, sep, 0).value;
    var rest := s[i + |sep|..];
    if Contains(rest, sep) {
      SplitAllShorter(rest, sep);
    }
    assert SplitAll(s, sep) == [s[..i]] + SplitAll(rest, sep);
  }

  function Join(ws: seq<string>, sep: string): string {
    if ws == [] then []
    else if |ws| == 1 then ws[0]
    else ws[0] + sep + Join(ws[1..], sep)
  }

  function Concat(ws: seq<string>): string {
    if ws == [] then [] else ws[0] + Concat(ws[1..])
  }

  /** `String.replace(target, replacement)` with a non-empty target. */
  function ReplaceAll(s: string, t: string, rep: string): (r: string)
    requires |t| > 0
    decreases |s|
    ensures !Contains(s, t) ==> r == s
    ensures rep == [] ==> |r| <= |s| && (r == s <==> !Contains(s, t))
    ensures rep == [] && Contains(s, t) ==> |r| < |s|
  {
    match IndexFrom(s, t, 0)
    case None => s
    case Some(i) => s[..i] + rep + ReplaceAll(s[i + |t|..], t, rep)
  }

  lemma JoinCons(w: string, ws: seq<string>, sep: string)
    requires ws != []
    ensures Join([w] + ws, sep) == w + sep + Join(ws, sep)
  {
    assert ([w] + ws)[1..] == ws;
  }

  /** The pieces of a split, joined with the target, give the text back: only whole
      occurrences separate the pieces. */
  lemma {:induction false} SplitAllJoin(s: string, t: string)
    requires |t| > 0
    ensures Join(SplitAll(s, t), t) == s
    decreases |s|
  {
    match IndexFrom(s, t, 0)
    case None =>
    case Some(i) =>
      var rest := s[i + |t|..];
      var ps := SplitAll(rest, t);
      SplitAllJoin(rest, t);
      assert SplitAll(s, t) == [s[..i]] + ps;
      JoinCons(s[..i], ps, t);
      assert Join(SplitAll(s, t), t) == s[..i] + t + rest;
      Reassemble(s, t, i);
  }

  lemma Reassemble(s: string, t: string, i: nat)
    requires OccursAt(s, t, i)
    ensures s[..i] + t + s[i + |t|..] == s
  {
    assert s == s[..i] + s[i..i + |t|] + s[i + |t|..];
  }

  /** `replace` puts the replacement between those pieces. */
  lemma {:induction false} ReplaceIsSplitJoin(s: string, t: string, rep: string)
    requires |t| > 0
    ensures ReplaceAll(s, t, rep) == Join(SplitAll(s, t), rep)
    decreases |s|
  {
    match IndexFrom(s, t, 0)
    case None =>
    case Some(i) =>
      var rest := s[i + |t|..];
      var ps := SplitAll(rest, t);
      ReplaceIsSplitJoin(rest, t, rep);
      assert SplitAll(s, t) == [s[..i]] + ps;
      assert ReplaceAll(s, t, rep) == s[..i] + rep + ReplaceAll(rest, t, rep);
      JoinCons(s[..i], ps, rep);
  }

  /** Removing every occurrence never lengthens a string and leaves none behind when the
      target is a single character. */
  lemma {:induction false} RemoveCharShortens(s: string, c: char)
    ensures |ReplaceAll(s, [c], [])| <= |s|
    ensures c !in ReplaceAll(s, [c], [])
    decreases |s|
  {
    match IndexFrom(s, [c], 0)
    case None =>
      assert forall j :: 0 <= j < |s| ==> !OccursAt(s, [c], j);
      assert forall j :: 0 <= j < |s| ==> s[j] != c by {
        forall j | 0 <= j < |s| ensures s[j] != c {
          assert !OccursAt(s, [c], j);
          assert s[j..j + 1] == [s[j]];
        }
      }
    case Some(i) =>
      RemoveCharShortens(s[i + 1..], c);
      assert forall j :: 0 <= j < i ==> s[j] != c by {
        forall j | 0 <= j < i ensures s[j] != c {
          assert !OccursAt(s, [c], j);
          assert s[j..j + 1] == [s[j]];
        }
      }
  }

  function ReplaceChar(s: string, a: char, b: char): (r: string)
    ensures |r| == |s|
    ensures forall i :: 0 <= i < |s| ==> r[i] == (if s[i] == a then b else s[i])
  {
    if s == [] then [] else [if s[0] == a then b else s[0]] + ReplaceChar(s[1..], a, b)
  }

  /* ---------- Guava CaseFormat (LOWER_UNDERSCORE source) ---------- */

  /** Guava `firstCharOnlyToUpper`: upper-case head, lower-case tail. */
  function Capitalize(w: string): (r: string)
    ensures |r| == |w|
    ensures w != [] ==> r[0] == ToUpperChar(w[0]) && r[1..] == Lower(w[1..])
  {
    if w == [] then [] else [ToUpperChar(w[0])] + Lower(w[1..])
  }

  function CapitalizeAll(ws: seq<string>): (r: seq<string>)
    ensures |r| == |ws|
    ensures forall k :: 0 <= k < |ws| ==> r[k] == Capitalize(ws[k])
  {
    if ws == [] then [] else [Capitalize(ws[0])] + CapitalizeAll(ws[1..])
  }

  /** `CaseFormat.LOWER_UNDERSCORE.to(UPPER_CAMEL, s)`: every '_'-separated word,
      empty ones included, capitalized and concatenated. */
  function UpperCamel(s: string): string {
    Concat(CapitalizeAll(SplitAll(s, "_")))
  }

  /** `CaseFormat.LOWER_UNDERSCORE.to(LOWER_CAMEL, s)`: first word all lower case. */
  function LowerCamel(s: string): string {
    var ws := SplitAll(s, "_");
    Lower(ws[0]) + Concat(CapitalizeAll(ws[1..]))
  }

  lemma {:induction false} ConcatNoChar(ws: seq<string>, c: char)
    requires forall k :: 0 <= k < |ws| ==> c !in ws[k]
    ensures c !in Concat(ws)
  {
    if ws != [] {
      ConcatNoChar(ws[1..], c);
    }
  }

  lemma {:induction false} SplitAllNoSep(s: string, c: char)
    ensures forall k :: 0 <= k < |SplitAll(s, [c])| ==> c !in SplitAll(s, [c])[k]
    decreases |s|
  {
    match IndexFrom(s, [c], 0)
    case None =>
      forall j | 0 <= j < |s| ensures s[j] != c {
        assert !OccursAt(s, [c], j);
        assert s[j..j + 1] == [s[j]];
      }
    case Some(i) =>
      forall j | 0 <= j < i ensures s[j] != c {
        assert !OccursAt(s, [c], j);
        assert s[j..j + 1] == [s[j]];
      }
      SplitAllNoSep(s[i + 1..], c);
  }

  lemma CapitalizedNoUnderscore(w: string)
    requires '_' !in w
    ensures '_' !in Capitalize(w)
  {
    if w != [] {
      var c := Capitalize(w);
      forall j | 0 <= j < |c| ensures c[j] != '_' {
        if j > 0 {
          assert c[j] == Lower(w[1..])[j - 1];
        }
      }
    }
  }

  /** Capitalizing underscore-free words and concatenating them keeps them so. */
  lemma CapitalizedWordsNoUnderscore(ws: seq<string>)
    requires forall k :: 0 <= k < |ws| ==> '_' !in ws[k]
    ensures '_' !in Concat(CapitalizeAll(ws))
  {
    var cs := CapitalizeAll(ws);
    forall k | 0 <= k < |cs| ensures '_' !in cs[k] {
      CapitalizedNoUnderscore(ws[k]);
    }
    ConcatNoChar(cs, '_');
  }

  /** An upper-camel name never keeps an underscore. */
  lemma UpperCamelHasNoUnderscore(s: string)
    ensures '_' !in UpperCamel(s)
  {
    SplitAllNoSep(s, '_');
    CapitalizedWordsNoUnderscore(SplitAll(s, "_"));
  }

  /** Nor does a lower-camel name. */
  lemma LowerCamelHasNoUnderscore(s: string)
    ensures '_' !in LowerCamel(s)
  {
    var ws := SplitAll(s, "_");
    SplitAllNoSep(s, '_');
    assert '_' !in ws[0];
    assert forall j :: 0 <= j < |ws[0]| ==> Lower(ws[0])[j] == ToLowerChar(ws[0][j]);
    CapitalizedWordsNoUnderscore(ws[1..]);
  }

  /** The first piece of a split is everything before the first separator. */
  lemma SplitAllHead(w: string, c: char, x: string)
    requires c !in w
    ensures SplitAll(w + [c] + x, [c])[0] == w
  {
    var s := w + [c] + x;
    forall j | 0 <= j < |w| ensures !OccursAt(s, [c], j) {
      assert s[j] == w[j];
      assert s[j..j + 1] == [s[j]];
    }
    assert OccursAt(s, [c], |w|) by { assert s[|w|..|w| + 1] == [c]; }
    assert IndexFrom(s, [c], 0) == Some(|w|);
    assert s[..|w|] == w;
  }

  /** Lower-casing twice is lower-casing once. */
  lemma LowerIdempotent(s: string)
    ensures Lower(Lower(s)) == Lower(s)
  {
    assert forall i :: 0 <= i < |s| ==> ToLowerChar(ToLowerChar(s[i])) == ToLowerChar(s[i]);
  }

  /** A lower-camel name built from `w` + '_' + `x` starts with `w` in lower case. */
  lemma LowerCamelHead(w: string, x: string)
    requires '_' !in w
    ensures Lower(w) <= LowerCamel(w + "_" + x)
  {
    SplitAllHead(w, '_', x);
  }

  /** A join of two or more words contains its separator. */
  lemma JoinHasSeparator(ws: seq<string>, c: char)
    requires |ws| >= 2
    ensures Contains(Join(ws, [c]), [c])
  {
    assert Join(ws, [c]) == ws[0] + [c] + Join(ws[1..], [c]);
    assert Join(ws, [c])[|ws[0]|] == c;
    ContainsChar(Join(ws, [c]), c);
  }

  /** Splitting a separator-joined list of separator-free words gives the words back. */
  lemma {:induction false} SplitJoin(ws: seq<string>, c: char)
    requires |ws| >= 1
    requires forall k :: 0 <= k < |ws| ==> c !in ws[k]
    ensures SplitAll(Join(ws, [c]), [c]) == ws
  {
    var w := ws[0];
    if |ws| == 1 {
      forall j | 0 <= j ensures !OccursAt(w, [c], j) {
        if j + 1 <= |w| {
          assert w[j..j + 1] == [w[j]];
        }
      }
      assert IndexFrom(w, [c], 0).None?;
    } else {
      var s := Join(ws, [c]);
      assert s == w + [c] + Join(ws[1..], [c]);
      forall j | 0 <= j < |w| ensures !OccursAt(s, [c], j) {
        assert s[j] == w[j];
        assert s[j..j + 1] == [s[j]];
      }
      assert OccursAt(s, [c], |w|) by { assert s[|w|] == c; assert s[|w|..|w| + 1] == [c]; }
      assert IndexFrom(s, [c], 0) == Some(|w|);
      assert s[..|w|] == w;
      assert s[|w| + 1..] == Join(ws[1..], [c]);
      SplitJoin(ws[1..], c);
    }
  }

  /* ---------- numbers ---------- */

  predicate AllDigits(s: string) {
    forall i :: 0 <= i < |s| ==> IsDigit(s[i])
  }

  /** Unsigned decimal mantissa: digits with an optional fraction, at least one digit. */
  predicate IsMantissa(s: string) {
    exists k :: 0 <= k <= |s| && IsMantissaSplit(s, k)
  }

  predicate IsMantissaSplit(s: string, k: nat)
    requires k <= |s|
  {
    if k == |s| then |s| > 0 && AllDigits(s)
    else s[k] == '.' && AllDigits(s[..k]) && AllDigits(s[k + 1..]) && |s| > 1
  }

  function StripSign(s: string): string {
    if s != [] && (s[0] == '-' || s[0] == '+') then s[1..] else s
  }

  /** The decimal part of `NumberUtils.isCreatable`: optional sign, a mantissa and an
      optional exponent.  Hexadecimal, octal and type-suffixed literals are not covered. */
  predicate IsCreatable(s: string) {
    var u := StripSign(s);
    (exists e :: 0 < e < |u| && (u[e] == 'e' || u[e] == 'E') && IsMantissa(u[..e])
       && |StripSign(u[e + 1..])| > 0 && AllDigits(StripSign(u[e + 1..])))
    || IsMantissa(u)
  }

  function DigitsValue(s: string): (n: nat)
    requires AllDigits(s)
  {
    if s == [] then 0 else DigitsValue(s[..|s| - 1]) * 10 + (s[|s| - 1] as int - '0' as int)
  }

  /** `Integer.parseInt` / `Long.parseLong` within the given bounds, None where Java throws. */
  function ParseSigned(s: string, lo: int, hi: int): (r: Option<int>)
    ensures r.Some? ==> lo <= r.value <= hi
  {
    var neg := s != [] && s[0] == '-';
    var u := StripSign(s);
    if u == [] || !AllDigits(u) then None
    else
      var d: int := DigitsValue(u);
      var v := if neg then 0 - d else d;
      if lo <= v <= hi then Some(v) else None
  }

  /** Parsing the rendering of a number in range gives the number back. */
  lemma ParseNatToString(n: nat, lo: int, hi: int)
    requires lo <= n <= hi
    ensures ParseSigned(NatToString(n), lo, hi) == Some(n)
  {
    var s := NatToString(n);
    assert s[0] != '-' && s[0] != '+' by { assert IsDigit(s[0]); }
    assert StripSign(s) == s;
  }

  const INT_MIN: int := -0x8000_0000
  const INT_MAX: int := 0x7FFF_FFFF
  const LONG_MIN: int := -0x8000_0000_0000_0000
  const LONG_MAX: int := 0x7FFF_FFFF_FFFF_FFFF

  /** `NumberUtils.toInt`: the value of an optionally signed decimal digit string that
      fits 32 bits, and 0 for anything else (a fraction, an exponent, an overflow). */
  function ToInt(s: string): (r: int)
    ensures INT_MIN <= r <= INT_MAX
    ensures StripSign(s) == [] || !AllDigits(StripSign(s)) ==> r == 0
    ensures s != [] && s[0] != '-' && AllDigits(StripSign(s)) && StripSign(s) != [] ==>
              r == (if DigitsValue(StripSign(s)) <= INT_MAX then DigitsValue(StripSign(s)) else 0)
    ensures s != [] && s[0] == '-' && AllDigits(s[1..]) && s[1..] != [] ==>
              r == (if DigitsValue(s[1..]) <= -INT_MIN then 0 - DigitsValue(s[1..]) else 0)
  {
    match ParseSigned(s, INT_MIN, INT_MAX) case Some(v) => v case None => 0
  }

  /** `NumberUtils.toLong`: the same with 64-bit bounds. */
  function ToLong(s: string): (r: int)
    ensures LONG_MIN <= r <= LONG_MAX
    ensures StripSign(s) == [] || !AllDigits(StripSign(s)) ==> r == 0
    ensures s != [] && s[0] != '-' && AllDigits(StripSign(s)) && StripSign(s) != [] ==>
              r == (if DigitsValue(StripSign(s)) <= LONG_MAX then DigitsValue(StripSign(s)) else 0)
    ensures s != [] && s[0] == '-' && AllDigits(s[1..]) && s[1..] != [] ==>
              r == (if DigitsValue(s[1..]) <= -LONG_MIN then 0 - DigitsValue(s[1..]) else 0)
  {
    match ParseSigned(s, LONG_MIN, LONG_MAX) case Some(v) => v case None => 0
  }

  /** Rendering a number that fits and reading it back with `toInt` gives the number,
      with or without a minus sign. */
  lemma ToIntRoundTrip(n: nat)
    requires n <= INT_MAX
    ensures ToInt(NatToString(n)) == n
    ensures ToInt("-" + NatToString(n)) == 0 - n
  {
    var s := NatToString(n);
    assert s[0] != '-' && s[0] != '+' by { assert IsDigit(s[0]); }
    assert ("-" + s)[1..] == s;
  }

  /** `Integer.toString` for non-negative values. */
  function NatToString(n: nat): (r: string)
    ensures |r| >= 1 && AllDigits(r)
    ensures n >= 10 ==> r[0] != '0'
    ensures DigitsValue(r) == n
  {
    if n < 10 then [('0' as int + n) as char]
    else
      var r := NatToString(n / 10) + [('0' as int + n % 10) as char];
      assert r[..|r| - 1] == NatToString(n / 10);
      r
  }

  /** Distinct numbers render as distinct strings. */
  lemma NatToStringInjective(m: nat, n: nat)
    requires NatToString(m) == NatToString(n)
    ensures m == n
  {
  }
}
